=== FILE: README.md ===
# GenAI admin console — authentication, catalogue and console rules in Dafny

This project models the decision logic of a small internal tools portal. The
portal has an Express server and two FastAPI back ends, plus a React front end
with a workspace page and an admin console. The model covers:

- **Authentication and authorisation.** The Express variant extracts the bearer
  token, picks a strategy (mock, login, JWT) from the configuration, and
  resolves admins against an allow-list. Its guard answers 403 to non-admins.
  The Python variants are `AuthHandler` with its own allow-list resolver, and
  the alternative `dependencies` module, which matches e-mails exactly. The
  signature, expiry, issuer and audience checks belong to the JWT libraries.
  Here they are a verifier function passed as a parameter (`AuthTypes.Verifier`,
  `PyAuth.PyVerifier`).
- **Catalogue operations.**
  - The admin CRUD over application records: names unique up to case, routes
    unique exactly, 404 on an unknown id, partial update.
  - The name pattern of the request models.
  - The user-facing listing and the in-memory favourites of both servers.
  - The preference store, keyed by e-mail, with its validators.
- **Front-end pure logic.**
  - The forms, sort toggles and stable column sort of the admin tables.
  - The workspace search and filter, category list, favourite toggles and
    toast queue.
  - The dashboard's flattening, grouping, health summary, card links and
    metric refresh.
  - The relative-time label, the greeting, the category bars' visible/overflow
    split and the category icons.

Everything is a pure function over immutable datatypes. `Wrappers.Result` and
`Option` carry the error paths. `Http.Step` is a middleware outcome: either it
responds, or it passes a context on. File contents, environment variables,
clocks, random draws and fresh UUIDs are parameters.

JavaScript and Python semantics are written out where they matter:
- `||` on strings (`Wrappers.Truthy`, `Wrappers.OrNone`);
- `parseInt` (`Numbers.ParseInt`) and template interpolation (`Numbers.IntToString`);
- `trim`/`strip` with each language's whitespace set (`Strings.Trim`);
- `String.length` in UTF-16 units (`AdminForms.Utf16Length`);
- a regular expression's `.` refusing line terminators (`AdminForms.WebUrl`);
- `Array.prototype.slice`, and the stability of `Array.prototype.sort` (`Collections.SortByKey`, proved in `Collections.SortByKeyStable`);
- JavaScript numbers as exact integers inside the safe range below 2^53 (`Numbers.Safe`).

Modules, one file each:
- **Shared:** `Wrappers`, `Http`, `Strings`, `Numbers`, `Collections`.
- **Express authentication:** `AuthTypes`, `AdminResolver`, `AdminGuard`,
  `Strategies`, `AuthMiddleware`, `Server`.
- **FastAPI back ends:** `PyAuth`, `PyDependencies`, `AdminApps`, `AppsRoute`,
  `Preferences`.
- **Front end:** `RelativeTime`, `UserPreference`, `Workspace`, `ClientSession`,
  `WorkspaceNav`, `AdminForms`, `AdminDashboard`.

## Model

| member | source | states |
|---|---|---|
| Wrappers.OrNone | backend/auth/loginStrategy.ts:12 | `x \|\| null` on an optional string: a value exactly when it is present and non-empty, and then the same value |
| Strings.TrimIdempotent | backend/auth/adminResolver.ts:37 | trimming twice is trimming once |
| Strings.NormalizeIdempotent | backend/auth/adminResolver.ts:37-49 | lower-casing and trimming an already normalised e-mail changes nothing, so listed entries and queries meet in one form |
| Numbers.ParseIntRoundTrip | server.ts:58 | `parseInt` reads back every safe integer (below 2^53 in magnitude) that template interpolation writes |
| Numbers.ParseIntWithSuffix | src/modules/admin/utils.ts:6-12 | `parseInt` of a rendered safe integer followed by a unit suffix gives the integer |
| Collections.Filter | src/modules/workspace/WorkspaceModule.tsx:37 | `filter` keeps exactly the elements that pass, as an order-preserving subsequence |
| Collections.FilterCounts | src/modules/workspace/WorkspaceModule.tsx:37 | `filter` keeps each passing element exactly as often as it occurs, and no failing one |
| Collections.FilterTwice | src/modules/workspace/WorkspaceModule.tsx:89-103 | two successive filters keep exactly the elements meeting both conditions, each as often as it occurs, in their original order, and equal one filter by the conjunction |
| Collections.FilterDropsCount | src/shared/context/UserPreferenceContext.tsx:64 | `filter(f => f !== id)` shortens a list by exactly the number of occurrences of `id` |
| Collections.ToggleSetTwice | backend/routes/apps.py:36-45 | toggling a member of a set twice restores the set |
| Collections.SortByKeySorted | src/modules/admin/components/WorkspaceAppsTab.tsx:190-203 | the sort returns a permutation ordered by the key in the direction |
| Collections.InsertByKeyStable | src/modules/admin/components/WorkspaceAppsTab.tsx:190-203 | inserting into a sorted table places the new element after every element sharing its key |
| Collections.SortByKeyStable | src/modules/admin/components/WorkspaceAppsTab.tsx:190-203 | the sort is stable: the elements sharing any one key value appear in their input order |
| Collections.SortedKeys | src/modules/workspace/WorkspaceModule.tsx:58-60 | `Array.from(new Set(xs.map(key))).sort()` holds each key some element has, once, strictly ascending |
| AuthTypes.EnvOr | backend/auth/config.ts:5-10 | an unset or empty variable gives the fallback, a non-empty one its own value |
| AuthTypes.LoadConfig | backend/auth/config.ts:4-11 | each of mode, secret, key path and algorithm is the variable's value when it is set and non-empty, and otherwise "login", "your_super_secret_key", "./public_key.pem" and "HS256"; issuer and audience are the variable's value, or empty when unset |
| AdminResolver.TextPrefix | backend/auth/adminResolver.ts:36-37 | loading stops at the first entry that is not text, because `toLowerCase` throws and the error is caught |
| AdminResolver.LoadEntries | backend/auth/adminResolver.ts:37 | the allow-list is exactly the normalised text entries before the first non-text one |
| AdminResolver.LoadAdmins | backend/auth/adminResolver.ts:29-45 | a missing or unparsable file, or an `admins` that is not a list, gives the empty set |
| AdminResolver.LoadedAreNormal | backend/auth/adminResolver.ts:37 | every loaded entry is already lower-cased and trimmed |
| AdminResolver.ResolveAdmin | backend/auth/adminResolver.ts:47-50 | an absent or empty e-mail is never an admin; otherwise the normalised e-mail must be listed |
| AdminResolver.ResolveAdminListed | backend/auth/adminResolver.ts:37-49 | an e-mail listed with any case or surrounding spaces is recognised |
| AdminResolver.NoListNoAdmin | backend/auth/adminResolver.ts:31-44 | without a usable allow-list nobody is an admin |
| AdminResolver.Resolve | backend/auth/adminResolver.ts:52-66 | e-mail and name are unchanged; the flag is the allow-list's verdict; a listed user gains "admin" at the end only if it is missing; an unlisted user keeps the roles unchanged |
| AdminResolver.ResolveKeepsRoles | backend/auth/adminResolver.ts:55-64 | no role is ever removed |
| AdminResolver.ResolveIdempotent | backend/auth/adminResolver.ts:52-66 | resolving twice is resolving once |
| AdminResolver.RoleAndFlagCanDisagree | backend/auth/adminResolver.ts:62-65 | an unlisted user with the role "admin" keeps the role but gets `isAdmin` false |
| AdminGuard.Guard | backend/auth/adminGuard.ts:15-30 | the request continues, unchanged, exactly for a present user with `isAdmin`; every other case is 403 "Forbidden", never 401 |
| AdminGuard.GuardIgnoresRoles | backend/auth/adminGuard.ts:22 | the roles play no part in the guard's decision |
| Strategies.MockAuthenticate | backend/auth/mockStrategy.ts:6-20 | only "mock-token" is accepted; it gives the fixed test user with both roles, and the flag comes from the allow-list |
| Strategies.MockUserRoleWithoutFlag | backend/auth/mockStrategy.ts:14-19 | off the allow-list, the mock user has the role "admin" but not the flag |
| Strategies.LoginUser | backend/auth/loginStrategy.ts:10-15 | the e-mail is copied unchecked; a missing name becomes null; a missing roles claim becomes ["user"]; the user is never an admin |
| Strategies.LoginAuthenticate | backend/auth/loginStrategy.ts:7-18 | it succeeds exactly when the secret verifies the token, and every failure is "Invalid token" |
| Strategies.NewJwt | backend/auth/jwtStrategy.ts:11-24 | an empty key path is refused; a key-file error is passed on; otherwise the strategy holds the key |
| Strategies.NewJwtFailsOnlyOnRead | backend/auth/jwtStrategy.ts:12-14 | with the configured defaults, construction fails only when the key file cannot be read |
| Strategies.JwtOptions | backend/auth/jwtStrategy.ts:27-37 | only the configured algorithm is accepted; issuer and audience are checked exactly when configured non-empty |
| Strategies.JwtUser | backend/auth/jwtStrategy.ts:41-55 | a non-object payload and a payload without a non-empty e-mail are rejected, each with its message; otherwise the user is a plain, non-admin one |
| Strategies.JwtAuthenticate | backend/auth/jwtStrategy.ts:25-59 | it succeeds exactly when verification and the payload checks do; every failure carries the "JWT verification failed: " prefix |
| AuthMiddleware.StartUp | backend/auth/authMiddleware.ts:23-32 | the JWT strategy is chosen exactly for mode "jwt", the mock strategy for every other mode, and a construction error stops start-up |
| AuthMiddleware.DefaultModeIsMock | backend/auth/config.ts:5 | with no mode configured ("login"), the server runs the mock strategy |
| AuthMiddleware.BearerToken | backend/auth/authMiddleware.ts:37-43 | a token exists exactly when the header starts with "Bearer " |
| AuthMiddleware.BearerTokenText | backend/auth/authMiddleware.ts:43 | the token is the second space-separated field of the header |
| AuthMiddleware.Handle | backend/auth/authMiddleware.ts:34-56 | every failure is the same 401 "Unauthorized"; on success the attached user is the resolved result of the strategy |
| AuthMiddleware.MockRequest | backend/auth/authMiddleware.ts:43-48 | in mock mode a request passes exactly when the second field is "mock-token", and the double resolution equals a single one |
| AuthMiddleware.TrailingFieldsIgnored | backend/auth/authMiddleware.ts:43 | text after a further space does not change the token |
| PyAuth.NewHandler | backend/auth/jwt.py:14-24 | only "sso" mode needs a key; there a missing or empty path is refused and a read error is re-raised |
| PyAuth.DecodeArgs | backend/auth/jwt.py:28-46 | "sso" mode uses the public key, the configured algorithm, and issuer/audience only when set; other modes use the secret with HS256 alone |
| PyAuth.DecodeToken | backend/auth/jwt.py:26-60 | a library error is 401 "Invalid token"; a missing or empty e-mail is 401 "Token missing email claim"; otherwise a plain user with roles ["user"] |
| PyAuth.PyResolve | backend/auth/jwt.py:83-88 | a user whose lower-cased, stripped e-mail is listed gets the flag, and "admin" appended if missing; anyone else is returned untouched |
| PyAuth.PyResolveMonotoneIdempotent | backend/auth/jwt.py:83-88 | resolution never lowers the flag, and resolving twice is resolving once |
| PyAuth.CurrentUser | backend/auth/jwt.py:92-96 | it fails only when decoding does (always 401); the flag holds exactly for listed e-mails, with roles ["user", "admin"], else ["user"] |
| PyAuth.PyAdminGuard | backend/auth/jwt.py:98-102 | an authenticated user without the flag gets 403 "Forbidden"; errors and admins pass through |
| PyAuth.AdminRouteOutcome | backend/auth/jwt.py:92-102 | behind the guard, 401 means a bad token, 403 an unlisted user, and success a listed one |
| PyDependencies.LoadDepConfig | backend/config.py:3-7 | each of the four variables, when set, is taken as it is, an empty value included; unset, the key path and algorithm ("RS256") fall back to their defaults and issuer and audience are absent |
| PyDependencies.LoadPublicKey | backend/auth/dependencies.py:16-26 | a missing key file becomes a 500 "Public key file not found."; any other read error propagates |
| PyDependencies.DepOptions | backend/auth/dependencies.py:35-41 | issuer and audience are always passed, unset ones included |
| PyDependencies.RolesFor | backend/auth/dependencies.py:52-54 | the roles are "user", plus "admin" exactly when the e-mail is listed verbatim |
| PyDependencies.GetCurrentUser | backend/auth/dependencies.py:28-56 | a verification failure or an absent e-mail is 401 "Could not validate credentials" with `WWW-Authenticate: Bearer`; the name defaults to ""; an unreadable list is a 500 |
| PyDependencies.DepAdminGuard | backend/auth/dependencies.py:58-64 | 403 exactly when "admin" is not among the roles |
| PyDependencies.DepAdminExact | backend/auth/dependencies.py:49-64 | admin access is granted exactly to e-mails listed verbatim, case and spaces included |
| AdminApps.CheckUnique | backend/routes/admin_apps.py:35-40 | no error exactly when no record clashes; otherwise the first clashing record decides, name before route |
| AdminApps.LoadApps | backend/routes/admin_apps.py:13-20 | a missing or unreadable file reads as the empty catalogue |
| AdminApps.CreateApp | backend/routes/admin_apps.py:31-52 | 409 exactly when some record has the name up to case or the exact route; otherwise one new record is appended and the others are unchanged |
| AdminApps.FindIndex | backend/routes/admin_apps.py:58 | the first record with the id, or none when no record has it |
| AdminApps.Patch | backend/routes/admin_apps.py:70-80 | exactly the supplied fields are overwritten, and the id is kept |
| AdminApps.UpdateAppAsWritten | backend/routes/admin_apps.py:54-84 | the update as written: 404 for an unknown id; only a non-empty name or route is checked against the other records, yet every supplied field is written |
| AdminApps.UpdateAsWrittenDuplicatesRoute | backend/routes/admin_apps.py:62-68 | an empty route supplied on update can duplicate another record's empty route |
| AdminApps.UpdateApp | backend/routes/admin_apps.py:54-84 | 404 for an unknown id; 409 exactly when a supplied name or route clashes with another record; otherwise only the target is patched |
| AdminApps.UpdateVersionsAgree | backend/routes/admin_apps.py:62-68 | the two update versions differ only when an empty name or route is supplied |
| AdminApps.DeleteApp | backend/routes/admin_apps.py:86-95 | 404 exactly for an unknown id; otherwise exactly that record is removed and the rest keep their order |
| AdminApps.CreatePreservesInvariant | backend/routes/admin_apps.py:31-52 | a create under a fresh id keeps ids and names up to case distinct, keeps routes distinct (or, in the weaker invariant, distinct unless both empty), and keeps every name valid |
| AdminApps.UpdatePreservesInvariant | backend/routes/admin_apps.py:54-84 | the corrected update keeps either invariant |
| AdminApps.UpdateAsWrittenKeepsUpToEmpty | backend/routes/admin_apps.py:54-84 | the update as written keeps ids and names up to case distinct and routes distinct except for empty ones, when a supplied name is valid |
| AdminApps.DeletePreservesInvariant | backend/routes/admin_apps.py:86-95 | a delete keeps either invariant, and the id is gone afterwards |
| AdminApps.CreateThenDelete | backend/routes/admin_apps.py:31-95 | deleting the record just created gives back the original catalogue |
| AdminApps.Serve | backend/routes/admin_apps.py:26-95 | the admin guard decides first; a name breaking the pattern is 422; a 409 clash on create or update and a 404 for an unknown id are the reply, with the catalogue unchanged; a successful create or update is saved before the reply is checked against the response model (a UUID id and a pattern-matching name), so a 500 can follow a saved change; a delete of a known id removes it and succeeds; a listing that breaks the response model is a 500 |
| AdminApps.ServeRefusals | backend/routes/admin_apps.py:31-68 | for an admin, a clashing create is answered 409 and an update of an unknown id 404, in either version, without rewriting the catalogue |
| AdminApps.ServePreservesInvariant | backend/models/index.py:11-31 | every request to the routes as written, from anyone, keeps ids and names up to case distinct, routes distinct except for empty ones, and names matching `^[a-zA-Z0-9_-]+$` |
| AdminApps.CorrectedServeKeepsUnique | backend/routes/admin_apps.py:26-95 | with the corrected update, every request keeps routes fully distinct as well |
| AdminApps.ServeAsWrittenDuplicatesRoute | backend/routes/admin_apps.py:54-84 | through the routes as written, an admin's `PUT` with an empty route turns a unique catalogue into one with two empty routes, and is not refused with 409 |
| AdminApps.SavedThenRefused | backend/routes/admin_apps.py:54-84 | an update of a record whose stored name breaks the pattern is written to the file and then answered with a 500 |
| AppsRoute.IdString | backend/routes/apps.py:20 | `str(id)` keeps a text id and renders a numeric id so that it reads back as the number |
| AppsRoute.ToCard | backend/routes/apps.py:20-33 | the card's favourite flag is membership of `str(id)`; missing description, category and route become "", "Uncategorized" and "#" |
| AppsRoute.GetApps | backend/routes/apps.py:13-33 | every card is favourite-flagged by membership, and every active record has its card |
| AppsRoute.GetAppsOnlyActive | backend/routes/apps.py:15 | every card comes from a record whose `isActive` is true or missing |
| AppsRoute.GetAppsIsFilterThenMap | backend/routes/apps.py:13-34 | the listing is the active records, in file order, each made a card |
| AppsRoute.ToggleFavorite | backend/routes/apps.py:36-45 | a present id is removed ("removed"), an absent one added ("added"), and the reply reports membership afterwards |
| AppsRoute.ToggleFavoriteTwice | backend/routes/apps.py:36-45 | toggling the same id twice restores the favourites |
| AppsRoute.ToggleAffectsOnlyThatId | backend/routes/apps.py:26 | a toggle changes the flag of exactly the cards with that id |
| Server.IsFavorite | server.ts:52 | only a numeric id can be a favourite, since the set holds numbers |
| Server.ListApps | server.ts:24-55 | every configured entry is returned in order, flagged by membership of its id; a missing or unparsable file gives none; a parsed file without an `apps` array is a 500 |
| Server.ToggleChangesListing | server.ts:48-68 | toggling a rendered number changes the listing's flag for exactly the entries with that numeric id |
| Server.ToggleFavorite | server.ts:57-68 | the parsed id is removed or added, and the reply reports membership afterwards |
| Server.ToggleBySpelling | server.ts:58 | two spellings that parse to the same number undo each other |
| Server.ToggleRenderedId | server.ts:57-68 | toggling a rendered number flips exactly the entry with that numeric id |
| Server.NaNToggleIsInvisible | server.ts:58-67 | a parameter that is no number toggles `NaN`, and no entry's flag changes |
| Server.MetricFor | server.ts:70-79 | ids 1, 2 and 12 get their metric with the random draw in range; every other id gets the uptime fallback |
| Server.LoginTokenAccepted | server.ts:40-45 | the issued token passes the middleware in mock mode |
| Server.GuardsOf | server.ts:36-82 | exactly health and login are open, and no route has the admin guard |
| Server.AdminRoutesOpenToNonAdmins | server.ts:82 | a non-admin mock user gets through to the admin router |
| Preferences.Elements | backend/app/schemas/user_preferences.py:27 | `set(v)` holds exactly the list's elements |
| Preferences.UniqueIffDistinct | backend/app/schemas/user_preferences.py:25-29 | `len(v) == len(set(v))` holds exactly when no element repeats |
| Preferences.GetOrCreate | backend/app/services/preferences_service.py:8-16 | an existing row is returned with the store unchanged; otherwise a row with "dark" and no favourites is added |
| Preferences.GetOrCreateIdempotent | backend/app/services/preferences_service.py:9-10 | a second lookup creates nothing |
| Preferences.UpdateTheme | backend/app/services/preferences_service.py:18-23 | only the caller's theme changes (the row is created first if needed); the favourites and the other rows are kept |
| Preferences.UpdateFavorites | backend/app/services/preferences_service.py:25-30 | only the caller's favourites change; the theme and the other rows are kept |
| Preferences.UpdateThemeIdempotent | backend/app/services/preferences_service.py:18-23 | writing the same theme twice is writing it once |
| Preferences.Serve | backend/app/routes/preferences.py:13-39 | authentication first; a theme other than "light"/"dark" or a list with repeats is refused before the store is touched; only the caller's row can change |
| Preferences.ServePreservesValid | backend/app/schemas/user_preferences.py:13-29 | every request keeps each stored theme valid and each favourites list free of repeats |
| RelativeTime.Suffix | src/modules/admin/utils.ts:6-12 | every unit suffix starts with a letter other than "x", so it cannot extend the number before it |
| RelativeTime.Bucket | src/modules/admin/utils.ts:4-12 | the unit is seconds below 60, minutes below 3600, hours below 86400, days otherwise, and the count is the floored quotient |
| RelativeTime.BucketIsSingleFloor | src/modules/admin/utils.ts:7-11 | the nested floor divisions equal one floor division by the unit's length |
| RelativeTime.Label | src/modules/admin/utils.ts:1-13 | the label is the count followed by the unit suffix, and the count reads back; an invalid date gives "NaNd ago" |
| RelativeTime.FutureIsNegativeSeconds | src/modules/admin/utils.ts:4-6 | a future date shows a negative number of seconds |
| UserPreference.InitialTheme | src/shared/context/UserPreferenceContext.tsx:17-23 | "dark" exactly when "dark" is saved, or when nothing is saved and the system prefers dark |
| UserPreference.StoredTheme | src/shared/context/UserPreferenceContext.tsx:37-46 | local storage receives "dark" for "dark" and "light" for anything else |
| UserPreference.SavedThemeRestored | src/shared/context/UserPreferenceContext.tsx:17-46 | a stored theme wins over the system preference on the next start |
| UserPreference.SetTheme | src/shared/context/UserPreferenceContext.tsx:48-53 | the local theme always changes; the server is told exactly when signed in |
| UserPreference.SetFavorites | src/shared/context/UserPreferenceContext.tsx:55-60 | the local list always changes; the server is told exactly when signed in |
| UserPreference.ToggleList | src/shared/context/UserPreferenceContext.tsx:62-66 | a present id loses every occurrence while the other ids keep all their occurrences in order (an order-preserving subsequence, shorter by exactly the id's count); an absent id is appended at the end |
| UserPreference.ToggleListTwice | src/shared/context/UserPreferenceContext.tsx:62-66 | toggling an absent id twice restores the list |
| UserPreference.ToggleListKeepsDistinct | src/shared/context/UserPreferenceContext.tsx:62-66 | a list without repeats keeps none, so the server's uniqueness check accepts it |
| UserPreference.ToggleFavorite | src/shared/context/UserPreferenceContext.tsx:62-67 | the id's membership flips, the other ids keep their occurrences in order, and the new list is saved exactly when signed in |
| UserPreference.Hydrate | src/shared/context/UserPreferenceContext.tsx:26-35 | when signed in, fetched preferences replace the local ones |
| Workspace.RemoveToast | src/modules/workspace/WorkspaceModule.tsx:36-38 | every toast with the id is dropped; every other toast stays, as often as it occurred, in its order |
| Workspace.FilteredApps | src/modules/workspace/WorkspaceModule.tsx:89-103 | an order-preserving subsequence holding exactly the applications that match the search and the view, each as often as it occurs |
| Workspace.BlankQueryShowsAll | src/modules/workspace/WorkspaceModule.tsx:91 | a whitespace-only query, with no category selected, shows every application |
| Workspace.FirstWithId | src/modules/workspace/WorkspaceModule.tsx:63 | `find` gives the first application with the id, or none |
| Workspace.SelectedApp | src/modules/workspace/WorkspaceModule.tsx:105-107 | the selected application exists exactly when some application has the id, and it carries that id |
| Workspace.HandleToggleFav | src/modules/workspace/WorkspaceModule.tsx:62-81 | an unknown id is a no-op; otherwise every application with the id gets the negated flag of the first match, with a toast, and the server is called only when live |
| Workspace.ToggleFavTwice | src/modules/workspace/WorkspaceModule.tsx:62-70 | toggling twice restores the list when the applications sharing the id agree on the flag |
| ClientSession.AdminChecksDisagree | src/modules/admin/AdminModule.tsx:25 | the dashboard's `role === 'admin'` check and the header's `roles` check disagree: a user whose roles list "admin" is not an admin to the dashboard |
| WorkspaceNav.Greeting | src/modules/workspace/components/Header.tsx:23-28 | morning exactly before 12, afternoon exactly from 12 to before 18, evening from 18 |
| WorkspaceNav.GreetingMonotone | src/modules/workspace/components/Header.tsx:23-28 | the greeting only moves forward through the day |
| WorkspaceNav.AdminSwitch | src/modules/workspace/components/Header.tsx:58-65 | go to `/admin` exactly when the roles list "admin", otherwise an error toast; the menu closes either way |
| WorkspaceNav.AdminSwitchIgnoresRole | src/modules/workspace/components/Header.tsx:58-65 | the singular `role` field plays no part in the switch |
| WorkspaceNav.Avatar | src/modules/workspace/components/Header.tsx:153 | the first character of the name, empty for an empty name |
| WorkspaceNav.EmailLine | src/modules/workspace/components/Header.tsx:167 | the user's e-mail when non-empty, else the lower-cased name with whitespace runs made dots, at "@samsung.com" |
| WorkspaceNav.FallbackEmailShape | src/modules/workspace/components/Header.tsx:167 | the fallback has no whitespace before the domain, and is the name itself for a lower-case word |
| WorkspaceNav.Visible | src/modules/workspace/components/CategoryNav.tsx:16 | the first `max` categories (all when fewer) |
| WorkspaceNav.Overflow | src/modules/workspace/components/CategoryNav.tsx:17 | the categories after the first `max` |
| WorkspaceNav.SlicesPartition | src/modules/workspace/components/CategoryTabs.tsx:27-29 | visible followed by overflow is the input, and "More" exists exactly when there are more than `max` categories |
| WorkspaceNav.MoreHighlightedMeans | src/modules/workspace/components/CategoryNav.tsx:77 | "More" is highlighted exactly when the selection is in the overflow; with nothing selected, only an empty-named overflow category lights it |
| WorkspaceNav.HighlightInOnePlace | src/modules/workspace/components/CategoryTabs.tsx:80 | with distinct names, a highlighted "More" means no visible entry is the selection |
| WorkspaceNav.ChooseOverflow | src/modules/workspace/components/CategoryNav.tsx:105-108 | choosing an overflow entry selects it and closes the dropdown |
| WorkspaceNav.ChosenOverflowHighlightsMore | src/modules/workspace/components/CategoryNav.tsx:34-108 | after choosing an overflow entry, "More" is highlighted and "All Tools" is not |
| WorkspaceNav.CategoryIcon | src/modules/workspace/components/CategoryTabs.tsx:12-21 | the first of product, know, plat, data, set contained in the lower-cased name decides the icon, else Folder; size 18 collapsed, 16 otherwise |
| WorkspaceNav.CategoryIconCaseBlind | src/modules/workspace/components/CategoryTabs.tsx:14 | the icon ignores letter case |
| WorkspaceNav.ProductWins | src/modules/workspace/components/CategoryTabs.tsx:15 | "product" anywhere in the name wins over every other keyword |
| AdminForms.Utf16Length | src/modules/admin/components/WorkspaceAppsTab.tsx:68 | `length` counts between one and two units per character |
| AdminForms.PatternNameLength | src/modules/admin/components/WorkspaceAppsTab.tsx:68-75 | for a name of pattern characters, `length` is the character count |
| AdminForms.WebUrlExtends | src/modules/admin/components/WorkspaceAppsTab.tsx:80-83 | the URL pattern is anchored at the start only |
| AdminForms.NameCheck | src/modules/admin/components/ManageCategoriesTab.tsx:49-57 | "required" for a missing, empty or over-50-unit name, then "invalid" for a character outside `[a-zA-Z0-9 &_-]`, else no error |
| AdminForms.ValidateApp | src/modules/admin/components/WorkspaceAppsTab.tsx:67-85 | name, then category, then URL; the first failure is the one message, and an empty URL is accepted |
| AdminForms.NewAppForm | src/modules/admin/components/WorkspaceAppsTab.tsx:161-174 | the first category's name (or ""), icon "Box", active 1, metrics 0 |
| AdminForms.NewAppFormNeedsNameAndCategory | src/modules/admin/components/WorkspaceAppsTab.tsx:67-85 | a fresh form is refused for its name; once named, it passes exactly when the name is valid and a first category with a name exists |
| AdminForms.FormNamesWiderThanServer | backend/models/index.py:20 | every server-valid name up to 50 characters passes the form, but "My App" passes the form and fails the server pattern |
| AdminForms.ValidateCategory | src/modules/admin/components/AdminCategoriesPage.tsx:44-54 | a category is accepted exactly when its name passes the name checks; no other field is checked |
| AdminForms.CategoryAndAppNamesAgree | src/modules/admin/components/ManageCategoriesTab.tsx:48-58 | a category and an application with the same name get the same name verdict |
| AdminForms.ValidateLink | src/modules/admin/components/AdminDashboardLinksTab.tsx:51-61 | a name is required, then a URL; there are no length or format checks |
| AdminForms.NewLinkFormNeedsNameThenUrl | src/modules/admin/components/AdminDashboardLinksTab.tsx:140-150 | a fresh link ("", "Link", "", 0, active) is refused for its name, then for its URL |
| AdminForms.EditedLinkPasses | src/modules/admin/components/AdminDashboardLinksTab.tsx:134-138 | a stored link passes again exactly when its name and URL are non-empty |
| AdminForms.StartEdit | src/modules/admin/components/AdminCategoriesPage.tsx:123-127 | edit mode for that row with a copy as the form, never together with create mode |
| AdminForms.StartCreate | src/modules/admin/components/ManageCategoriesTab.tsx:140-147 | create mode with the screen's defaults and no row being edited |
| AdminForms.CancelEdit | src/modules/admin/components/AdminCategoriesPage.tsx:138-142 | neither mode, and an empty form |
| AdminForms.StartEditApp | src/modules/admin/components/WorkspaceAppsTab.tsx:155-159 | the edited id is the form's id, and an unchanged row passes exactly when its stored fields do |
| AdminForms.CancelForgets | src/modules/admin/components/ManageCategoriesTab.tsx:149-153 | cancelling gives the same state whatever was going on before |
| AdminForms.HandleSort | src/modules/admin/components/ManageCategoriesTab.tsx:155-161 | the clicked column becomes the key; descending exactly when that column was ascending |
| AdminForms.HandleSortPeriodTwo | src/modules/admin/components/AdminDashboardLinksTab.tsx:158-164 | two more clicks on the same column give back the same order |
| AdminForms.SortedRows | src/modules/admin/components/AdminDashboardLinksTab.tsx:166-179 | without a sort the rows are returned as they are; otherwise a permutation ordered by the column in the direction |
| AdminForms.SortedRowsStable | src/modules/admin/components/AdminDashboardLinksTab.tsx:166-179 | rows showing the same value in the sorted column keep their relative order |
| AdminForms.LinksByOrderDescending | src/modules/admin/components/AdminDashboardLinksTab.tsx:166-179 | sorting links descending by display order puts larger orders first |
| AdminForms.AppsByNameAscending | src/modules/admin/components/WorkspaceAppsTab.tsx:190-203 | sorting applications ascending by name orders the names |
| AdminDashboard.Initial | src/modules/admin/AdminModule.tsx:43-53 | a configured service starts healthy, with no metrics, under its category's name |
| AdminDashboard.Flatten | src/modules/admin/AdminModule.tsx:40-55 | as many services as the categories configure, each healthy, without metrics, under a configured category's name |
| AdminDashboard.FlattenAppend | src/modules/admin/AdminModule.tsx:41-55 | the flattening is category-major: flattening two lists one after the other is flattening them together |
| AdminDashboard.CategoriesOfConfig | src/modules/admin/AdminModule.tsx:40-62 | the sidebar lists, once each and ascending, exactly the configured category names that have at least one service |
| AdminDashboard.Heading | src/modules/admin/AdminModule.tsx:140 | "Application Management" for the applications entry, else the category's name, else "System Overview" |
| AdminDashboard.Group | src/modules/admin/components/AdminDashboardCards.tsx:26-28 | a group is a permutation of its category's services, ordered by name |
| AdminDashboard.GroupStable | src/modules/admin/components/AdminDashboardCards.tsx:26-28 | services of one category that share a name keep their arrival order in the group |
| AdminDashboard.GroupServices | src/modules/admin/components/AdminDashboardCards.tsx:15-31 | one group exactly for each category that occurs, with the categories strictly ascending |
| AdminDashboard.EveryServiceInOwnGroup | src/modules/admin/components/AdminDashboardCards.tsx:16-22 | each service is in the group of its own category and in no other |
| AdminDashboard.GroupNotEmpty | src/modules/admin/components/AdminDashboardCards.tsx:17-22 | the group of a category that occurs is never empty |
| AdminDashboard.CategoriesToRender | src/modules/admin/components/AdminDashboardCards.tsx:33-35 | the active category alone when one is set, otherwise every category in order |
| AdminDashboard.RenderGroups | src/modules/admin/components/AdminDashboardCards.tsx:37-61 | one section for each category to render that has services, in order; the notice exactly when there is nothing to render |
| AdminDashboard.ActiveWithoutServicesIsBlank | src/modules/admin/components/AdminDashboardCards.tsx:40-60 | an active category without services draws no section and no notice |
| AdminDashboard.AllCategoriesRendered | src/modules/admin/components/AdminDashboardCards.tsx:33-60 | with no active category every category gets its section, ascending; the notice shows exactly when there are no services |
| AdminDashboard.UnhealthyServices | src/modules/admin/components/HealthSummaryCard.tsx:13-15 | exactly the services in WARNING or CRITICAL, each as often as it occurs, in their original order |
| AdminDashboard.CountsCoverUnhealthy | src/modules/admin/components/HealthSummaryCard.tsx:18-19 | the critical and warning counts add up to the number of unhealthy services |
| AdminDashboard.CriticalsCount | src/modules/admin/components/HealthSummaryCard.tsx:18 | there are criticals exactly when some service is CRITICAL |
| AdminDashboard.WarningsCount | src/modules/admin/components/HealthSummaryCard.tsx:19 | there are warnings exactly when some service is WARNING |
| AdminDashboard.IsHealthy | src/modules/admin/components/HealthSummaryCard.tsx:17 | healthy exactly when no service is in WARNING or CRITICAL |
| AdminDashboard.StatusTone | src/modules/admin/components/HealthSummaryCard.tsx:29-39 | rose exactly with a critical, amber exactly with a warning and no critical, emerald exactly when healthy |
| AdminDashboard.FirstUnhealthy | src/modules/admin/components/HealthSummaryCard.tsx:26 | the first unhealthy service is the earliest service in WARNING or CRITICAL |
| AdminDashboard.SummaryMessage | src/modules/admin/components/HealthSummaryCard.tsx:21-27 | the all-clear text when healthy; otherwise an alert that ends with the first unhealthy service's name and whose text after "System alert: " reads back as the critical count, then after " critical failure(s) and " the warning count; with no criticals it reads back as the warning count |
| AdminDashboard.AlertReads | src/modules/admin/components/HealthSummaryCard.tsx:21-27 | the alert text starts with its lead, ends with the name, and reads back the counts it was built from |
| AdminDashboard.Headline | src/modules/admin/components/HealthSummaryCard.tsx:58 | "All Systems Operational" when healthy; otherwise a line whose leading number is the critical count, and whose text after "<count> Critical, " reads back as the warning count |
| AdminDashboard.TwoCounts | src/modules/admin/components/HealthSummaryCard.tsx:58 | two numbers rendered with a non-digit text between them both read back from their places |
| AdminDashboard.OpenUrl | src/modules/admin/components/AdminCard.tsx:45 | the service's URL when non-empty, else `https://{id}.example.com` |
| AdminDashboard.OpenTarget | src/modules/admin/components/AdminCard.tsx:46-50 | a new tab exactly for ctrl, meta or the middle button |
| AdminDashboard.Refresh | src/modules/admin/components/AdminCard.tsx:19-35 | a non-empty fetch replaces the metrics; an empty one keeps them; a failure shows Status N/A |
| AdminDashboard.RefreshKeepsSomething | src/modules/admin/components/AdminCard.tsx:26-31 | a card with metrics never becomes empty, and repeating an outcome changes nothing |
| AdminDashboard.Mount | src/modules/admin/components/AdminCard.tsx:37-42 | a card fetches on mount only when it starts without metrics |
| AdminDashboard.ConfiguredCardsFetch | src/modules/admin/AdminModule.tsx:52 | every card built from the configuration fetches its metrics on mount |

## Left out

- Signature, expiry, issuer and audience checks. They belong to `jsonwebtoken` and python-jose, and are a verifier function passed in. The model only fixes which key and options are passed.
- File and environment I/O are inputs: `.env`, key files, `admin_users.json`, `apps.json`, `config.json`. The SQL session is a map from e-mail to row. Writing files back, logging and `process.exit` have no bearing on decisions.
- HTTP plumbing: Express and FastAPI routing, CORS, Vite and static serving. FastAPI's `HTTPBearer` and `OAuth2PasswordBearer` header parsing is not modelled: the Python handlers receive the token itself. The 400 and 500 wrappers in the preference routes are not modelled either, and neither is the structured detail of a 422 validation error.
- Strings.Lower: lower-cases ASCII letters only. JavaScript `toLowerCase` and Python `lower` also fold other scripts, and the model does not.
- Strings.Less: compares code points. JavaScript `<` and `sort()` compare UTF-16 units, and `localeCompare` uses the locale's collation. The model treats all three as this one total order.
- AdminForms.SortedRows: the optional `key_features` column is not sortable. Comparing `undefined` with `<` is left out.
- AdminResolver.LoadAdmins: an allow-list file whose `admins` is a string or an object is treated as having no list.
- PyDependencies.GetCurrentUser: the allow-list is taken to be a list of e-mails. An `admins` that is a string makes `email in admin_users` a substring test, and an object makes it a key test (backend/auth/dependencies.py:50-53); neither is modelled.
- AdminApps.LoadApps: stored records are taken as complete, with text ids. A stored record without `name` or `route` makes create and update raise `KeyError`, which FastAPI answers with 500 (backend/routes/admin_apps.py:37-39, 65-67). A numeric stored id never equals the path's text, so its update is a 404 (line 58). Neither case is modelled here; `AppsRoute.StoredApp` reads the same file with optional fields and numeric ids.
- PyAuth.DecodeToken: claims are modelled as optional strings. An e-mail or name claim of another JSON type is not modelled.
- AppsRoute.IdString: a stored id is text or an integer. Other JSON values are left out, and `id` is not checked to be a UUID.
- Display-only fields are omitted: icons, descriptions, sparkline histories, `lastUpdated`, and the workspace card's status strings. The workspace card's display fields are also left out.
- Clocks, `Math.random` and `uuid4` are parameters: the hour, the elapsed milliseconds, the random draws and the fresh id.
- Toasts' timers, `navigate`, `window.open` and `localStorage` are left out. The model returns what would be passed to them.
- `LoginStrategy` is modelled, but `authMiddleware.ts` never selects it: mode "login" runs the mock strategy.
- WorkspaceNav.Avatar: uses the first code point. `charAt(0)` would give half of a surrogate pair for a character outside the basic plane.
- AdminForms.LinkValue: a display order that is `NaN` is not modelled. Every order is an integer.
- AdminDashboard.GroupServices: categories named like `Object.prototype` members, such as "constructor", are not modelled. The source keys its groups by a plain object.
- The `AuthUser` defaults of `backend/models/index.py` (lines 5-9) are never used by the modelled code. Every construction passes all four fields, so the defaults are not modelled separately.
- The duplicated user-preference hook and the admin route stubs hold no logic beyond what is modelled.
- Numbers.ParseInt: reads the digit run exactly. JavaScript rounds a run beyond 2^53 to the nearest double, so two long ids can parse to the same number; that rounding is not modelled, and the round-trip lemmas ask for a safe integer.
- Numbers.IntToString: renders every integer in positional digits. JavaScript switches to exponent notation from 10^21 in magnitude; that form is not modelled.
- PyAuth.Settings: `jwt.py` imports `settings` from `backend.config`, which defines only `config`, and with neither `AUTH_MODE` nor `JWT_SECRET`. As written that import fails and the handler never loads. The model takes the settings' fields as given.
- AdminApps.Serve: whether a record id is a UUID is a predicate passed in (`isUuid`). Pydantic's UUID grammar is not modelled.
- Server.ListApps: an entry of the `apps` array is an object. A `null` entry, on which `app.id` throws, is not modelled.

## Findings

| source | as written | input that shows it | evidently intended | confidence | as-written member | corrected member |
|---|---|---|---|---|---|---|
| backend/routes/admin_apps.py:62-68 | the uniqueness scan skips a name or route whose new value is falsy (`if app_in.route and …`), but the field is then written whenever it is not `None` | a catalogue where record "a" has route "" and record "b" has route "/b"; a `PUT` for "b" with `{"route": ""}` stores a second empty route | every supplied field is checked against the other records, so routes stay unique | not executed | AdminApps.ServeAsWrittenDuplicatesRoute | AdminApps.CorrectedServeKeepsUnique |

=== FILE: admin_apps.dfy ===
/**
 * The FastAPI admin CRUD over the application catalogue (a JSON file of
 * records). Every route sits behind the admin guard; names are unique up to
 * case, routes are unique exactly.
 */
module AdminApps {
  import opened Wrappers
  import opened Strings
  import opened Http
  import opened PyAuth

  /** A stored catalogue record; `id` is the text of a UUID. */
  datatype App = App(id: string, name: string, description: string, category: string, route: string, isActive: bool)

  /** The body of a create request. */
  datatype AppCreate = AppCreate(name: string, description: string, category: string, route: string, isActive: bool)

  /** The body of an update request: `None` leaves a field as it is. */
  datatype AppUpdate = AppUpdate(name: Option<string>, description: Option<string>, category: Option<string>,
                                 route: Option<string>, isActive: Option<bool>)

  /** The character class of the name pattern `^[a-zA-Z0-9_-]+$`. */
  predicate NameChar(c: char) {
    'a' <= c <= 'z' || 'A' <= c <= 'Z' || '0' <= c <= '9' || c == '_' || c == '-'
  }

  /** A name the model validation accepts: non-empty, pattern characters only. */
  predicate ValidName(s: string) {
    |s| >= 1 && forall i :: 0 <= i < |s| ==> NameChar(s[i])
  }

  /** Names are compared after lower-casing. */
  predicate SameName(a: string, b: string) {
    Lower(a) == Lower(b)
  }

  /** Two routes are kept apart: they differ, or, when `strict` is off, both are empty. */
  predicate RoutesApart(r1: string, r2: string, strict: bool) {
    r1 != r2 || (!strict && r1 == "")
  }

  /** Distinct ids, names distinct up to case, and routes apart. */
  ghost predicate Distinguished(apps: seq<App>, strict: bool) {
    forall i, j :: 0 <= i < |apps| && 0 <= j < |apps| && i != j ==>
      apps[i].id != apps[j].id && !SameName(apps[i].name, apps[j].name) && RoutesApart(apps[i].route, apps[j].route, strict)
  }

  /** The catalogue invariant the uniqueness checks aim at: distinct ids, names distinct up to case, distinct routes. */
  ghost predicate Unique(apps: seq<App>) {
    Distinguished(apps, true)
  }

  /** What the routes as written keep: as `Unique`, except that several records may share the empty route. */
  ghost predicate UniqueUpToEmptyRoutes(apps: seq<App>) {
    Distinguished(apps, false)
  }

  /** Every stored name satisfies the pattern. */
  predicate AllValid(apps: seq<App>) {
    forall i :: 0 <= i < |apps| ==> ValidName(apps[i].name)
  }

  const NameTaken := HttpError(409, "App name already exists", None)
  const RouteTaken := HttpError(409, "App route already exists", None)
  const AppNotFound := HttpError(404, "App not found", None)
  /** Request-body validation failure (the framework's structured detail is not modelled). */
  const Unprocessable := HttpError(422, "Unprocessable Entity", None)
  /** A stored record that fails the response model's name pattern (the framework answers 500). */
  const ResponseInvalid := HttpError(500, "Internal Server Error", None)

  /** `a` conflicts with a candidate name/route; a `None` candidate is not checked. */
  predicate NameClash(a: App, name: Option<string>) {
    name.Some? && SameName(a.name, name.value)
  }

  predicate RouteClash(a: App, route: Option<string>) {
    route.Some? && a.route == route.value
  }

  predicate Clash(a: App, name: Option<string>, route: Option<string>) {
    NameClash(a, name) || RouteClash(a, route)
  }

  /** `i` is the first record that conflicts. */
  predicate FirstClashAt(apps: seq<App>, name: Option<string>, route: Option<string>, i: int) {
    0 <= i < |apps| && Clash(apps[i], name, route) && forall j :: 0 <= j < i ==> !Clash(apps[j], name, route)
  }

  /**
   * The uniqueness scan: records are visited in order and the first one
   * that conflicts decides the error, the name being checked before the
   * route on each record.
   */
  function CheckUnique(apps: seq<App>, name: Option<string>, route: Option<string>): (r: Option<HttpError>)
    ensures r.None? <==> forall i :: 0 <= i < |apps| ==> !Clash(apps[i], name, route)
    ensures r.Some? ==> exists i :: (FirstClashAt(apps, name, route, i)
      && r.value == (if NameClash(apps[i], name) then NameTaken else RouteTaken))
  {
    if |apps| == 0 then None
    else if NameClash(apps[0], name) then
      assert FirstClashAt(apps, name, route, 0);
      Some(NameTaken)
    else if RouteClash(apps[0], route) then
      assert FirstClashAt(apps, name, route, 0);
      Some(RouteTaken)
    else
      var r := CheckUnique(apps[1..], name, route);
      if r.Some? then
        var i :| FirstClashAt(apps[1..], name, route, i) && r.value == (if NameClash(apps[1..][i], name) then NameTaken else RouteTaken);
        assert FirstClashAt(apps, name, route, i + 1);
        r
      else
        r
  }

  /** The catalogue file: absent, unreadable, or a list of records. Both failures read as empty. */
  datatype AppsFile = NoFile | Unreadable | Stored(apps: seq<App>)

  function LoadApps(file: AppsFile): (r: seq<App>)
    ensures file.Stored? ==> r == file.apps
    ensures !file.Stored? ==> r == []
  {
    if file.Stored? then file.apps else []
  }

  /**
   * `create_app`: a conflict with any record is a 409; otherwise the new
   * record, under a fresh id, is appended.
   */
  function CreateApp(apps: seq<App>, input: AppCreate, freshId: string): (r: Result<(seq<App>, App), HttpError>)
    ensures r.Err? <==> exists i :: 0 <= i < |apps| && Clash(apps[i], Some(input.name), Some(input.route))
    ensures r.Err? ==> r.error == NameTaken || r.error == RouteTaken
    ensures r.Ok? ==> r.value.1 == App(freshId, input.name, input.description, input.category, input.route, input.isActive)
    ensures r.Ok? ==> r.value.0 == apps + [r.value.1]
  {
    match CheckUnique(apps, Some(input.name), Some(input.route))
    case Some(e) => Err(e)
    case None =>
      var app := App(freshId, input.name, input.description, input.category, input.route, input.isActive);
      Ok((apps + [app], app))
  }

  /** Whether some record has the id. */
  predicate HasId(apps: seq<App>, id: string) {
    exists i :: 0 <= i < |apps| && apps[i].id == id
  }

  /** Position of the first record with the id. */
  function FindIndex(apps: seq<App>, id: string): (r: Option<nat>)
    ensures r.None? <==> !HasId(apps, id)
    ensures r.Some? ==> r.value < |apps| && apps[r.value].id == id
    ensures r.Some? ==> forall j :: 0 <= j < r.value ==> apps[j].id != id
  {
    if |apps| == 0 then None
    else if apps[0].id == id then Some(0)
    else
      match FindIndex(apps[1..], id)
      case None => None
      case Some(k) => Some(k + 1)
  }

  /** The records other than the one at `idx`, in order. */
  function Others(apps: seq<App>, idx: nat): (r: seq<App>)
    requires idx < |apps|
    ensures |r| == |apps| - 1
    ensures forall k :: 0 <= k < idx ==> r[k] == apps[k]
    ensures forall k :: idx <= k < |r| ==> r[k] == apps[k + 1]
  {
    apps[..idx] + apps[idx + 1..]
  }

  /** Overwrite exactly the fields the update supplies. */
  function Patch(app: App, u: AppUpdate): (r: App)
    ensures r.id == app.id
    ensures r.name == u.name.GetOr(app.name) && r.description == u.description.GetOr(app.description)
    ensures r.category == u.category.GetOr(app.category) && r.route == u.route.GetOr(app.route)
    ensures r.isActive == u.isActive.GetOr(app.isActive)
  {
    App(app.id, u.name.GetOr(app.name), u.description.GetOr(app.description), u.category.GetOr(app.category),
        u.route.GetOr(app.route), u.isActive.GetOr(app.isActive))
  }

  /**
   * `update_app` as written: the uniqueness scan over the other records
   * skips a field whose new value is falsy, but the field is then written
   * whenever it is not `None` — so an empty route is stored unchecked.
   */
  function UpdateAppAsWritten(apps: seq<App>, id: string, u: AppUpdate): (r: Result<(seq<App>, App), HttpError>)
    ensures !HasId(apps, id) ==> r == Err(AppNotFound)
    ensures r.Ok? ==> var idx := FindIndex(apps, id).value;
      r.value.1 == Patch(apps[idx], u) && r.value.0 == apps[idx := r.value.1]
    ensures HasId(apps, id) ==> var idx := FindIndex(apps, id).value;
      (r.Err? <==> exists i :: 0 <= i < |apps| - 1 && Clash(Others(apps, idx)[i], OrNone(u.name), OrNone(u.route)))
  {
    match FindIndex(apps, id)
    case None => Err(AppNotFound)
    case Some(idx) =>
      match CheckUnique(Others(apps, idx), OrNone(u.name), OrNone(u.route))
      case Some(e) => Err(e)
      case None =>
        var app := Patch(apps[idx], u);
        Ok((apps[idx := app], app))
  }

  /** An empty route supplied on update can duplicate another record's empty route. */
  lemma UpdateAsWrittenDuplicatesRoute()
    ensures var apps := [App("a", "A", "", "", "", true), App("b", "B", "", "", "/b", true)];
      var r := UpdateAppAsWritten(apps, "b", AppUpdate(None, None, None, Some(""), None));
      Unique(apps) && r.Ok? && !Unique(r.value.0)
  {
    var apps := [App("a", "A", "", "", "", true), App("b", "B", "", "", "/b", true)];
    var u := AppUpdate(None, None, None, Some(""), None);
    assert Lower("A") == "a" && Lower("B") == "b";
    assert FindIndex(apps, "b") == Some(1);
    assert Others(apps, 1) == [apps[0]];
    assert OrNone(u.route) == None;
    var r := UpdateAppAsWritten(apps, "b", u);
    assert r.value.0[0].route == r.value.0[1].route;
  }

  /**
   * `update_app` with the scan guarded the same way as the writes (`is not
   * None`): every supplied name and route is checked against the other
   * records.
   */
  function UpdateApp(apps: seq<App>, id: string, u: AppUpdate): (r: Result<(seq<App>, App), HttpError>)
    ensures !HasId(apps, id) ==> r == Err(AppNotFound)
    ensures r.Ok? ==> var idx := FindIndex(apps, id).value;
      r.value.1 == Patch(apps[idx], u) && r.value.0 == apps[idx := r.value.1]
    ensures HasId(apps, id) ==> var idx := FindIndex(apps, id).value;
      (r.Err? <==> exists i :: 0 <= i < |apps| - 1 && Clash(Others(apps, idx)[i], u.name, u.route))
    ensures r.Err? ==> r.error in {AppNotFound, NameTaken, RouteTaken}
  {
    match FindIndex(apps, id)
    case None => Err(AppNotFound)
    case Some(idx) =>
      match CheckUnique(Others(apps, idx), u.name, u.route)
      case Some(e) => Err(e)
      case None =>
        var app := Patch(apps[idx], u);
        Ok((apps[idx := app], app))
  }

  /** The two versions differ only when an empty name or route is supplied. */
  lemma UpdateVersionsAgree(apps: seq<App>, id: string, u: AppUpdate)
    requires u.name != Some("") && u.route != Some("")
    ensures UpdateAppAsWritten(apps, id, u) == UpdateApp(apps, id, u)
  {
  }

  /** `delete_app`: the first record with the id is removed. */
  function DeleteApp(apps: seq<App>, id: string): (r: Result<seq<App>, HttpError>)
    ensures r.Err? <==> !HasId(apps, id)
    ensures r.Err? ==> r.error == AppNotFound
    ensures r.Ok? ==> r.value == Others(apps, FindIndex(apps, id).value)
    ensures r.Ok? ==> |r.value| == |apps| - 1
  {
    match FindIndex(apps, id)
    case None => Err(AppNotFound)
    case Some(idx) => Ok(Others(apps, idx))
  }

  // ------------------------------------------------------------ invariants

  /** Creating under a fresh id keeps ids, names and routes apart, and every name valid. */
  lemma CreatePreservesInvariant(apps: seq<App>, input: AppCreate, freshId: string, strict: bool)
    requires Distinguished(apps, strict) && AllValid(apps) && ValidName(input.name) && !HasId(apps, freshId)
    ensures var r := CreateApp(apps, input, freshId); r.Ok? ==> Distinguished(r.value.0, strict) && AllValid(r.value.0)
  {
    var r := CreateApp(apps, input, freshId);
    if r.Ok? {
      var s := r.value.0;
      forall i, j | 0 <= i < |s| && 0 <= j < |s| && i != j
        ensures s[i].id != s[j].id && !SameName(s[i].name, s[j].name) && RoutesApart(s[i].route, s[j].route, strict)
      {
        if i == |apps| {
          assert !Clash(apps[j], Some(input.name), Some(input.route));
        } else if j == |apps| {
          assert !Clash(apps[i], Some(input.name), Some(input.route));
        }
      }
    }
  }

  /** The corrected update keeps the catalogue unique, and valid when the new name is. */
  lemma UpdatePreservesInvariant(apps: seq<App>, id: string, u: AppUpdate, strict: bool)
    requires Distinguished(apps, strict) && AllValid(apps) && (u.name.None? || ValidName(u.name.value))
    ensures var r := UpdateApp(apps, id, u); r.Ok? ==> Distinguished(r.value.0, strict) && AllValid(r.value.0)
  {
    var r := UpdateApp(apps, id, u);
    if r.Ok? {
      var idx := FindIndex(apps, id).value;
      var others := Others(apps, idx);
      var s := r.value.0;
      assert forall k :: 0 <= k < |others| ==> !Clash(others[k], u.name, u.route);
      forall i | 0 <= i < |s| && i != idx
        ensures !Clash(apps[i], u.name, u.route)
      {
        if i < idx { assert others[i] == apps[i]; } else { assert others[i - 1] == apps[i]; }
      }
      forall i, j | 0 <= i < |s| && 0 <= j < |s| && i != j
        ensures s[i].id != s[j].id && !SameName(s[i].name, s[j].name) && RoutesApart(s[i].route, s[j].route, strict)
      {
      }
    }
  }

  /**
   * The update as written, given a name the request model accepts, keeps
   * ids and names apart and every non-empty route unique.
   */
  lemma UpdateAsWrittenKeepsUpToEmpty(apps: seq<App>, id: string, u: AppUpdate)
    requires UniqueUpToEmptyRoutes(apps) && AllValid(apps) && (u.name.None? || ValidName(u.name.value))
    ensures var r := UpdateAppAsWritten(apps, id, u); r.Ok? ==> UniqueUpToEmptyRoutes(r.value.0) && AllValid(r.value.0)
  {
    var r := UpdateAppAsWritten(apps, id, u);
    if r.Ok? {
      var idx := FindIndex(apps, id).value;
      var others := Others(apps, idx);
      var s := r.value.0;
      var checkedRoute := OrNone(u.route);
      assert OrNone(u.name) == u.name;
      assert forall k :: 0 <= k < |others| ==> !Clash(others[k], u.name, checkedRoute);
      forall i | 0 <= i < |s| && i != idx
        ensures !Clash(apps[i], u.name, checkedRoute)
      {
        if i < idx { assert others[i] == apps[i]; } else { assert others[i - 1] == apps[i]; }
      }
      forall i, j | 0 <= i < |s| && 0 <= j < |s| && i != j
        ensures s[i].id != s[j].id && !SameName(s[i].name, s[j].name) && RoutesApart(s[i].route, s[j].route, false)
      {
      }
    }
  }

  /** Deleting keeps ids, names and routes apart and every name valid, and no record keeps the id. */
  lemma DeletePreservesInvariant(apps: seq<App>, id: string, strict: bool)
    requires Distinguished(apps, strict) && AllValid(apps)
    ensures var r := DeleteApp(apps, id); r.Ok? ==> Distinguished(r.value, strict) && AllValid(r.value) && !HasId(r.value, id)
  {
    var r := DeleteApp(apps, id);
    if r.Ok? {
      var idx := FindIndex(apps, id).value;
      var s := r.value;
      forall i, j | 0 <= i < |s| && 0 <= j < |s| && i != j
        ensures s[i].id != s[j].id && !SameName(s[i].name, s[j].name) && RoutesApart(s[i].route, s[j].route, strict)
      {
        var i' := if i < idx then i else i + 1;
        var j' := if j < idx then j else j + 1;
        assert s[i] == apps[i'] && s[j] == apps[j'];
      }
      forall i | 0 <= i < |s|
        ensures s[i].id != id
      {
        var i' := if i < idx then i else i + 1;
        assert s[i] == apps[i'];
      }
    }
  }

  /** Deleting a record just created returns the catalogue it was created in. */
  lemma CreateThenDelete(apps: seq<App>, input: AppCreate, freshId: string)
    requires !HasId(apps, freshId)
    ensures var r := CreateApp(apps, input, freshId);
      r.Ok? ==> DeleteApp(r.value.0, freshId) == Ok(apps)
  {
    var r := CreateApp(apps, input, freshId);
    if r.Ok? {
      var s := r.value.0;
      assert FindIndex(s, freshId) == Some(|apps|) by {
        assert s[|apps|].id == freshId;
        assert forall k :: 0 <= k < |apps| ==> s[k] == apps[k];
      }
      assert Others(s, |apps|) == apps;
    }
  }

  // ---------------------------------------------------------------- routes

  /** A request to the admin catalogue routes. */
  datatype Request = ListApps | Create(input: AppCreate, freshId: string) | Update(id: string, patch: AppUpdate) | Delete(id: string)

  /** A successful reply: the list, one record, or `{"status": "success"}`. */
  datatype Reply = AppList(apps: seq<App>) | OneApp(app: App) | Deleted

  /** Which update handler serves a `PUT`: the one in the repository, or the corrected one. */
  datatype Version = AsWritten | Corrected

  function UpdateBy(v: Version, apps: seq<App>, id: string, u: AppUpdate): Result<(seq<App>, App), HttpError> {
    match v
    case AsWritten => UpdateAppAsWritten(apps, id, u)
    case Corrected => UpdateApp(apps, id, u)
  }

  /**
   * The response model `AppModel` accepts a record whose id parses as a
   * UUID (`isUuid`) and whose name matches the name pattern.
   */
  predicate ReplyValid(isUuid: string -> bool, a: App) {
    isUuid(a.id) && ValidName(a.name)
  }

  predicate ListValid(isUuid: string -> bool, apps: seq<App>) {
    forall i :: 0 <= i < |apps| ==> ReplyValid(isUuid, apps[i])
  }

  /** A handler's record after response validation, which runs once the file is saved. */
  function Checked(isUuid: string -> bool, a: App): Result<Reply, HttpError> {
    if ReplyValid(isUuid, a) then Ok(OneApp(a)) else Err(ResponseInvalid)
  }

  /**
   * One request: the admin guard runs first, then body validation, then the
   * handler. A successful mutation rewrites the catalogue before its reply
   * is validated against the response model, so a reply refused there (500)
   * leaves the catalogue rewritten. Every other failure leaves it as it was.
   */
  function Serve(v: Version, isUuid: string -> bool, user: Result<PyUser, HttpError>, apps: seq<App>, req: Request)
    : (r: (seq<App>, Result<Reply, HttpError>))
    ensures PyAdminGuard(user).Err? ==> r == (apps, Err(PyAdminGuard(user).error))
    ensures r.1.Err? && r.1.error != ResponseInvalid ==> r.0 == apps
    ensures PyAdminGuard(user).Ok? && req.ListApps? ==>
      r == (apps, if ListValid(isUuid, apps) then Ok(AppList(apps)) else Err(ResponseInvalid))
    ensures PyAdminGuard(user).Ok? && req.Create? ==>
      (!ValidName(req.input.name) ==> r == (apps, Err(Unprocessable)))
      && (ValidName(req.input.name) && CreateApp(apps, req.input, req.freshId).Ok? ==>
            var (s, app) := CreateApp(apps, req.input, req.freshId).value;
            r.0 == s && (r.1.Ok? <==> ReplyValid(isUuid, app)))
      && (ValidName(req.input.name) && CreateApp(apps, req.input, req.freshId).Err? ==>
            r == (apps, Err(CreateApp(apps, req.input, req.freshId).error)))
    ensures PyAdminGuard(user).Ok? && req.Update? ==>
      (req.patch.name.Some? && !ValidName(req.patch.name.value) ==> r == (apps, Err(Unprocessable)))
      && ((req.patch.name.None? || ValidName(req.patch.name.value)) && UpdateBy(v, apps, req.id, req.patch).Ok? ==>
            var (s, app) := UpdateBy(v, apps, req.id, req.patch).value;
            r.0 == s && (r.1.Ok? <==> ReplyValid(isUuid, app)))
      && ((req.patch.name.None? || ValidName(req.patch.name.value)) && UpdateBy(v, apps, req.id, req.patch).Err? ==>
            r == (apps, Err(UpdateBy(v, apps, req.id, req.patch).error)))
    ensures PyAdminGuard(user).Ok? && req.Delete? ==>
      (r.1.Ok? <==> HasId(apps, req.id)) && (r.1.Ok? ==> r == (DeleteApp(apps, req.id).value, Ok(Deleted)))
  {
    match PyAdminGuard(user)
    case Err(e) => (apps, Err(e))
    case Ok(_) =>
      match req
      case ListApps => (apps, if ListValid(isUuid, apps) then Ok(AppList(apps)) else Err(ResponseInvalid))
      case Create(input, freshId) =>
        if !ValidName(input.name) then (apps, Err(Unprocessable))
        else (match CreateApp(apps, input, freshId)
          case Err(e) => (apps, Err(e))
          case Ok((s, app)) => (s, Checked(isUuid, app)))
      case Update(id, patch) =>
        if patch.name.Some? && !ValidName(patch.name.value) then (apps, Err(Unprocessable))
        else (match UpdateBy(v, apps, id, patch)
          case Err(e) => (apps, Err(e))
          case Ok((s, app)) => (s, Checked(isUuid, app)))
      case Delete(id) =>
        match DeleteApp(apps, id)
        case Err(e) => (apps, Err(e))
        case Ok(s) => (s, Ok(Deleted))
  }

  /**
   * For an admin, a create that clashes is answered 409 and an update of an
   * unknown id 404, in either version, and the catalogue is not rewritten.
   */
  lemma ServeRefusals(v: Version, isUuid: string -> bool, user: Result<PyUser, HttpError>, apps: seq<App>, req: Request)
    requires PyAdminGuard(user).Ok?
    ensures req.Create? && ValidName(req.input.name) && CreateApp(apps, req.input, req.freshId).Err? ==>
      var r := Serve(v, isUuid, user, apps, req);
      r.0 == apps && r.1.Err? && r.1.error.status == 409
    ensures req.Update? && (req.patch.name.None? || ValidName(req.patch.name.value)) && !HasId(apps, req.id) ==>
      Serve(v, isUuid, user, apps, req) == (apps, Err(AppNotFound))
  {
    if req.Update? && !HasId(apps, req.id) {
      assert UpdateBy(v, apps, req.id, req.patch) == Err(AppNotFound);
    }
  }

  /**
   * Every request, whoever sends it, keeps ids and names apart, non-empty
   * routes unique and every name valid, in either version (ids are fresh
   * on create).
   */
  lemma ServePreservesInvariant(v: Version, isUuid: string -> bool, user: Result<PyUser, HttpError>, apps: seq<App>, req: Request)
    requires UniqueUpToEmptyRoutes(apps) && AllValid(apps)
    requires req.Create? ==> !HasId(apps, req.freshId)
    ensures UniqueUpToEmptyRoutes(Serve(v, isUuid, user, apps, req).0) && AllValid(Serve(v, isUuid, user, apps, req).0)
  {
    match req
    case ListApps =>
    case Create(input, freshId) =>
      if ValidName(input.name) { CreatePreservesInvariant(apps, input, freshId, false); }
    case Update(id, patch) =>
      if patch.name.None? || ValidName(patch.name.value) {
        if v == AsWritten { UpdateAsWrittenKeepsUpToEmpty(apps, id, patch); }
        else { UpdatePreservesInvariant(apps, id, patch, false); }
      }
    case Delete(id) =>
      DeletePreservesInvariant(apps, id, false);
  }

  /** With the corrected update, every request keeps routes unique outright. */
  lemma CorrectedServeKeepsUnique(isUuid: string -> bool, user: Result<PyUser, HttpError>, apps: seq<App>, req: Request)
    requires Unique(apps) && AllValid(apps)
    requires req.Create? ==> !HasId(apps, req.freshId)
    ensures Unique(Serve(Corrected, isUuid, user, apps, req).0) && AllValid(Serve(Corrected, isUuid, user, apps, req).0)
  {
    match req
    case ListApps =>
    case Create(input, freshId) =>
      if ValidName(input.name) { CreatePreservesInvariant(apps, input, freshId, true); }
    case Update(id, patch) =>
      if patch.name.None? || ValidName(patch.name.value) { UpdatePreservesInvariant(apps, id, patch, true); }
    case Delete(id) =>
      DeletePreservesInvariant(apps, id, true);
  }

  /** As written, an admin's `PUT` with `{"route": ""}` stores a second empty route. */
  lemma ServeAsWrittenDuplicatesRoute(isUuid: string -> bool)
    ensures var apps := [App("a", "A", "", "", "", true), App("b", "B", "", "", "/b", true)];
      var admin: Result<PyUser, HttpError> := Ok(PyUser("admin@example.com", None, ["user", "admin"], true));
      var r := Serve(AsWritten, isUuid, admin, apps, Update("b", AppUpdate(None, None, None, Some(""), None)));
      Unique(apps) && !Unique(r.0) && r.1 != Err(RouteTaken)
  {
    UpdateAsWrittenDuplicatesRoute();
  }

  /**
   * A stored record whose name breaks the pattern is rewritten by an update
   * that leaves the name alone, and then refused by the response model.
   */
  lemma SavedThenRefused(v: Version, isUuid: string -> bool)
    ensures var apps := [App("a", "A B", "", "", "/a", true)];
      var admin: Result<PyUser, HttpError> := Ok(PyUser("admin@example.com", None, ["user", "admin"], true));
      var r := Serve(v, isUuid, admin, apps, Update("a", AppUpdate(None, Some("new"), None, None, None)));
      r == ([App("a", "A B", "new", "", "/a", true)], Err(ResponseInvalid))
  {
    var apps := [App("a", "A B", "", "", "/a", true)];
    var u := AppUpdate(None, Some("new"), None, None, None);
    assert FindIndex(apps, "a") == Some(0);
    assert Others(apps, 0) == [];
    var app := App("a", "A B", "new", "", "/a", true);
    assert Patch(apps[0], u) == app;
    assert apps[0 := app] == [app];
    assert CheckUnique([], None, None).None?;
    assert UpdateBy(v, apps, "a", u) == Ok(([app], app));
    assert !ValidName("A B") by { assert !NameChar("A B"[1]); }
  }
}

=== FILE: admin_dashboard.dfy ===
/**
 * The infrastructure dashboard: the services flattened from the
 * configuration, the category list and heading, the cards grouped by
 * category, the health summary, and each card's metrics and link.
 */
module AdminDashboard {
  import opened Wrappers
  import opened Strings
  import opened Numbers
  import opened Collections

  datatype HealthStatus = Healthy | Warning | Critical | Maintenance | Active

  datatype MetricValue = MText(text: string) | MNum(n: int)

  /** A metric as a card shows it (the sparkline history is display-only). */
  datatype Metric = Metric(caption: string, value: MetricValue)

  /** A service card (the `lastUpdated` clock reading and display-only fields omitted). */
  datatype Service = Service(id: string, name: string, category: string, status: HealthStatus,
                             metrics: seq<Metric>, kind: string, url: Option<string>)

  // ---------------------------------------------------------------------
  // Flattening the configuration

  datatype ServiceConfig = ServiceConfig(id: string, name: string, kind: string, url: Option<string>)

  datatype CategoryConfig = CategoryConfig(id: string, name: string, services: seq<ServiceConfig>)

  /** A configured service as first shown: healthy, no metrics yet, under its category's name. */
  function Initial(cat: CategoryConfig, s: ServiceConfig): (r: Service)
    ensures r.id == s.id && r.name == s.name && r.category == cat.name
    ensures r.status == Healthy && r.metrics == [] && r.url == s.url
  {
    Service(s.id, s.name, cat.name, Healthy, [], s.kind, s.url)
  }

  function CategoryServices(cat: CategoryConfig): (r: seq<Service>)
    ensures |r| == |cat.services|
    ensures forall k :: 0 <= k < |r| ==> r[k] == Initial(cat, cat.services[k])
  {
    seq(|cat.services|, k requires 0 <= k < |cat.services| => Initial(cat, cat.services[k]))
  }

  function ServiceCount(cats: seq<CategoryConfig>): nat {
    if |cats| == 0 then 0 else |cats[0].services| + ServiceCount(cats[1..])
  }

  /** The initial services: category by category, each category's services in order. */
  function Flatten(cats: seq<CategoryConfig>): (r: seq<Service>)
    ensures |r| == ServiceCount(cats)
    ensures forall k :: 0 <= k < |r| ==>
      r[k].status == Healthy && r[k].metrics == [] && exists c :: c in cats && r[k].category == c.name
  {
    if |cats| == 0 then []
    else
      var head := CategoryServices(cats[0]);
      var rest := Flatten(cats[1..]);
      assert forall k :: 0 <= k < |head| ==> head[k].category == cats[0].name;
      assert forall c :: c in cats[1..] ==> c in cats;
      head + rest
  }

  /** Flattening two configurations one after the other is flattening them together. */
  lemma {:induction false} FlattenAppend(a: seq<CategoryConfig>, b: seq<CategoryConfig>)
    ensures Flatten(a + b) == Flatten(a) + Flatten(b)
  {
    if |a| == 0 {
      assert a + b == b;
    } else {
      assert (a + b)[0] == a[0];
      assert (a + b)[1..] == a[1..] + b;
      FlattenAppend(a[1..], b);
    }
  }

  // ---------------------------------------------------------------------
  // The category list and the heading

  /** `categories`: the distinct categories of the services, ascending. */
  function Categories(services: seq<Service>): seq<string> {
    SortedKeys(services, (s: Service) => s.category)
  }

  /** A configured category with services contributes a flattened service under its name. */
  lemma {:induction false} FlattenCoversCategory(cats: seq<CategoryConfig>, k: int)
    requires 0 <= k < |cats| && |cats[k].services| > 0
    ensures exists i :: 0 <= i < |Flatten(cats)| && Flatten(cats)[i].category == cats[k].name
  {
    var head := CategoryServices(cats[0]);
    var rest := Flatten(cats[1..]);
    assert Flatten(cats) == head + rest;
    if k == 0 {
      assert Flatten(cats)[0] == head[0];
    } else {
      assert cats[1..][k - 1] == cats[k];
      FlattenCoversCategory(cats[1..], k - 1);
      var i :| 0 <= i < |rest| && rest[i].category == cats[k].name;
      assert Flatten(cats)[|head| + i] == rest[i];
    }
  }

  /** Every flattened service lies under a configured category that has services. */
  lemma {:induction false} FlattenCategoryConfigured(cats: seq<CategoryConfig>, i: int)
    requires 0 <= i < |Flatten(cats)|
    ensures exists k :: 0 <= k < |cats| && cats[k].name == Flatten(cats)[i].category && |cats[k].services| > 0
  {
    var head := CategoryServices(cats[0]);
    var rest := Flatten(cats[1..]);
    assert Flatten(cats) == head + rest;
    if i < |head| {
      assert Flatten(cats)[i] == head[i];
    } else {
      assert Flatten(cats)[i] == rest[i - |head|];
      FlattenCategoryConfigured(cats[1..], i - |head|);
      var k :| 0 <= k < |cats[1..]| && cats[1..][k].name == rest[i - |head|].category && |cats[1..][k].services| > 0;
      assert cats[k + 1] == cats[1..][k];
    }
  }

  /**
   * The sidebar lists, once each and ascending, exactly the configured
   * category names that have at least one service.
   */
  lemma CategoriesOfConfig(cats: seq<CategoryConfig>)
    ensures forall c :: c in Categories(Flatten(cats)) <==> exists k :: 0 <= k < |cats| && cats[k].name == c && |cats[k].services| > 0
    ensures StrictlyAscending(Categories(Flatten(cats)))
  {
    forall c ensures c in Categories(Flatten(cats)) <==> exists k :: 0 <= k < |cats| && cats[k].name == c && |cats[k].services| > 0 {
      if k :| 0 <= k < |cats| && cats[k].name == c && |cats[k].services| > 0 {
        FlattenCoversCategory(cats, k);
      }
      if i :| 0 <= i < |Flatten(cats)| && Flatten(cats)[i].category == c {
        FlattenCategoryConfigured(cats, i);
      }
    }
  }

  /** The page heading for the selected sidebar entry. */
  function Heading(active: Option<string>): (h: string)
    ensures active == Some("applications") ==> h == "Application Management"
    ensures active != Some("applications") && Truthy(active) ==> h == active.value
    ensures !Truthy(active) ==> h == "System Overview"
  {
    if active == Some("applications") then "Application Management"
    else if Truthy(active) then active.value
    else "System Overview"
  }

  // ---------------------------------------------------------------------
  // The cards grouped by category

  /** The services of one category in their original order. */
  function InCategory(services: seq<Service>, cat: string): (r: seq<Service>)
    ensures forall k :: 0 <= k < |r| ==> r[k].category == cat && r[k] in services
    ensures forall k :: 0 <= k < |services| && services[k].category == cat ==> services[k] in r
  {
    Filter(services, (s: Service) => s.category == cat)
  }

  function ByName(s: Service): SortKey {
    KStr(s.name)
  }

  /** One group: the category's services sorted by name, equal names kept in arrival order. */
  function Group(services: seq<Service>, cat: string): (r: seq<Service>)
    ensures multiset(r) == multiset(InCategory(services, cat))
    ensures SortedBy(r, ByName, Asc)
  {
    var members := InCategory(services, cat);
    SortByKeySorted(members, ByName, Asc);
    SortByKey(members, ByName, Asc)
  }

  /** Services of a category that share a name appear in their group in arrival order. */
  lemma GroupStable(services: seq<Service>, cat: string, name: string)
    ensures Filter(Group(services, cat), HasKey(ByName, KStr(name))) == Filter(InCategory(services, cat), HasKey(ByName, KStr(name)))
  {
    SortByKeyStable(InCategory(services, cat), ByName, Asc, KStr(name));
  }

  datatype Grouped = Grouped(groups: map<string, seq<Service>>, sortedCategories: seq<string>)

  /** `groupedServices`: one group per category that occurs, and the categories in ascending order. */
  function GroupServices(services: seq<Service>): (g: Grouped)
    ensures forall c :: c in g.groups <==> c in g.sortedCategories
    ensures StrictlyAscending(g.sortedCategories)
    ensures forall c :: c in g.groups ==> g.groups[c] == Group(services, c)
    ensures forall c :: c in g.groups <==> exists i :: 0 <= i < |services| && services[i].category == c
  {
    var cats := Categories(services);
    Grouped(map c | c in cats :: Group(services, c), cats)
  }

  lemma InOwnGroup(services: seq<Service>, i: int)
    requires 0 <= i < |services|
    ensures services[i] in Group(services, services[i].category)
  {
    var s := services[i];
    assert s in InCategory(services, s.category);
    assert s in multiset(Group(services, s.category));
  }

  lemma GroupMember(services: seq<Service>, c: string, s: Service)
    requires s in Group(services, c)
    ensures s.category == c
  {
    assert s in multiset(InCategory(services, c));
    assert s in InCategory(services, c);
  }

  /** Every service lands in the group of its own category and in no other. */
  lemma EveryServiceInOwnGroup(services: seq<Service>, i: int, c: string)
    requires 0 <= i < |services|
    ensures services[i].category in GroupServices(services).groups
    ensures services[i] in GroupServices(services).groups[services[i].category]
    ensures c in GroupServices(services).groups && services[i] in GroupServices(services).groups[c]
      ==> c == services[i].category
  {
    var g := GroupServices(services);
    assert services[i].category in g.groups;
    InOwnGroup(services, i);
    if c in g.groups && services[i] in g.groups[c] {
      GroupMember(services, c, services[i]);
    }
  }

  /** A category that occurs has a non-empty group. */
  lemma GroupNotEmpty(services: seq<Service>, i: int)
    requires 0 <= i < |services|
    ensures var c := services[i].category;
      c in GroupServices(services).groups && |GroupServices(services).groups[c]| > 0
  {
    var c := services[i].category;
    var members := InCategory(services, c);
    assert services[i] in members;
    assert |multiset(members)| > 0;
  }

  datatype Section = Section(category: string, services: seq<Service>)

  datatype Rendered = Rendered(sections: seq<Section>, noneFoundNotice: bool)

  /** `categoriesToRender`: the active category alone when one is set, otherwise every category. */
  function CategoriesToRender(g: Grouped, active: Option<string>): (r: seq<string>)
    ensures Truthy(active) ==> r == [active.value]
    ensures !Truthy(active) ==> r == g.sortedCategories
  {
    if Truthy(active) then [active.value] else g.sortedCategories
  }

  predicate HasSection(g: Grouped, c: string) {
    c in g.groups && |g.groups[c]| > 0
  }

  /** The categories among `toRender` that get a section, in order. */
  function Shown(g: Grouped, toRender: seq<string>): (r: seq<string>)
    ensures forall k :: 0 <= k < |r| ==> HasSection(g, r[k]) && r[k] in toRender
    ensures forall k :: 0 <= k < |toRender| && HasSection(g, toRender[k]) ==> toRender[k] in r
  {
    Filter(toRender, (c: string) => HasSection(g, c))
  }

  lemma ShownAll(g: Grouped, toRender: seq<string>)
    requires forall c :: c in toRender ==> HasSection(g, c)
    ensures Shown(g, toRender) == toRender
  {
    FilterAll(toRender, (c: string) => HasSection(g, c));
  }

  /** The sections drawn: each category to render that has services; the notice only when there is nothing to render. */
  function RenderGroups(g: Grouped, active: Option<string>): (r: Rendered)
    ensures |r.sections| == |Shown(g, CategoriesToRender(g, active))|
    ensures forall k :: 0 <= k < |r.sections| ==>
      r.sections[k].category == Shown(g, CategoriesToRender(g, active))[k]
      && HasSection(g, r.sections[k].category) && r.sections[k].services == g.groups[r.sections[k].category]
    ensures r.noneFoundNotice <==> |CategoriesToRender(g, active)| == 0
  {
    var toRender := CategoriesToRender(g, active);
    var shown := Shown(g, toRender);
    Rendered(seq(|shown|, k requires 0 <= k < |shown| => Section(shown[k], g.groups[shown[k]])),
             |toRender| == 0)
  }

  /**
   * An active category without services draws no section, and the
   * "no services found" notice does not show either: the page is blank.
   */
  lemma ActiveWithoutServicesIsBlank(services: seq<Service>, active: string)
    requires active != ""
    requires forall i :: 0 <= i < |services| ==> services[i].category != active
    ensures RenderGroups(GroupServices(services), Some(active)) == Rendered([], false)
  {
    var g := GroupServices(services);
    assert !HasSection(g, active);
    assert |Shown(g, [active])| == 0;
  }

  /** Without an active category every category gets its section, in ascending order. */
  lemma AllCategoriesRendered(services: seq<Service>, active: Option<string>)
    requires !Truthy(active)
    ensures |RenderGroups(GroupServices(services), active).sections| == |GroupServices(services).sortedCategories|
    ensures forall k :: 0 <= k < |RenderGroups(GroupServices(services), active).sections| ==>
      RenderGroups(GroupServices(services), active).sections[k].category == GroupServices(services).sortedCategories[k]
    ensures RenderGroups(GroupServices(services), active).noneFoundNotice <==> |services| == 0
  {
    var g := GroupServices(services);
    forall c | c in g.sortedCategories
      ensures HasSection(g, c)
    {
      var i :| 0 <= i < |services| && services[i].category == c;
      GroupNotEmpty(services, i);
    }
    ShownAll(g, g.sortedCategories);
    if |services| > 0 {
      assert services[0].category in g.groups;
    }
  }

  // ---------------------------------------------------------------------
  // The health summary

  predicate Unhealthy(s: Service) {
    s.status == Warning || s.status == Critical
  }

  predicate IsCritical(s: Service) {
    s.status == Critical
  }

  predicate IsWarning(s: Service) {
    s.status == Warning
  }

  /** `unhealthyServices`: the services in WARNING or CRITICAL, in their original order. */
  function UnhealthyServices(services: seq<Service>): (r: seq<Service>)
    ensures forall k :: 0 <= k < |r| ==> Unhealthy(r[k]) && r[k] in services
    ensures forall k :: 0 <= k < |services| && Unhealthy(services[k]) ==> services[k] in r
    ensures Subsequence(r, services)
    ensures forall s :: multiset(r)[s] == if Unhealthy(s) then multiset(services)[s] else 0
  {
    FilterCounts(services, Unhealthy);
    Filter(services, Unhealthy)
  }

  function Criticals(services: seq<Service>): nat {
    |Filter(UnhealthyServices(services), IsCritical)|
  }

  function Warnings(services: seq<Service>): nat {
    |Filter(UnhealthyServices(services), IsWarning)|
  }

  /** Over services that are all unhealthy, the critical and the warning counts add up to the length. */
  lemma {:induction false} SplitCounts(xs: seq<Service>)
    requires forall k :: 0 <= k < |xs| ==> Unhealthy(xs[k])
    ensures |Filter(xs, IsCritical)| + |Filter(xs, IsWarning)| == |xs|
  {
    if |xs| > 0 {
      SplitCounts(xs[1..]);
    }
  }

  /** `criticals + warnings` is the number of unhealthy services. */
  lemma CountsCoverUnhealthy(services: seq<Service>)
    ensures Criticals(services) + Warnings(services) == |UnhealthyServices(services)|
  {
    SplitCounts(UnhealthyServices(services));
  }

  lemma CriticalsCount(services: seq<Service>)
    ensures Criticals(services) > 0 <==> exists k :: 0 <= k < |services| && services[k].status == Critical
  {
    var u := UnhealthyServices(services);
    FilterNonEmpty(u, IsCritical);
    if exists k :: 0 <= k < |services| && services[k].status == Critical {
      var k :| 0 <= k < |services| && services[k].status == Critical;
      assert services[k] in u;
      assert services[k] in Filter(u, IsCritical);
    }
  }

  lemma WarningsCount(services: seq<Service>)
    ensures Warnings(services) > 0 <==> exists k :: 0 <= k < |services| && services[k].status == Warning
  {
    var u := UnhealthyServices(services);
    FilterNonEmpty(u, IsWarning);
    if exists k :: 0 <= k < |services| && services[k].status == Warning {
      var k :| 0 <= k < |services| && services[k].status == Warning;
      assert services[k] in u;
      assert services[k] in Filter(u, IsWarning);
    }
  }

  /** `isHealthy`: no service is in WARNING or CRITICAL. */
  function IsHealthy(services: seq<Service>): (b: bool)
    ensures b <==> forall k :: 0 <= k < |services| ==> !Unhealthy(services[k])
  {
    FilterNonEmpty(services, Unhealthy);
    |UnhealthyServices(services)| == 0
  }

  datatype Tone = Rose | Amber | Emerald

  /** The card's colour (and icon): critical before warning before healthy. */
  function StatusTone(services: seq<Service>): (t: Tone)
    ensures t == Rose <==> exists k :: 0 <= k < |services| && services[k].status == Critical
    ensures t == Amber <==>
      (forall k :: 0 <= k < |services| ==> services[k].status != Critical)
      && exists k :: 0 <= k < |services| && services[k].status == Warning
    ensures t == Emerald <==> IsHealthy(services)
  {
    CriticalsCount(services);
    WarningsCount(services);
    if Criticals(services) > 0 then Rose
    else if Warnings(services) > 0 then Amber
    else Emerald
  }

  const AllOperational := "All platform services are operational. Performance metrics are within expected thresholds across all monitored infrastructure segments."

  /** The first unhealthy service is the earliest service in WARNING or CRITICAL. */
  lemma {:induction false} FirstUnhealthy(services: seq<Service>)
    requires |UnhealthyServices(services)| > 0
    ensures exists i :: (0 <= i < |services| && UnhealthyServices(services)[0] == services[i]
      && Unhealthy(services[i]) && forall j :: 0 <= j < i ==> !Unhealthy(services[j]))
  {
    if Unhealthy(services[0]) {
      assert UnhealthyServices(services)[0] == services[0];
    } else {
      assert UnhealthyServices(services) == UnhealthyServices(services[1..]);
      FirstUnhealthy(services[1..]);
      var i :| 0 <= i < |services[1..]| && UnhealthyServices(services[1..])[0] == services[1..][i]
        && Unhealthy(services[1..][i]) && forall j :: 0 <= j < i ==> !Unhealthy(services[1..][j]);
      assert forall j :: 1 <= j < i + 1 ==> services[j] == services[1..][j - 1];
    }
  }

  const AlertLead := "System alert: "
  const CriticalsText := " critical failure(s) and "
  // Written with its first character apart, so that the verifier sees it is a space.
  const WarningsText: string := [' '] + "service warning(s) detected. Platform health is currently degraded. Please prioritize review of "

  /**
   * The expanded summary: the all-clear text, or an alert that reads, after
   * its lead, the critical count (when there are criticals) and then the
   * warning count, and ends with the first unhealthy service's name.
   */
  function SummaryMessage(services: seq<Service>): (m: string)
    ensures IsHealthy(services) ==> m == AllOperational
    ensures !IsHealthy(services) ==>
      HasPrefix(m, AlertLead) && |m| > |UnhealthyServices(services)[0].name|
      && m[|m| - |UnhealthyServices(services)[0].name| - 1..] == UnhealthyServices(services)[0].name + "."
    ensures !IsHealthy(services) && Criticals(services) == 0 ==>
      ParseInt(m[|AlertLead|..]) == Num(Warnings(services))
    ensures !IsHealthy(services) && Criticals(services) > 0 ==>
      var body := m[|AlertLead|..];
      var lead := IntToString(Criticals(services)) + CriticalsText;
      ParseInt(body) == Num(Criticals(services))
      && HasPrefix(body, lead) && ParseInt(body[|lead|..]) == Num(Warnings(services))
  {
    if IsHealthy(services) then AllOperational
    else
      var first := UnhealthyServices(services)[0].name;
      AlertReads(Criticals(services), Warnings(services), first);
      Alert(Criticals(services), Warnings(services), first)
  }

  /** `System alert: {criticals part}{warnings} service warning(s) … review of {name}.` */
  function Alert(c: nat, w: nat, name: string): string {
    AlertLead + AlertBody(c, w, name)
  }

  /** The counts part of the alert, between its lead and the name. */
  function AlertBody(c: nat, w: nat, name: string): string {
    var lead := if c > 0 then IntToString(c) + CriticalsText else "";
    lead + (IntToString(w) + (WarningsText + (name + ".")))
  }

  /** What the alert reads as: its lead, the counts after it, and the name at its end. */
  lemma AlertReads(c: nat, w: nat, name: string)
    ensures var m := Alert(c, w, name);
      HasPrefix(m, AlertLead) && |m| > |name| && m[|m| - |name| - 1..] == name + "."
    ensures c == 0 ==> ParseInt(Alert(c, w, name)[|AlertLead|..]) == Num(w)
    ensures c > 0 ==>
      var body := Alert(c, w, name)[|AlertLead|..];
      var lead := IntToString(c) + CriticalsText;
      ParseInt(body) == Num(c) && HasPrefix(body, lead) && ParseInt(body[|lead|..]) == Num(w)
  {
    AlertShape(c, w, name);
    BodyReads(c, w, name);
  }

  /** The alert is its lead followed by the counts part, and it ends with the name. */
  lemma AlertShape(c: nat, w: nat, name: string)
    ensures var m := Alert(c, w, name);
      HasPrefix(m, AlertLead) && m[|AlertLead|..] == AlertBody(c, w, name)
      && |m| > |name| && m[|m| - |name| - 1..] == name + "."
  {
    var lead := if c > 0 then IntToString(c) + CriticalsText else "";
    assert AlertBody(c, w, name) == lead + (IntToString(w) + (WarningsText + (name + ".")));
    LeadThenEnd(AlertLead, lead, IntToString(w), WarningsText, name);
  }

  lemma LeadThenEnd(a: string, b: string, c: string, d: string, name: string)
    ensures var s := a + (b + (c + (d + (name + "."))));
      HasPrefix(s, a) && s[|a|..] == b + (c + (d + (name + ".")))
      && |s| > |name| && s[|s| - |name| - 1..] == name + "."
  {
    ConcatSplit(a, b + (c + (d + (name + "."))));
    NestedEnd(a, b, c, d, name + ".");
  }

  /** The counts part reads back the critical count, when shown, and the warning count. */
  lemma BodyReads(c: nat, w: nat, name: string)
    ensures c == 0 ==> ParseInt(AlertBody(c, w, name)) == Num(w)
    ensures c > 0 ==>
      var lead := IntToString(c) + CriticalsText;
      var body := AlertBody(c, w, name);
      ParseInt(body) == Num(c) && HasPrefix(body, lead) && ParseInt(body[|lead|..]) == Num(w)
  {
    var tail := WarningsText + (name + ".");
    TailStartsWithSpace(name);
    if c > 0 {
      assert AlertBody(c, w, name) == (IntToString(c) + CriticalsText) + (IntToString(w) + tail);
      assert CriticalsText[0] == ' ';
      TwoCounts(c, CriticalsText, w, tail);
    } else {
      assert AlertBody(c, w, name) == IntToString(w) + tail;
      ReadBackWithSuffix(w, tail);
    }
  }

  lemma TailStartsWithSpace(name: string)
    ensures |WarningsText + (name + ".")| > 0 && (WarningsText + (name + "."))[0] == ' '
  {
    assert WarningsText[0] == ' ';
  }

  /** A right-nested concatenation ends with its last part. */
  lemma NestedEnd<T>(a: seq<T>, b: seq<T>, c: seq<T>, d: seq<T>, e: seq<T>)
    ensures var s := a + (b + (c + (d + e)));
      |e| <= |s| && s[|s| - |e|..] == e
  {
    var s := a + (b + (c + (d + e)));
    assert s == (a + b + c + d) + e;
    ConcatSplit(a + b + c + d, e);
  }

  /** A number written after a lead reads back once the lead is skipped. */
  lemma ReadAfter(lead: string, n: int, tail: string)
    requires |tail| == 0 || (!IsDigit(tail[0]) && tail[0] != 'x' && tail[0] != 'X')
    ensures HasPrefix(lead + (IntToString(n) + tail), lead)
    ensures ParseInt((lead + (IntToString(n) + tail))[|lead|..]) == Num(n)
  {
    ConcatSplit(lead, IntToString(n) + tail);
    ReadBackWithSuffix(n, tail);
  }

  /** Two numbers separated by a text read back: the first from the start, the second after the first's lead. */
  lemma TwoCounts(c: int, mid: string, w: int, tail: string)
    requires |mid| > 0 && !IsDigit(mid[0]) && mid[0] != 'x' && mid[0] != 'X'
    requires |tail| == 0 || (!IsDigit(tail[0]) && tail[0] != 'x' && tail[0] != 'X')
    ensures var lead := IntToString(c) + mid;
      var body := lead + (IntToString(w) + tail);
      ParseInt(body) == Num(c) && HasPrefix(body, lead) && ParseInt(body[|lead|..]) == Num(w)
  {
    var rest := IntToString(w) + tail;
    ReadAfter(IntToString(c) + mid, w, tail);
    ReadBackWithSuffix(c, mid + rest);
    ConcatAssoc(IntToString(c), mid, rest);
  }

  /**
   * The compact line under the card's title: the critical count, then,
   * after " Critical, ", the warning count.
   */
  function Headline(services: seq<Service>): (h: string)
    ensures IsHealthy(services) ==> h == "All Systems Operational"
    ensures !IsHealthy(services) ==> ParseInt(h) == Num(Criticals(services))
    ensures !IsHealthy(services) ==>
      var lead := IntToString(Criticals(services)) + " Critical, ";
      HasPrefix(h, lead) && ParseInt(h[|lead|..]) == Num(Warnings(services))
  {
    if IsHealthy(services) then "All Systems Operational"
    else
      CountsLineReads(Criticals(services), Warnings(services));
      CountsLine(Criticals(services), Warnings(services))
  }

  function CountsLine(c: nat, w: nat): string {
    (IntToString(c) + " Critical, ") + (IntToString(w) + " Warnings")
  }

  /** The counts line reads back both counts. */
  lemma CountsLineReads(c: nat, w: nat)
    ensures var h := CountsLine(c, w);
      var lead := IntToString(c) + " Critical, ";
      ParseInt(h) == Num(c) && HasPrefix(h, lead) && ParseInt(h[|lead|..]) == Num(w)
  {
    TwoCounts(c, " Critical, ", w, " Warnings");
  }

  // ---------------------------------------------------------------------
  // One card

  /** The address a card opens: the service's URL, else a placeholder built from its id. */
  function OpenUrl(s: Service): (u: string)
    ensures Truthy(s.url) ==> u == s.url.value
    ensures !Truthy(s.url) ==> u == "https://" + s.id + ".example.com"
  {
    if Truthy(s.url) then s.url.value else "https://" + s.id + ".example.com"
  }

  datatype Target = Blank | Self

  /** A modified click (ctrl or meta) or a middle click opens a new tab; anything else navigates in place. */
  function OpenTarget(ctrl: bool, meta: bool, button: int): (t: Target)
    ensures t == Blank <==> ctrl || meta || button == 1
  {
    if ctrl || meta || button == 1 then Blank else Self
  }

  const NotAvailable := [Metric("Status", MText("N/A"))]

  /**
   * `handleRefresh`: a non-empty fetched list replaces the metrics, an
   * empty one leaves them, and a failed fetch shows one `Status: N/A`.
   */
  function Refresh(metrics: seq<Metric>, fetched: Result<seq<Metric>, string>): (r: seq<Metric>)
    ensures fetched.Ok? && |fetched.value| > 0 ==> r == fetched.value
    ensures fetched.Ok? && |fetched.value| == 0 ==> r == metrics
    ensures fetched.Err? ==> r == NotAvailable
  {
    match fetched
    case Ok(m) => if |m| > 0 then m else metrics
    case Err(_) => NotAvailable
  }

  /** A refresh never empties a card that had metrics, and repeating the same outcome changes nothing. */
  lemma RefreshKeepsSomething(metrics: seq<Metric>, fetched: Result<seq<Metric>, string>)
    ensures |metrics| > 0 ==> |Refresh(metrics, fetched)| > 0
    ensures Refresh(Refresh(metrics, fetched), fetched) == Refresh(metrics, fetched)
  {
  }

  /** The metrics after the card mounts: it fetches only when it starts without metrics. */
  function Mount(s: Service, fetched: Result<seq<Metric>, string>): (r: seq<Metric>)
    ensures |s.metrics| > 0 ==> r == s.metrics
    ensures |s.metrics| == 0 ==> r == Refresh([], fetched)
  {
    if |s.metrics| == 0 then Refresh([], fetched) else s.metrics
  }

  /** Every card built from the configuration fetches its metrics on mount. */
  lemma ConfiguredCardsFetch(cats: seq<CategoryConfig>, k: int, fetched: Result<seq<Metric>, string>)
    requires 0 <= k < |Flatten(cats)|
    ensures Mount(Flatten(cats)[k], fetched) == Refresh([], fetched)
  {
  }
}

=== FILE: admin_forms.dfy ===
/**
 * The admin tables' client-side logic: the form validators of the
 * applications, categories and dashboard-links tabs, the editor state
 * (`startEdit`, `startCreate`, `cancelEdit`) and the column sort.
 */
module AdminForms {
  import opened Wrappers
  import opened Strings
  import opened Collections
  import AdminApps

  // ---------------------------------------------------------------------
  // Text checks shared by the validators

  /** `s.length`: UTF-16 code units, two for a character outside the basic plane. */
  function Utf16Length(s: string): (n: nat)
    ensures |s| <= n <= 2 * |s|
  {
    if |s| == 0 then 0
    else (if s[0] as int >= 0x1_0000 then 2 else 1) + Utf16Length(s[1..])
  }

  /** A character of the class `[a-zA-Z0-9 &_-]`. */
  predicate FormNameChar(c: char) {
    'a' <= c <= 'z' || 'A' <= c <= 'Z' || '0' <= c <= '9' || c == ' ' || c == '&' || c == '_' || c == '-'
  }

  /** `name.match(/^[a-zA-Z0-9 &_-]+$/)` succeeds. */
  predicate PatternName(s: string) {
    |s| >= 1 && forall i :: 0 <= i < |s| ==> FormNameChar(s[i])
  }

  /** Pattern characters lie in the basic plane, so the length is the character count. */
  lemma {:induction false} PatternNameLength(s: string)
    requires forall i :: 0 <= i < |s| ==> FormNameChar(s[i])
    ensures Utf16Length(s) == |s|
  {
    if |s| > 0 {
      assert forall i :: 0 <= i < |s[1..]| ==> s[1..][i] == s[i + 1];
      PatternNameLength(s[1..]);
    }
  }

  lemma PatternNameFits(name: Option<string>)
    ensures name.Some? && PatternName(name.value) ==> Utf16Length(name.value) == |name.value|
  {
    if name.Some? && PatternName(name.value) {
      PatternNameLength(name.value);
    }
  }

  /** What `.` in a JavaScript regular expression refuses. */
  predicate LineTerminator(c: char) {
    c == '\n' || c == '\r' || c == '\U{2028}' || c == '\U{2029}'
  }

  /** `url.match(/^https?:\/\/.+/)` succeeds: a scheme, then at least one character on the first line. */
  predicate WebUrl(u: string) {
    (HasPrefix(u, "http://") && |u| > 7 && !LineTerminator(u[7]))
    || (HasPrefix(u, "https://") && |u| > 8 && !LineTerminator(u[8]))
  }

  /** The pattern is anchored at the start only: whatever follows a match is accepted. */
  lemma WebUrlExtends(u: string, t: string)
    requires WebUrl(u)
    ensures WebUrl(u + t)
  {
    var v := u + t;
    assert v[..|u|] == u;
    if HasPrefix(u, "http://") && |u| > 7 && !LineTerminator(u[7]) {
      assert v[..7] == u[..7] && v[7] == u[7];
    } else {
      assert v[..8] == u[..8] && v[8] == u[8];
    }
  }

  const NameRequired := "Name is required and must be less than 50 characters"
  const NameInvalid := "Name contains invalid characters. Only alphanumeric, spaces, hyphens, and underscores are allowed."
  const CategoryRequired := "Category is required"
  const UrlInvalid := "URL must start with http:// or https://"
  const LinkNameRequired := "Name is required"
  const LinkUrlRequired := "URL is required"

  /** The name checks of the application and category forms: present, at most 50 units, pattern characters only. */
  function NameCheck(name: Option<string>): (r: Option<string>)
    ensures r == Some(NameRequired) <==> !Truthy(name) || Utf16Length(name.value) > 50
    ensures r == Some(NameInvalid) <==> Truthy(name) && Utf16Length(name.value) <= 50 && !PatternName(name.value)
    ensures r.None? <==> name.Some? && PatternName(name.value) && |name.value| <= 50
  {
    PatternNameFits(name);
    if !Truthy(name) || Utf16Length(name.value) > 50 then Some(NameRequired)
    else if !PatternName(name.value) then Some(NameInvalid)
    else None
  }

  // ---------------------------------------------------------------------
  // The applications tab

  /** A row of the applications table. */
  datatype AppRow = AppRow(id: int, name: string, category: string, icon: string, url: string,
                           description: string, keyFeatures: Option<string>, isActive: int, metricsEnabled: int)

  /** `Partial<AppData>`: every field may be missing. */
  datatype AppForm = AppForm(id: Option<int>, name: Option<string>, category: Option<string>, icon: Option<string>,
                             url: Option<string>, description: Option<string>, keyFeatures: Option<string>,
                             isActive: Option<int>, metricsEnabled: Option<int>)

  /**
   * `validateForm`: the first failing check decides the one message
   * reported; an empty or missing URL is accepted.
   */
  function ValidateApp(form: AppForm): (r: Option<string>)
    ensures r == Some(NameRequired) <==> NameCheck(form.name) == Some(NameRequired)
    ensures r == Some(NameInvalid) <==> NameCheck(form.name) == Some(NameInvalid)
    ensures r == Some(CategoryRequired) <==> NameCheck(form.name).None? && !Truthy(form.category)
    ensures r == Some(UrlInvalid) <==>
      NameCheck(form.name).None? && Truthy(form.category) && Truthy(form.url) && !WebUrl(form.url.value)
    ensures r.None? <==>
      form.name.Some? && PatternName(form.name.value) && |form.name.value| <= 50
      && Truthy(form.category) && (!Truthy(form.url) || WebUrl(form.url.value))
  {
    var n := NameCheck(form.name);
    if n.Some? then n
    else if !Truthy(form.category) then Some(CategoryRequired)
    else if Truthy(form.url) && !WebUrl(form.url.value) then Some(UrlInvalid)
    else None
  }

  /** `startEdit` copies the row into the form. */
  function AppFormOf(row: AppRow): (f: AppForm)
    ensures f.id == Some(row.id) && f.name == Some(row.name) && f.category == Some(row.category)
    ensures f.url == Some(row.url) && f.keyFeatures == row.keyFeatures
  {
    AppForm(Some(row.id), Some(row.name), Some(row.category), Some(row.icon), Some(row.url),
            Some(row.description), row.keyFeatures, Some(row.isActive), Some(row.metricsEnabled))
  }

  /** `{}` */
  const EmptyAppForm := AppForm(None, None, None, None, None, None, None, None, None)

  /** `startCreate`'s defaults: the first category's name (or `''`), icon `'Box'`, active, metrics off. */
  function NewAppForm(categories: seq<string>): (f: AppForm)
    ensures f.id.None? && f.name == Some("") && f.url == Some("")
    ensures f.category == Some(if |categories| > 0 then categories[0] else "")
    ensures f.icon == Some("Box") && f.isActive == Some(1) && f.metricsEnabled == Some(0)
  {
    AppForm(None, Some(""), Some(if |categories| > 0 then categories[0] else ""), Some("Box"), Some(""),
            Some(""), Some(""), Some(1), Some(0))
  }

  /**
   * A fresh form is refused for its empty name; once a name is typed in,
   * it is accepted exactly when the name passes and there is a first
   * category with a non-empty name.
   */
  lemma NewAppFormNeedsNameAndCategory(categories: seq<string>, name: string)
    ensures ValidateApp(NewAppForm(categories)) == Some(NameRequired)
    ensures ValidateApp(NewAppForm(categories).(name := Some(name))).None? <==>
      PatternName(name) && |name| <= 50 && |categories| > 0 && categories[0] != ""
  {
  }

  /**
   * Every name the server's model accepts and that fits in 50 units passes
   * the form's name checks; the form also lets through spaces and `&`,
   * which the server refuses.
   */
  lemma FormNamesWiderThanServer(s: string)
    ensures AdminApps.ValidName(s) && |s| <= 50 ==> NameCheck(Some(s)).None?
    ensures NameCheck(Some("My App")).None? && !AdminApps.ValidName("My App")
  {
    assert "My App"[2] == ' ';
    if AdminApps.ValidName(s) && |s| <= 50 {
      PatternNameLength(s);
    }
  }

  // ---------------------------------------------------------------------
  // The categories tab and page

  datatype CategoryRow = CategoryRow(id: int, name: string, icon: string)

  datatype CategoryForm = CategoryForm(id: Option<int>, name: Option<string>, icon: Option<string>)

  /** Both category screens check the name only, exactly as the applications form does. */
  function ValidateCategory(form: CategoryForm): (r: Option<string>)
    ensures r.None? <==> form.name.Some? && PatternName(form.name.value) && |form.name.value| <= 50
    ensures r.Some? ==> r.value == NameRequired || r.value == NameInvalid
  {
    NameCheck(form.name)
  }

  /** A category and an application named alike are judged alike as far as the name goes. */
  lemma CategoryAndAppNamesAgree(form: CategoryForm, app: AppForm)
    requires form.name == app.name
    ensures ValidateCategory(form).Some? ==> ValidateApp(app) == ValidateCategory(form)
    ensures ValidateApp(app).None? ==> ValidateCategory(form).None?
  {
  }

  function CategoryFormOf(row: CategoryRow): (f: CategoryForm)
    ensures f == CategoryForm(Some(row.id), Some(row.name), Some(row.icon))
  {
    CategoryForm(Some(row.id), Some(row.name), Some(row.icon))
  }

  const EmptyCategoryForm := CategoryForm(None, None, None)

  /** `startCreate`: an empty name and the `'Folder'` icon. */
  const NewCategoryForm := CategoryForm(None, Some(""), Some("Folder"))

  // ---------------------------------------------------------------------
  // The dashboard-links tab

  datatype LinkRow = LinkRow(id: string, name: string, slug: string, icon: string, url: string,
                             displayOrder: int, isActive: bool)

  datatype LinkForm = LinkForm(id: Option<string>, name: Option<string>, slug: Option<string>, icon: Option<string>,
                               url: Option<string>, displayOrder: Option<int>, isActive: Option<bool>)

  /** The links form wants a name and then a URL; neither length nor format is checked. */
  function ValidateLink(form: LinkForm): (r: Option<string>)
    ensures r == Some(LinkNameRequired) <==> !Truthy(form.name)
    ensures r == Some(LinkUrlRequired) <==> Truthy(form.name) && !Truthy(form.url)
    ensures r.None? <==> Truthy(form.name) && Truthy(form.url)
  {
    if !Truthy(form.name) then Some(LinkNameRequired)
    else if !Truthy(form.url) then Some(LinkUrlRequired)
    else None
  }

  function LinkFormOf(row: LinkRow): (f: LinkForm)
    ensures f.id == Some(row.id) && f.name == Some(row.name) && f.url == Some(row.url)
  {
    LinkForm(Some(row.id), Some(row.name), Some(row.slug), Some(row.icon), Some(row.url),
             Some(row.displayOrder), Some(row.isActive))
  }

  const EmptyLinkForm := LinkForm(None, None, None, None, None, None, None)

  /** `startCreate`: empty name and URL, the `'Link'` icon, order 0, active. */
  const NewLinkForm := LinkForm(None, Some(""), None, Some("Link"), Some(""), Some(0), Some(true))

  /** A fresh link is refused for its name, and after a name is typed in, for its URL. */
  lemma NewLinkFormNeedsNameThenUrl(name: string, url: string)
    ensures ValidateLink(NewLinkForm) == Some(LinkNameRequired)
    ensures name != "" ==> ValidateLink(NewLinkForm.(name := Some(name))) == Some(LinkUrlRequired)
    ensures ValidateLink(NewLinkForm.(name := Some(name), url := Some(url))).None? <==> name != "" && url != ""
  {
  }

  /** A stored row whose name and URL are non-empty can be saved again unchanged. */
  lemma EditedLinkPasses(row: LinkRow)
    ensures ValidateLink(LinkFormOf(row)).None? <==> row.name != "" && row.url != ""
  {
  }

  // ---------------------------------------------------------------------
  // Editor state, the same in all three screens

  /** `isEditing`, `isCreating` and `editForm`. */
  datatype Editor<K, F> = Editor(editing: Option<K>, creating: bool, form: F)

  /** The screens never edit a row and create one at the same time. */
  predicate Exclusive<K, F>(e: Editor<K, F>) {
    !(e.editing.Some? && e.creating)
  }

  /** `startEdit(row)`: edit that row, with a copy of it as the form. */
  function StartEdit<K, F>(id: K, copy: F): (r: Editor<K, F>)
    ensures Exclusive(r) && r.editing == Some(id) && r.form == copy
  {
    Editor(Some(id), false, copy)
  }

  /** `startCreate()`: create mode with the screen's defaults, no row being edited. */
  function StartCreate<K, F>(defaults: F): (r: Editor<K, F>)
    ensures Exclusive(r) && r.creating && r.editing.None? && r.form == defaults
  {
    Editor(None, true, defaults)
  }

  /** `cancelEdit()`: neither mode, an empty form. */
  function CancelEdit<K, F>(empty: F): (r: Editor<K, F>)
    ensures Exclusive(r) && !r.creating && r.editing.None? && r.form == empty
  {
    Editor(None, false, empty)
  }

  /** Editing an application row keeps the row's id both as the edited id and in the form. */
  lemma StartEditApp(row: AppRow)
    ensures StartEdit(row.id, AppFormOf(row)).editing == StartEdit(row.id, AppFormOf(row)).form.id
    ensures ValidateApp(StartEdit(row.id, AppFormOf(row)).form).None? <==>
      PatternName(row.name) && |row.name| <= 50 && row.category != "" && (row.url == "" || WebUrl(row.url))
  {
  }

  /** Cancelling forgets whatever was going on: the result does not depend on the prior state. */
  lemma CancelForgets<K, F>(id: K, copy: F, defaults: F, empty: F)
    ensures CancelEdit<K, F>(empty) == Editor(None, false, empty)
    ensures StartEdit(id, copy).(editing := None, creating := false, form := empty)
      == CancelEdit<K, F>(empty)
    ensures StartCreate<K, F>(defaults).(editing := None, creating := false, form := empty)
      == CancelEdit<K, F>(empty)
  {
  }

  // ---------------------------------------------------------------------
  // Sorting the tables by a clicked column

  datatype SortConfig<K> = SortConfig(key: K, direction: Direction)

  /**
   * `handleSort(key)`: clicking the column that is currently ascending makes
   * it descending; any other click sorts ascending by the clicked column.
   */
  function HandleSort<K(==)>(config: Option<SortConfig<K>>, key: K): (r: SortConfig<K>)
    ensures r.key == key
    ensures r.direction == Desc <==> config == Some(SortConfig(key, Asc))
  {
    if config.Some? && config.value.key == key && config.value.direction == Asc
    then SortConfig(key, Desc)
    else SortConfig(key, Asc)
  }

  /** Clicking the same column twice more comes back to the same order. */
  lemma HandleSortPeriodTwo<K>(config: SortConfig<K>)
    ensures HandleSort(Some(HandleSort(Some(config), config.key)), config.key) == config
  {
  }

  /**
   * `sortedApps`, `sortedCategories`, `sortedLinks`: the rows as they are
   * without a sort, otherwise a stable sort by the column in the direction.
   */
  function SortedRows<K, T(==)>(rows: seq<T>, config: Option<SortConfig<K>>, column: (K, T) -> SortKey): (r: seq<T>)
    ensures multiset(r) == multiset(rows) && |r| == |rows|
    ensures config.None? ==> r == rows
    ensures config.Some? ==> SortedBy(r, ColumnOf(column, config.value.key), config.value.direction)
  {
    match config
    case None => rows
    case Some(c) =>
      SortByKeySorted(rows, ColumnOf(column, c.key), c.direction);
      SortByKey(rows, ColumnOf(column, c.key), c.direction)
  }

  /** The value a row shows in one column. */
  function ColumnOf<K, T>(column: (K, T) -> SortKey, key: K): T -> SortKey {
    t => column(key, t)
  }

  /** Rows that show the same value in the sorted column keep their relative order. */
  lemma SortedRowsStable<K, T>(rows: seq<T>, c: SortConfig<K>, column: (K, T) -> SortKey, v: SortKey)
    ensures Filter(SortedRows(rows, Some(c), column), HasKey(ColumnOf(column, c.key), v))
         == Filter(rows, HasKey(ColumnOf(column, c.key), v))
  {
    SortByKeyStable(rows, ColumnOf(column, c.key), c.direction, v);
  }

  /** The sortable columns of the applications table; `key_features` is optional and not sorted here. */
  datatype AppColumn = AppId | AppName | AppCategory | AppIcon | AppUrl | AppDescription | AppIsActive | AppMetricsEnabled

  function AppValue(c: AppColumn, a: AppRow): SortKey {
    match c
    case AppId => KNum(a.id)
    case AppName => KStr(a.name)
    case AppCategory => KStr(a.category)
    case AppIcon => KStr(a.icon)
    case AppUrl => KStr(a.url)
    case AppDescription => KStr(a.description)
    case AppIsActive => KNum(a.isActive)
    case AppMetricsEnabled => KNum(a.metricsEnabled)
  }

  datatype CategoryColumn = CategoryId | CategoryName | CategoryIcon

  function CategoryValue(c: CategoryColumn, row: CategoryRow): SortKey {
    match c
    case CategoryId => KNum(row.id)
    case CategoryName => KStr(row.name)
    case CategoryIcon => KStr(row.icon)
  }

  datatype LinkColumn = LinkId | LinkName | LinkSlug | LinkIcon | LinkUrl | LinkDisplayOrder | LinkIsActive

  /** Booleans compare as `false < true`. */
  function LinkValue(c: LinkColumn, row: LinkRow): SortKey {
    match c
    case LinkId => KStr(row.id)
    case LinkName => KStr(row.name)
    case LinkSlug => KStr(row.slug)
    case LinkIcon => KStr(row.icon)
    case LinkUrl => KStr(row.url)
    case LinkDisplayOrder => KNum(row.displayOrder)
    case LinkIsActive => KNum(if row.isActive then 1 else 0)
  }

  /** Sorting the links descending by display order puts larger orders first. */
  lemma LinksByOrderDescending(links: seq<LinkRow>, i: int, j: int)
    requires 0 <= i < j < |links|
    ensures var r := SortedRows(links, Some(SortConfig(LinkDisplayOrder, Desc)), LinkValue);
      r[i].displayOrder >= r[j].displayOrder
  {
    var r := SortedRows(links, Some(SortConfig(LinkDisplayOrder, Desc)), LinkValue);
    var key := ColumnOf(LinkValue, LinkDisplayOrder);
    assert !Precedes(Desc, key(r[j]), key(r[i]));
    assert key(r[i]) == LinkValue(LinkDisplayOrder, r[i]) && key(r[j]) == LinkValue(LinkDisplayOrder, r[j]);
  }

  /** Sorting the applications ascending by name orders the names. */
  lemma AppsByNameAscending(apps: seq<AppRow>, i: int, j: int)
    requires 0 <= i < j < |apps|
    ensures var r := SortedRows(apps, Some(SortConfig(AppName, Asc)), AppValue);
      !Less(r[j].name, r[i].name)
  {
    var r := SortedRows(apps, Some(SortConfig(AppName, Asc)), AppValue);
    var key := ColumnOf(AppValue, AppName);
    assert !Precedes(Asc, key(r[j]), key(r[i]));
    assert key(r[i]) == AppValue(AppName, r[i]) && key(r[j]) == AppValue(AppName, r[j]);
  }
}

=== FILE: admin_guard.dfy ===
/** The Express admin guard: lets a request through only when its user is flagged admin. */
module AdminGuard {
  import opened Wrappers
  import opened Http
  import opened AuthTypes

  /**
   * No user context, or a user whose flag is not `true`, is refused with
   * 403 "Forbidden"; otherwise the request continues with the same user.
   */
  function Guard(user: Option<AuthUser>): (r: Step<AuthUser>)
    ensures r.Next? <==> user.Some? && user.value.isAdmin
    ensures r.Next? ==> r.context == user.value
    ensures r.Respond? ==> r.response == Forbidden
  {
    match user
    case None => Respond(Forbidden)
    case Some(u) => if u.isAdmin then Next(u) else Respond(Forbidden)
  }

  /** The guard decides on the flag alone: the role list is never consulted. */
  lemma GuardIgnoresRoles(u: AuthUser, roles: seq<string>)
    ensures Guard(Some(u)).Next? == Guard(Some(u.(roles := roles))).Next?
  {
  }
}

=== FILE: admin_resolver.dfy ===
/**
 * The admin allow-list of the Express back end: loaded once from a JSON file,
 * matched case-insensitively, and used to raise a user's admin flag.
 */
module AdminResolver {
  import opened Wrappers
  import opened Strings
  import opened AuthTypes

  /** An entry of the `admins` array: a string, or any other JSON value. */
  datatype Entry = Email(text: string) | NotText

  /**
   * The allow-list file as it was found: absent, not valid JSON, or parsed
   * with an `admins` field that is an array (`Some`) or anything else (`None`).
   */
  datatype AdminFile = Absent | Unparsable | Parsed(admins: Option<seq<Entry>>)

  /** How many entries are read before the first non-string stops the load. */
  function TextPrefix(entries: seq<Entry>): (n: nat)
    ensures n <= |entries|
    ensures forall k :: 0 <= k < n ==> entries[k].Email?
    ensures n < |entries| ==> entries[n].NotText?
  {
    if |entries| == 0 || entries[0].NotText? then 0 else 1 + TextPrefix(entries[1..])
  }

  /** The normalised e-mails in the order they are added. */
  function Keys(lang: Lang, entries: seq<Entry>): (r: seq<string>)
    ensures |r| == TextPrefix(entries)
    ensures forall k :: 0 <= k < |r| ==> r[k] == Normalize(lang, entries[k].text)
  {
    var n := TextPrefix(entries);
    seq(n, k requires 0 <= k < n => Normalize(lang, entries[k].text))
  }

  /**
   * Adding each entry lower-cased and trimmed (`toLowerCase().trim()` in
   * TypeScript, `lower().strip()` in Python), in turn. A non-string entry
   * throws inside the loop; the loader catches the exception, so what was
   * added before it stays.
   */
  function LoadEntries(lang: Lang, entries: seq<Entry>): (r: set<string>)
    ensures forall k :: 0 <= k < TextPrefix(entries) ==> Normalize(lang, entries[k].text) in r
    ensures forall e :: e in r ==> exists k :: 0 <= k < TextPrefix(entries) && Normalize(lang, entries[k].text) == e
  {
    var keys := Keys(lang, entries);
    set k | 0 <= k < |keys| :: keys[k]
  }

  /** The set of normalised admin e-mails; empty when the file is absent, unreadable or malformed. */
  function LoadAdmins(lang: Lang, file: AdminFile): (r: set<string>)
    ensures !file.Parsed? || file.admins.None? ==> r == {}
    ensures file.Parsed? && file.admins.Some? ==> r == LoadEntries(lang, file.admins.value)
  {
    match file
    case Parsed(Some(entries)) => LoadEntries(lang, entries)
    case _ => {}
  }

  /** Every stored e-mail is already in normal form. */
  lemma LoadedAreNormal(lang: Lang, file: AdminFile)
    ensures forall e :: e in LoadAdmins(lang, file) ==> Normalize(lang, e) == e
  {
    forall e | e in LoadAdmins(lang, file) ensures Normalize(lang, e) == e {
      var entries := file.admins.value;
      var k :| 0 <= k < TextPrefix(entries) && Normalize(lang, entries[k].text) == e;
      NormalizeIdempotent(lang, entries[k].text);
    }
  }


  /** An empty or missing e-mail is never an admin; otherwise its normal form is looked up. */
  function ResolveAdmin(admins: set<string>, email: Option<string>): (r: bool)
    ensures email.None? || email == Some("") ==> !r
    ensures email.Some? && email.value != "" ==> (r <==> Normalize(JS, email.value) in admins)
  {
    match email
    case None => false
    case Some(e) => e != "" && Normalize(JS, e) in admins
  }

  /**
   * An e-mail is an admin exactly when it differs from a listed string (read
   * before any non-string entry) only in ASCII case and surrounding
   * whitespace.
   */
  lemma ResolveAdminListed(entries: seq<Entry>, email: string)
    requires email != ""
    ensures ResolveAdmin(LoadAdmins(JS, Parsed(Some(entries))), Some(email))
        <==> exists k :: 0 <= k < TextPrefix(entries) && Normalize(JS, entries[k].text) == Normalize(JS, email)
  {
  }

  /** Without a usable allow-list nobody is an admin. */
  lemma NoListNoAdmin(file: AdminFile, email: Option<string>)
    requires !file.Parsed? || file.admins.None?
    ensures !ResolveAdmin(LoadAdmins(JS, file), email)
  {
  }

  /**
   * The admin flag is overwritten from the allow-list; an admin gets the
   * role "admin" appended when it is missing. Everything else is kept.
   */
  function Resolve(admins: set<string>, user: AuthUser): (r: AuthUser)
    ensures r.email == user.email && r.name == user.name
    ensures r.isAdmin == ResolveAdmin(admins, user.email)
    ensures r.isAdmin ==> "admin" in r.roles
    ensures !r.isAdmin ==> r.roles == user.roles
    ensures r.isAdmin && "admin" in user.roles ==> r.roles == user.roles
    ensures r.isAdmin && "admin" !in user.roles ==> r.roles == user.roles + ["admin"]
  {
    if ResolveAdmin(admins, user.email) then
      var roles := if "admin" in user.roles then user.roles else user.roles + ["admin"];
      user.(roles := roles, isAdmin := true)
    else
      user.(isAdmin := false)
  }

  /** Resolution never removes or reorders a role. */
  lemma ResolveKeepsRoles(admins: set<string>, user: AuthUser)
    ensures user.roles <= Resolve(admins, user).roles
  {
  }

  /** Resolving twice is resolving once, so a strategy that resolves before the middleware does changes nothing. */
  lemma ResolveIdempotent(admins: set<string>, user: AuthUser)
    ensures Resolve(admins, Resolve(admins, user)) == Resolve(admins, user)
  {
  }

  /**
   * A user whose roles already say "admin" but who is not on the list keeps
   * the role while the flag is lowered: role and flag can disagree.
   */
  lemma RoleAndFlagCanDisagree(admins: set<string>, user: AuthUser)
    requires "admin" in user.roles && !ResolveAdmin(admins, user.email)
    ensures var r := Resolve(admins, user); "admin" in r.roles && !r.isAdmin
  {
  }
}

=== FILE: apps_route.dfy ===
/**
 * The FastAPI user-facing catalogue: active records mapped to the card shape
 * the front end expects, and an in-memory favourites set keyed by id text.
 */
module AppsRoute {
  import opened Wrappers
  import opened Numbers
  import opened Collections

  /** A record id as stored: text (a UUID from the admin routes) or a JSON number. */
  datatype AppId = IdText(text: string) | IdNumber(n: int)

  /** A stored record as read from the file; absent keys are `None`. */
  datatype StoredApp = StoredApp(id: AppId, name: string, description: Option<string>, category: Option<string>,
                                 route: Option<string>, isActive: Option<bool>)

  /** The card sent to the front end. */
  datatype Card = Card(id: string, name: string, desc: string, category: string, isFavorite: bool,
                       baseActivity: string, icon: string, url: string, metrics: string, status: string, lastUsed: string)

  const InitialFavorites: set<string> := {"1", "2", "3", "12"}

  /** `str(id)`. */
  function IdString(id: AppId): (s: string)
    ensures id.IdText? ==> s == id.text
    ensures id.IdNumber? ==> ParseInt(s) == Num(id.n)
  {
    match id
    case IdText(t) => t
    case IdNumber(n) => ReadBack(n); IntToString(n)
  }

  /** A record without `isActive` counts as active. */
  predicate IsActive(app: StoredApp) {
    app.isActive.GetOr(true)
  }

  /** The card of one record: defaults for absent keys, fixed display fields. */
  function ToCard(app: StoredApp, favorites: set<string>): (c: Card)
    ensures c.id == IdString(app.id) && c.name == app.name
    ensures c.isFavorite <==> c.id in favorites
    ensures c.desc == app.description.GetOr("") && c.category == app.category.GetOr("Uncategorized")
    ensures c.url == app.route.GetOr("#")
    ensures c.icon == "Box" && c.status == "Active" && c.baseActivity == "Active"
    ensures c.metrics == "N/A" && c.lastUsed == "Recently"
  {
    var id := IdString(app.id);
    Card(id, app.name, app.description.GetOr(""), app.category.GetOr("Uncategorized"), id in favorites,
         "Active", "Box", app.route.GetOr("#"), "N/A", "Active", "Recently")
  }

  /** `get_apps`: the cards of the active records, in file order. */
  function GetApps(apps: seq<StoredApp>, favorites: set<string>): (r: seq<Card>)
    ensures |r| <= |apps|
    ensures forall k :: 0 <= k < |r| ==> (r[k].isFavorite <==> r[k].id in favorites)
    ensures forall i :: 0 <= i < |apps| && IsActive(apps[i]) ==> ToCard(apps[i], favorites) in r
  {
    if |apps| == 0 then []
    else
      var rest := GetApps(apps[1..], favorites);
      assert forall i :: 1 <= i < |apps| ==> apps[i] == apps[1..][i - 1];
      if IsActive(apps[0]) then [ToCard(apps[0], favorites)] + rest else rest
  }

  /** Every card comes from an active record: inactive records are never shown. */
  lemma {:induction false} GetAppsOnlyActive(apps: seq<StoredApp>, favorites: set<string>, c: Card)
    requires c in GetApps(apps, favorites)
    ensures exists i :: 0 <= i < |apps| && IsActive(apps[i]) && c == ToCard(apps[i], favorites)
  {
    var rest := GetApps(apps[1..], favorites);
    if IsActive(apps[0]) && c == ToCard(apps[0], favorites) {
    } else {
      assert c in rest;
      GetAppsOnlyActive(apps[1..], favorites, c);
      var i :| 0 <= i < |apps[1..]| && IsActive(apps[1..][i]) && c == ToCard(apps[1..][i], favorites);
      assert apps[1..][i] == apps[i + 1];
    }
  }

  /** The cards of the given records, one each, in the same order. */
  function Cards(apps: seq<StoredApp>, favorites: set<string>): (r: seq<Card>)
    ensures |r| == |apps| && forall k :: 0 <= k < |apps| ==> r[k] == ToCard(apps[k], favorites)
  {
    seq(|apps|, k requires 0 <= k < |apps| => ToCard(apps[k], favorites))
  }

  lemma CardsCons(app: StoredApp, rest: seq<StoredApp>, favorites: set<string>)
    ensures Cards([app] + rest, favorites) == [ToCard(app, favorites)] + Cards(rest, favorites)
  {
    assert forall k :: 0 < k <= |rest| ==> ([app] + rest)[k] == rest[k - 1];
  }

  /** The listing is the active records, in file order, each made a card. */
  lemma {:induction false} GetAppsIsFilterThenMap(apps: seq<StoredApp>, favorites: set<string>)
    ensures GetApps(apps, favorites) == Cards(Filter(apps, IsActive), favorites)
  {
    if |apps| > 0 {
      GetAppsIsFilterThenMap(apps[1..], favorites);
      var rest := Filter(apps[1..], IsActive);
      if IsActive(apps[0]) {
        assert GetApps(apps, favorites) == [ToCard(apps[0], favorites)] + GetApps(apps[1..], favorites);
        assert Filter(apps, IsActive) == [apps[0]] + rest;
        CardsCons(apps[0], rest, favorites);
      } else {
        assert GetApps(apps, favorites) == GetApps(apps[1..], favorites);
        assert Filter(apps, IsActive) == rest;
      }
    }
  }

  /** The reply of the favourite toggle. */
  datatype ToggleReply = ToggleReply(action: string, isFavorite: bool)

  /** `toggle_favorite`: remove the id if present, add it otherwise, and report membership afterwards. */
  function ToggleFavorite(favorites: set<string>, appId: string): (r: (set<string>, ToggleReply))
    ensures r.0 == ToggleSet(favorites, appId)
    ensures r.1.isFavorite <==> appId in r.0
    ensures r.1.action == (if appId in favorites then "removed" else "added")
    ensures r.1.isFavorite <==> r.1.action == "added"
  {
    var next := ToggleSet(favorites, appId);
    (next, ToggleReply(if appId in favorites then "removed" else "added", appId in next))
  }

  /** Toggling the same id twice restores the set. */
  lemma ToggleFavoriteTwice(favorites: set<string>, appId: string)
    ensures ToggleFavorite(ToggleFavorite(favorites, appId).0, appId).0 == favorites
  {
    ToggleSetTwice(favorites, appId);
  }

  /** Toggling one id changes the favourite flag of exactly the cards with that id. */
  lemma ToggleAffectsOnlyThatId(favorites: set<string>, appId: string, app: StoredApp)
    ensures var before := ToCard(app, favorites); var after := ToCard(app, ToggleFavorite(favorites, appId).0);
      (before.isFavorite != after.isFavorite <==> before.id == appId)
  {
  }
}

=== FILE: auth_middleware.dfy ===
/**
 * The Express authentication middleware: strategy selection at start-up,
 * bearer-token extraction, authentication and admin resolution per request.
 */
module AuthMiddleware {
  import opened Wrappers
  import opened Strings
  import opened Http
  import opened AuthTypes
  import opened AdminResolver
  import opened Strategies

  /**
   * Start-up: the JWT strategy exactly when the mode is "jwt", the mock
   * strategy for every other mode. A failure here ends the process.
   */
  function StartUp(cfg: Config, keyFile: Result<string, string>): (r: Result<Strategy, string>)
    ensures cfg.authMode != "jwt" ==> r == Ok(Mock)
    ensures cfg.authMode == "jwt" ==> r == NewJwt(cfg, keyFile)
    ensures r.Ok? ==> (r.value.Jwt? <==> cfg.authMode == "jwt")
  {
    if cfg.authMode == "jwt" then NewJwt(cfg, keyFile) else Ok(Mock)
  }

  /** With the default mode ("login") the server runs the mock strategy, not the login one. */
  lemma DefaultModeIsMock(env: map<string, string>, keyFile: Result<string, string>)
    requires "AUTH_MODE" !in env
    ensures StartUp(LoadConfig(env), keyFile) == Ok(Mock)
  {
  }

  const BearerPrefix := "Bearer "

  /** The first space of a "Bearer " header is the one ending the scheme. */
  lemma BearerFirstSpace(h: string)
    requires HasPrefix(h, BearerPrefix)
    ensures NextIndexOf(h, ' ', 0) == 6
  {
    assert h[..7] == BearerPrefix;
    assert forall i :: 0 <= i < 6 ==> h[i] != ' ';
    assert h[6] == ' ';
  }

  /**
   * The token of an `Authorization` header: absent unless the header starts
   * with "Bearer "; otherwise the second space-separated field.
   */
  function BearerToken(header: Option<string>): (t: Option<string>)
    ensures t.Some? <==> header.Some? && HasPrefix(header.value, BearerPrefix)
  {
    if header.None? || header.value == "" || !HasPrefix(header.value, BearerPrefix) then None
    else
      var h := header.value;
      BearerFirstSpace(h);
      SplitRestFields(h, ' ');
      Some(SplitOn(h, ' ')[1])
  }

  /** The token is the text after "Bearer " up to the next space (or the end). */
  lemma BearerTokenText(h: string)
    requires HasPrefix(h, BearerPrefix)
    ensures BearerToken(Some(h)) == Some(h[7..NextIndexOf(h, ' ', 7)])
  {
    BearerFirstSpace(h);
    SplitRestFields(h, ' ');
    assert SplitOn(h, ' ')[1] == SplitOn(h[7..], ' ')[0];
    SplitFirstField(h[7..], ' ');
    NextIndexDrop(h, ' ', 7, 0);
    var m := NextIndexOf(h[7..], ' ', 0);
    assert h[7..][..m] == h[7..7 + m];
  }

  /** The chosen strategy applied to a token. */
  function Authenticate(strategy: Strategy, cfg: Config, admins: set<string>, verify: Verifier, token: string): (r: Result<AuthUser, string>)
    ensures strategy.Mock? ==> (r.Ok? <==> token == MockToken)
    ensures strategy.Jwt? ==> r == JwtAuthenticate(verify, strategy.publicKey, cfg, token)
  {
    match strategy
    case Mock => MockAuthenticate(admins, token)
    case Jwt(key) => JwtAuthenticate(verify, key, cfg, token)
  }

  /**
   * One request through the middleware. Every failure — no header, a
   * header without the scheme, or a rejected token — is the same 401
   * "Unauthorized"; on success the resolved user is attached and the
   * request continues.
   */
  function Handle(strategy: Strategy, cfg: Config, admins: set<string>, verify: Verifier, header: Option<string>): (r: Step<AuthUser>)
    ensures r.Respond? ==> r.response == Unauthorized
    ensures r.Next? <==> BearerToken(header).Some? && Authenticate(strategy, cfg, admins, verify, BearerToken(header).value).Ok?
    ensures r.Next? ==> r.context == Resolve(admins, Authenticate(strategy, cfg, admins, verify, BearerToken(header).value).value)
    ensures r.Next? ==> r.context.isAdmin == ResolveAdmin(admins, r.context.email)
  {
    match BearerToken(header)
    case None => Respond(Unauthorized)
    case Some(token) =>
      match Authenticate(strategy, cfg, admins, verify, token)
      case Err(_) => Respond(Unauthorized)
      case Ok(u) => Next(Resolve(admins, u))
  }

  /**
   * In mock mode the request is accepted exactly when the header's second
   * field is "mock-token", and the attached user is the mock user resolved
   * once, although the strategy and the middleware both resolve it.
   */
  lemma MockRequest(cfg: Config, admins: set<string>, verify: Verifier, h: string)
    requires HasPrefix(h, BearerPrefix)
    ensures Handle(Mock, cfg, admins, verify, Some(h)).Next? <==> h[7..NextIndexOf(h, ' ', 7)] == MockToken
    ensures Handle(Mock, cfg, admins, verify, Some(h)).Next? ==>
      Handle(Mock, cfg, admins, verify, Some(h)).context == Resolve(admins, MockBase)
  {
    BearerTokenText(h);
    ResolveIdempotent(admins, MockBase);
  }

  /** Anything after the token, separated by a space, is ignored. */
  lemma TrailingFieldsIgnored(h: string, rest: string)
    requires HasPrefix(h, BearerPrefix) && ' ' !in h[7..]
    ensures BearerToken(Some(h + " " + rest)) == BearerToken(Some(h))
  {
    var g := h + " " + rest;
    assert HasPrefix(g, BearerPrefix) by { assert g[..7] == h[..7]; }
    BearerTokenText(h);
    BearerTokenText(g);
    var k := NextIndexOf(g, ' ', 7);
    assert g[|h|] == ' ';
    assert forall i :: 7 <= i < |h| ==> g[i] == h[i] && h[i] == h[7..][i - 7];
    assert k == |h|;
    assert NextIndexOf(h, ' ', 7) == |h|;
    assert g[7..k] == h[7..NextIndexOf(h, ' ', 7)];
  }
}

=== FILE: auth_types.dfy ===
/**
 * Shared vocabulary of the Express authentication pipeline: the user record
 * attached to a request, what a token verifier hands back, and the
 * environment-driven configuration.
 */
module AuthTypes {
  import opened Wrappers

  /**
   * The authenticated user of the Express back end. `email` is optional
   * because the login strategy copies a claim that may be absent; `name` is
   * `null` when the token has none.
   */
  datatype AuthUser = AuthUser(email: Option<string>, name: Option<string>, roles: seq<string>, isAdmin: bool)

  /** The claims of a verified token that the strategies read. */
  datatype Claims = Claims(email: Option<string>, name: Option<string>, roles: Option<seq<string>>)

  /** A verified payload: a JSON object, or a bare string (a token signed over plain text). */
  datatype Decoded = Payload(claims: Claims) | Text(text: string)

  /**
   * Options handed to the verifier. `algorithms == None` leaves the choice
   * to the library's defaults for the key; `issuer`/`audience == None`
   * disables that check.
   */
  datatype VerifyOptions = VerifyOptions(algorithms: Option<seq<string>>, issuer: Option<string>, audience: Option<string>)

  /** Key material: a shared HMAC secret or the contents of a public-key file. */
  datatype Key = Secret(secret: string) | PublicKey(pem: string)

  /**
   * Signature, expiry, algorithm, issuer and audience checking is done by a
   * JWT library; the model takes it as an oracle whose error is the
   * library's message.
   */
  type Verifier = (string, Key, VerifyOptions) -> Result<Decoded, string>

  /** The configuration object, every field a string. */
  datatype Config = Config(
    authMode: string,
    jwtSecret: string,
    publicKeyPath: string,
    algorithm: string,
    issuer: string,
    audience: string)

  /** `process.env[name] || fallback`: an unset or empty variable yields the fallback. */
  function EnvOr(env: map<string, string>, name: string, fallback: string): (r: string)
    ensures name in env && env[name] != "" ==> r == env[name]
    ensures (name !in env || env[name] == "") ==> r == fallback
  {
    if name in env && env[name] != "" then env[name] else fallback
  }

  const DefaultSecret := "your_super_secret_key"
  const DefaultKeyPath := "./public_key.pem"

  /** The configuration read from the environment (after `.env` has been merged into it). */
  function LoadConfig(env: map<string, string>): (c: Config)
    ensures c.authMode != "" && c.jwtSecret != "" && c.publicKeyPath != "" && c.algorithm != ""
    ensures "AUTH_MODE" in env && env["AUTH_MODE"] != "" ==> c.authMode == env["AUTH_MODE"]
    ensures ("AUTH_MODE" !in env || env["AUTH_MODE"] == "") ==> c.authMode == "login"
    ensures "JWT_SECRET" in env && env["JWT_SECRET"] != "" ==> c.jwtSecret == env["JWT_SECRET"]
    ensures ("JWT_SECRET" !in env || env["JWT_SECRET"] == "") ==> c.jwtSecret == DefaultSecret
    ensures "JWT_PUBLIC_KEY_PATH" in env && env["JWT_PUBLIC_KEY_PATH"] != "" ==> c.publicKeyPath == env["JWT_PUBLIC_KEY_PATH"]
    ensures ("JWT_PUBLIC_KEY_PATH" !in env || env["JWT_PUBLIC_KEY_PATH"] == "") ==> c.publicKeyPath == DefaultKeyPath
    ensures "JWT_ALGORITHM" in env && env["JWT_ALGORITHM"] != "" ==> c.algorithm == env["JWT_ALGORITHM"]
    ensures ("JWT_ALGORITHM" !in env || env["JWT_ALGORITHM"] == "") ==> c.algorithm == "HS256"
    ensures "JWT_ISSUER" in env ==> c.issuer == env["JWT_ISSUER"]
    ensures "JWT_AUDIENCE" in env ==> c.audience == env["JWT_AUDIENCE"]
    ensures "JWT_ISSUER" !in env ==> c.issuer == ""
    ensures "JWT_AUDIENCE" !in env ==> c.audience == ""
  {
    Config(
      EnvOr(env, "AUTH_MODE", "login"),
      EnvOr(env, "JWT_SECRET", DefaultSecret),
      EnvOr(env, "JWT_PUBLIC_KEY_PATH", DefaultKeyPath),
      EnvOr(env, "JWT_ALGORITHM", "HS256"),
      EnvOr(env, "JWT_ISSUER", ""),
      EnvOr(env, "JWT_AUDIENCE", ""))
  }
}

=== FILE: client_session.dfy ===
/**
 * The signed-in user as the front end holds it, and the two different
 * ways its screens decide whether that user is an administrator.
 */
module ClientSession {
  import opened Wrappers

  /**
   * The user object kept by the auth context. The declared shape carries a
   * `roles` list; `role` is a singular field that only an object with such
   * a property would have.
   */
  datatype ClientUser = ClientUser(id: string, name: string, email: Option<string>, roles: seq<string>, role: Option<string>)

  /** The workspace header's admin switch: `user?.roles?.includes('admin')`. */
  predicate ListsAdmin(user: Option<ClientUser>) {
    user.Some? && "admin" in user.value.roles
  }

  /** The admin dashboard's flag: `user?.role === 'admin'`. */
  predicate DashboardAdmin(user: Option<ClientUser>) {
    user.Some? && user.value.role == Some("admin")
  }

  /**
   * For a user described by its `roles` list alone, the header lets an
   * administrator through while the dashboard never treats anyone as one.
   */
  lemma AdminChecksDisagree(user: ClientUser)
    requires user.role.None?
    ensures !DashboardAdmin(Some(user))
    ensures ListsAdmin(Some(user)) <==> "admin" in user.roles
    ensures ListsAdmin(Some(user.(roles := ["user", "admin"]))) && !DashboardAdmin(Some(user.(roles := ["user", "admin"])))
  {
    assert ["user", "admin"][1] == "admin";
  }
}

=== FILE: collections.dfy ===
/**
 * Sequence and set operations shared by the back end and the front end:
 * filtering, membership toggles, the stable key sort behind the admin
 * tables, and `Array.from(new Set(xs)).sort()`.
 */
module Collections {
  import opened Strings

  /** `a` can be obtained from `b` by deleting elements, keeping the order. */
  ghost predicate Subsequence<T>(a: seq<T>, b: seq<T>)
    decreases |b|
  {
    |a| == 0 || (|b| > 0 && if a[0] == b[0] then Subsequence(a[1..], b[1..]) else Subsequence(a, b[1..]))
  }

  /** Dropping the first kept element keeps a subsequence. */
  lemma {:induction false} SubsequenceTail<T>(a: seq<T>, b: seq<T>)
    requires |a| > 0 && Subsequence(a, b)
    ensures Subsequence(a[1..], b)
    decreases |b|, 1
  {
    if a[0] == b[0] {
      if |a[1..]| > 0 {
        SubsequenceExtend(a[1..], b);
      }
    } else {
      SubsequenceTail(a, b[1..]);
      if |a[1..]| > 0 {
        SubsequenceExtend(a[1..], b);
      }
    }
  }

  /** A subsequence of the tail is a subsequence of the whole. */
  lemma {:induction false} SubsequenceExtend<T>(a: seq<T>, b: seq<T>)
    requires |b| > 0 && Subsequence(a, b[1..])
    ensures Subsequence(a, b)
    decreases |b|, 0
  {
    if |a| > 0 && a[0] == b[0] {
      SubsequenceTail(a, b[1..]);
    }
  }

  /** Deleting elements twice is deleting elements once. */
  lemma {:induction false} SubsequenceTransitive<T>(a: seq<T>, b: seq<T>, c: seq<T>)
    requires Subsequence(a, b) && Subsequence(b, c)
    ensures Subsequence(a, c)
    decreases |c|
  {
    if |a| > 0 {
      if b[0] == c[0] {
        if a[0] == b[0] {
          SubsequenceTransitive(a[1..], b[1..], c[1..]);
        } else {
          SubsequenceTransitive(a, b[1..], c[1..]);
        }
      } else {
        SubsequenceTransitive(a, b, c[1..]);
        if a[0] == c[0] {
          SubsequenceTail(a, c[1..]);
        }
      }
    }
  }

  /** `xs.filter(p)` in JavaScript, `[x for x in xs if p(x)]` in Python. */
  function Filter<T(==)>(xs: seq<T>, p: T -> bool): (r: seq<T>)
    ensures |r| <= |xs|
    ensures forall i :: 0 <= i < |r| ==> p(r[i]) && r[i] in xs
    ensures forall i :: 0 <= i < |xs| && p(xs[i]) ==> xs[i] in r
    ensures Subsequence(r, xs)
  {
    if |xs| == 0 then []
    else if p(xs[0]) then
      var rest := Filter(xs[1..], p);
      assert ([xs[0]] + rest)[1..] == rest;
      [xs[0]] + rest
    else Filter(xs[1..], p)
  }

  /** A filter keeps every passing element as often as it occurs, and no other. */
  lemma {:induction false} FilterCounts<T>(xs: seq<T>, p: T -> bool)
    ensures forall x :: multiset(Filter(xs, p))[x] == if p(x) then multiset(xs)[x] else 0
  {
    if |xs| > 0 {
      FilterCounts(xs[1..], p);
      assert xs == [xs[0]] + xs[1..];
    }
  }

  /** Filtering with a condition every element meets keeps the sequence. */
  lemma {:induction false} FilterAll<T>(xs: seq<T>, p: T -> bool)
    requires forall x :: x in xs ==> p(x)
    ensures Filter(xs, p) == xs
  {
    if |xs| > 0 {
      FilterAll(xs[1..], p);
    }
  }

  /** A filter that keeps the length kept every element. */
  lemma {:induction false} FilterKeepsLengthOnlyIfAll<T>(xs: seq<T>, p: T -> bool)
    requires |Filter(xs, p)| == |xs|
    ensures forall x :: x in xs ==> p(x)
  {
    if |xs| > 0 && p(xs[0]) {
      FilterKeepsLengthOnlyIfAll(xs[1..], p);
      assert forall x :: x in xs ==> x == xs[0] || x in xs[1..];
    }
  }

  /** The condition that holds when both `p` and `q` do. */
  function Both<T>(p: T -> bool, q: T -> bool): T -> bool {
    x => p(x) && q(x)
  }

  /**
   * Two successive filters keep exactly the elements meeting both
   * conditions, each as often as it occurs, in their original order:
   * they are one filter by the conjunction.
   */
  lemma FilterTwice<T>(xs: seq<T>, p: T -> bool, q: T -> bool)
    ensures forall i :: 0 <= i < |Filter(Filter(xs, p), q)| ==>
      var x := Filter(Filter(xs, p), q)[i]; x in xs && p(x) && q(x)
    ensures forall i :: 0 <= i < |xs| && p(xs[i]) && q(xs[i]) ==> xs[i] in Filter(Filter(xs, p), q)
    ensures Subsequence(Filter(Filter(xs, p), q), xs)
    ensures forall x :: multiset(Filter(Filter(xs, p), q))[x] == if p(x) && q(x) then multiset(xs)[x] else 0
    ensures Filter(Filter(xs, p), q) == Filter(xs, Both(p, q))
  {
    FilterTwiceKeeps(xs, p, q);
    FilterTwiceCounts(xs, p, q);
    FilterFilter(xs, p, q);
  }

  /** The membership and order half of `FilterTwice`. */
  lemma FilterTwiceKeeps<T>(xs: seq<T>, p: T -> bool, q: T -> bool)
    ensures forall i :: 0 <= i < |Filter(Filter(xs, p), q)| ==>
      var x := Filter(Filter(xs, p), q)[i]; x in xs && p(x) && q(x)
    ensures forall i :: 0 <= i < |xs| && p(xs[i]) && q(xs[i]) ==> xs[i] in Filter(Filter(xs, p), q)
    ensures Subsequence(Filter(Filter(xs, p), q), xs)
  {
    var once := Filter(xs, p);
    var twice := Filter(once, q);
    forall i | 0 <= i < |xs| && p(xs[i]) && q(xs[i])
      ensures xs[i] in twice
    {
      var j :| 0 <= j < |once| && once[j] == xs[i];
    }
    SubsequenceTransitive(twice, once, xs);
  }

  /** The multiplicity half of `FilterTwice`. */
  lemma FilterTwiceCounts<T>(xs: seq<T>, p: T -> bool, q: T -> bool)
    ensures forall x :: multiset(Filter(Filter(xs, p), q))[x] == if p(x) && q(x) then multiset(xs)[x] else 0
  {
    FilterCounts(xs, p);
    FilterCounts(Filter(xs, p), q);
  }

  lemma {:induction false} FilterFilter<T>(xs: seq<T>, p: T -> bool, q: T -> bool)
    ensures Filter(Filter(xs, p), q) == Filter(xs, Both(p, q))
  {
    if |xs| > 0 {
      FilterFilter(xs[1..], p, q);
      if p(xs[0]) {
        assert Filter(xs, p)[1..] == Filter(xs[1..], p);
      }
    }
  }

  /** Filtering distributes over concatenation. */
  lemma {:induction false} FilterAppend<T>(xs: seq<T>, ys: seq<T>, p: T -> bool)
    ensures Filter(xs + ys, p) == Filter(xs, p) + Filter(ys, p)
  {
    if |xs| > 0 {
      assert (xs + ys)[1..] == xs[1..] + ys;
      FilterAppend(xs[1..], ys, p);
    } else {
      assert xs + ys == ys;
    }
  }

  /** A filtered sequence is non-empty exactly when some element passes. */
  lemma FilterNonEmpty<T>(xs: seq<T>, p: T -> bool)
    ensures |Filter(xs, p)| > 0 <==> exists k :: 0 <= k < |xs| && p(xs[k])
  {
    if exists k :: 0 <= k < |xs| && p(xs[k]) {
      var k :| 0 <= k < |xs| && p(xs[k]);
      assert xs[k] in Filter(xs, p);
    }
  }

  /** Concatenation is associative. */
  lemma ConcatAssoc<T>(a: seq<T>, b: seq<T>, c: seq<T>)
    ensures a + b + c == a + (b + c)
  {
  }

  /** A concatenation splits back into its two parts. */
  lemma ConcatSplit<T>(a: seq<T>, b: seq<T>)
    ensures (a + b)[..|a|] == a && (a + b)[|a|..] == b
  {
  }

  /** The elements other than `x`. */
  function DiffersFrom<T(==)>(x: T): T -> bool {
    y => y != x
  }

  /** Removing every occurrence of `x` shortens the sequence by its number of occurrences. */
  lemma {:induction false} FilterDropsCount<T>(xs: seq<T>, x: T)
    ensures |Filter(xs, DiffersFrom(x))| == |xs| - multiset(xs)[x]
  {
    if |xs| > 0 {
      assert xs == [xs[0]] + xs[1..];
      assert multiset(xs)[x] == multiset(xs[1..])[x] + (if xs[0] == x then 1 else 0);
      FilterDropsCount(xs[1..], x);
    }
  }

  /** No element occurs twice. */
  ghost predicate Distinct<T>(xs: seq<T>) {
    forall i, j :: 0 <= i < j < |xs| ==> xs[i] != xs[j]
  }

  /** Filtering never introduces a repetition. */
  lemma {:induction false} FilterKeepsDistinct<T>(xs: seq<T>, p: T -> bool)
    requires Distinct(xs)
    ensures Distinct(Filter(xs, p))
  {
    if |xs| > 0 {
      var rest := xs[1..];
      assert Distinct(rest) by {
        forall i, j | 0 <= i < j < |rest| ensures rest[i] != rest[j] { assert rest[i] == xs[i + 1] && rest[j] == xs[j + 1]; }
      }
      FilterKeepsDistinct(rest, p);
      if p(xs[0]) {
        var r := Filter(xs, p);
        var fr := Filter(rest, p);
        assert xs[0] !in rest by {
          forall k | 0 <= k < |rest| ensures rest[k] != xs[0] { assert rest[k] == xs[k + 1]; }
        }
        forall i, j | 0 <= i < j < |r| ensures r[i] != r[j]
        {
          if i == 0 { assert r[j] == fr[j - 1] && fr[j - 1] in rest; }
          else { assert r[i] == fr[i - 1] && r[j] == fr[j - 1]; }
        }
      }
    }
  }

  /** `set.has(x) ? set.delete(x) : set.add(x)`. */
  function ToggleSet<T>(s: set<T>, x: T): (r: set<T>)
    ensures x in r <==> x !in s
    ensures r - {x} == s - {x}
  {
    if x in s then s - {x} else s + {x}
  }

  /** Toggling the same member twice restores the set. */
  lemma ToggleSetTwice<T>(s: set<T>, x: T)
    ensures ToggleSet(ToggleSet(s, x), x) == s
  {
  }

  // ---------------------------------------------------------------------
  // Sorting by a key, as `[...xs].sort(comparator)` does in the admin tables

  /** A column value the admin tables compare with JavaScript `<` and `>`. */
  datatype SortKey = KNum(n: int) | KStr(s: string)

  datatype Direction = Asc | Desc

  /**
   * `a < b` on column values. A column holds values of one kind; numbers
   * are placed before strings only to make the order total.
   */
  predicate KeyLess(a: SortKey, b: SortKey) {
    match (a, b)
    case (KNum(x), KNum(y)) => x < y
    case (KStr(x), KStr(y)) => Less(x, y)
    case (KNum(_), KStr(_)) => true
    case (KStr(_), KNum(_)) => false
  }

  /** The comparator returns a negative number for `(a, b)`. */
  predicate Precedes(dir: Direction, a: SortKey, b: SortKey) {
    if dir == Asc then KeyLess(a, b) else KeyLess(b, a)
  }

  lemma KeyLessIrreflexive(a: SortKey)
    ensures !KeyLess(a, a)
  {
    if a.KStr? {
      LessIrreflexive(a.s);
    }
  }

  lemma KeyLessTransitive(a: SortKey, b: SortKey, c: SortKey)
    requires KeyLess(a, b) && KeyLess(b, c)
    ensures KeyLess(a, c)
  {
    if a.KStr? && b.KStr? && c.KStr? {
      LessTransitive(a.s, b.s, c.s);
    }
  }

  lemma KeyLessTotal(a: SortKey, b: SortKey)
    ensures a == b || KeyLess(a, b) || KeyLess(b, a)
  {
    if a.KStr? && b.KStr? {
      LessTotal(a.s, b.s);
    }
  }

  lemma PrecedesTransitive(dir: Direction, a: SortKey, b: SortKey, c: SortKey)
    requires Precedes(dir, a, b) && Precedes(dir, b, c)
    ensures Precedes(dir, a, c)
  {
    if dir == Asc {
      KeyLessTransitive(a, b, c);
    } else {
      KeyLessTransitive(c, b, a);
    }
  }

  /** No element is placed before one its comparator puts ahead of it. */
  ghost predicate SortedBy<T>(xs: seq<T>, key: T -> SortKey, dir: Direction) {
    forall i, j :: 0 <= i < j < |xs| ==> !Precedes(dir, key(xs[j]), key(xs[i]))
  }

  /** Insert `x` after every element that does not follow it, keeping equal keys in arrival order. */
  function InsertByKey<T(==)>(x: T, s: seq<T>, key: T -> SortKey, dir: Direction): (r: seq<T>)
    ensures multiset(r) == multiset(s) + multiset{x}
    ensures |r| == |s| + 1
  {
    if |s| == 0 then [x]
    else if Precedes(dir, key(x), key(s[0])) then [x] + s
    else
      var rest := InsertByKey(x, s[1..], key, dir);
      assert s == [s[0]] + s[1..];
      [s[0]] + rest
  }

  lemma {:induction false} InsertByKeySorted<T>(x: T, s: seq<T>, key: T -> SortKey, dir: Direction)
    requires SortedBy(s, key, dir)
    ensures SortedBy(InsertByKey(x, s, key, dir), key, dir)
  {
    var r := InsertByKey(x, s, key, dir);
    if |s| == 0 {
    } else if Precedes(dir, key(x), key(s[0])) {
      forall i, j | 0 <= i < j < |r|
        ensures !Precedes(dir, key(r[j]), key(r[i]))
      {
        if i == 0 && Precedes(dir, key(r[j]), key(x)) {
          PrecedesTransitive(dir, key(r[j]), key(x), key(s[0]));
          if j == 1 {
            KeyLessIrreflexive(key(s[0]));
          }
        }
      }
    } else {
      var rest := InsertByKey(x, s[1..], key, dir);
      InsertByKeySorted(x, s[1..], key, dir);
      forall i, j | 0 <= i < j < |r|
        ensures !Precedes(dir, key(r[j]), key(r[i]))
      {
        if i == 0 {
          var e := r[j];
          assert e in multiset(rest);
          assert e in multiset(s[1..]) || e == x;
          if e != x {
            var k :| 0 <= k < |s[1..]| && s[1..][k] == e;
            assert s[k + 1] == e;
          }
        } else {
          assert r[i] == rest[i - 1] && r[j] == rest[j - 1];
        }
      }
    }
  }

  /**
   * `[...xs].sort(cmp)` where `cmp` returns -1, 1 or 0 by comparing one
   * column in the given direction: a stable insertion sort.
   */
  function SortByKey<T(==)>(xs: seq<T>, key: T -> SortKey, dir: Direction): (r: seq<T>)
    ensures multiset(r) == multiset(xs)
    ensures |r| == |xs|
  {
    if |xs| == 0 then []
    else
      assert xs == xs[..|xs| - 1] + [xs[|xs| - 1]];
      InsertByKey(xs[|xs| - 1], SortByKey(xs[..|xs| - 1], key, dir), key, dir)
  }

  /** The sorted table is a permutation of the input, ordered by the column. */
  lemma {:induction false} SortByKeySorted<T>(xs: seq<T>, key: T -> SortKey, dir: Direction)
    ensures SortedBy(SortByKey(xs, key, dir), key, dir)
  {
    if |xs| > 0 {
      SortByKeySorted(xs[..|xs| - 1], key, dir);
      InsertByKeySorted(xs[|xs| - 1], SortByKey(xs[..|xs| - 1], key, dir), key, dir);
    }
  }

  /** The elements whose column value is `k`. */
  function HasKey<T>(key: T -> SortKey, k: SortKey): T -> bool {
    y => key(y) == k
  }

  /** Dropping the head keeps a table sorted. */
  lemma SortedByTail<T>(s: seq<T>, key: T -> SortKey, dir: Direction)
    requires |s| > 0 && SortedBy(s, key, dir)
    ensures SortedBy(s[1..], key, dir)
  {
    forall i, j | 0 <= i < j < |s[1..]|
      ensures !Precedes(dir, key(s[1..][j]), key(s[1..][i]))
    {
      assert s[1..][i] == s[i + 1] && s[1..][j] == s[j + 1];
    }
  }

  /** No element of a sorted table has a key that its head's key follows. */
  lemma NoneBeforeHead<T>(s: seq<T>, key: T -> SortKey, dir: Direction, k: SortKey)
    requires |s| > 0 && SortedBy(s, key, dir) && Precedes(dir, k, key(s[0]))
    ensures Filter(s, HasKey(key, k)) == []
  {
    KeyLessIrreflexive(k);
    assert forall j :: 0 <= j < |s| ==> !HasKey(key, k)(s[j]);
  }

  /** Inserting into a sorted table puts `x` after the elements that already share its key. */
  lemma {:induction false} InsertByKeyStable<T>(x: T, s: seq<T>, key: T -> SortKey, dir: Direction, k: SortKey)
    requires SortedBy(s, key, dir)
    ensures Filter(InsertByKey(x, s, key, dir), HasKey(key, k)) == Filter(s, HasKey(key, k)) + (if key(x) == k then [x] else [])
  {
    var p := HasKey(key, k);
    var r := InsertByKey(x, s, key, dir);
    if |s| == 0 {
      assert r == [x];
      assert r[1..] == [];
    } else if Precedes(dir, key(x), key(s[0])) {
      assert r == [x] + s;
      assert r[1..] == s;
      if key(x) == k {
        NoneBeforeHead(s, key, dir, k);
      }
    } else {
      var rest := InsertByKey(x, s[1..], key, dir);
      assert r == [s[0]] + rest;
      assert r[1..] == rest;
      SortedByTail(s, key, dir);
      InsertByKeyStable(x, s[1..], key, dir, k);
      assert Filter(r, p) == (if p(s[0]) then [s[0]] else []) + Filter(rest, p);
      assert Filter(s, p) == (if p(s[0]) then [s[0]] else []) + Filter(s[1..], p);
    }
  }

  /**
   * The sort is stable: the elements that share a column value keep the
   * order they had in the input.
   */
  lemma {:induction false} SortByKeyStable<T>(xs: seq<T>, key: T -> SortKey, dir: Direction, k: SortKey)
    ensures Filter(SortByKey(xs, key, dir), HasKey(key, k)) == Filter(xs, HasKey(key, k))
  {
    if |xs| > 0 {
      var p := HasKey(key, k);
      var init := xs[..|xs| - 1];
      var last := xs[|xs| - 1];
      var sorted := SortByKey(init, key, dir);
      assert xs == init + [last];
      assert SortByKey(xs, key, dir) == InsertByKey(last, sorted, key, dir);
      SortByKeySorted(init, key, dir);
      SortByKeyStable(init, key, dir, k);
      InsertByKeyStable(last, sorted, key, dir, k);
      FilterAppend(init, [last], p);
      assert [last][1..] == [];
      assert Filter([last], p) == if key(last) == k then [last] else [];
    }
  }

  // ---------------------------------------------------------------------
  // `Array.from(new Set(xs)).sort()` on strings

  ghost predicate StrictlyAscending(xs: seq<string>) {
    forall i, j :: 0 <= i < j < |xs| ==> Less(xs[i], xs[j])
  }

  /** Insert `x` into an ascending sequence unless it is already there. */
  function InsertDistinct(x: string, s: seq<string>): (r: seq<string>)
    ensures forall y :: y in r <==> y in s || y == x
  {
    if |s| == 0 then [x]
    else if x == s[0] then s
    else if Less(x, s[0]) then [x] + s
    else
      var rest := InsertDistinct(x, s[1..]);
      assert s == [s[0]] + s[1..];
      [s[0]] + rest
  }

  lemma {:induction false} InsertDistinctAscending(x: string, s: seq<string>)
    requires StrictlyAscending(s)
    ensures StrictlyAscending(InsertDistinct(x, s))
  {
    var r := InsertDistinct(x, s);
    if |s| == 0 || x == s[0] {
    } else if Less(x, s[0]) {
      forall i, j | 0 <= i < j < |r|
        ensures Less(r[i], r[j])
      {
        if i == 0 && j > 1 {
          LessTransitive(x, s[0], r[j]);
        }
      }
    } else {
      LessTotal(x, s[0]);
      var rest := InsertDistinct(x, s[1..]);
      InsertDistinctAscending(x, s[1..]);
      forall i, j | 0 <= i < j < |r|
        ensures Less(r[i], r[j])
      {
        if i == 0 {
          assert r[j] in rest;
          assert r[j] in s[1..] || r[j] == x;
          if r[j] != x {
            var k :| 0 <= k < |s[1..]| && s[1..][k] == r[j];
            assert s[k + 1] == r[j];
          }
        } else {
          assert r[i] == rest[i - 1] && r[j] == rest[j - 1];
        }
      }
    }
  }

  /** The distinct values of `xs` in ascending code-unit order. */
  function DistinctSorted(xs: seq<string>): (r: seq<string>)
    ensures forall y :: y in r <==> y in xs
  {
    if |xs| == 0 then []
    else
      assert xs == xs[..|xs| - 1] + [xs[|xs| - 1]];
      InsertDistinct(xs[|xs| - 1], DistinctSorted(xs[..|xs| - 1]))
  }

  /** `Array.from(new Set(xs)).sort()` holds each distinct value once, in ascending order. */
  lemma {:induction false} DistinctSortedAscending(xs: seq<string>)
    ensures StrictlyAscending(DistinctSorted(xs))
  {
    if |xs| > 0 {
      DistinctSortedAscending(xs[..|xs| - 1]);
      InsertDistinctAscending(xs[|xs| - 1], DistinctSorted(xs[..|xs| - 1]));
    }
  }

  /** `Array.from(new Set(xs.map(key))).sort()`: each key some element has, once, in ascending order. */
  function SortedKeys<T>(xs: seq<T>, key: T -> string): (r: seq<string>)
    ensures forall c :: c in r <==> exists i :: 0 <= i < |xs| && key(xs[i]) == c
    ensures StrictlyAscending(r)
  {
    var ks := seq(|xs|, i requires 0 <= i < |xs| => key(xs[i]));
    forall c ensures c in ks <==> exists i :: 0 <= i < |xs| && key(xs[i]) == c {
      if c in ks {
        var j :| 0 <= j < |ks| && ks[j] == c;
        assert key(xs[j]) == c;
      }
      if i :| 0 <= i < |xs| && key(xs[i]) == c {
        assert ks[i] == c;
      }
    }
    DistinctSortedAscending(ks);
    DistinctSorted(ks)
  }

  /** An ascending sequence holds no value twice. */
  lemma AscendingIsDistinct(xs: seq<string>, i: int, j: int)
    requires StrictlyAscending(xs)
    requires 0 <= i < |xs| && 0 <= j < |xs| && i != j
    ensures xs[i] != xs[j]
  {
    if i < j {
      LessIrreflexive(xs[i]);
    } else {
      LessIrreflexive(xs[j]);
    }
  }

  /**
   * Two ascending sequences with the same values are equal, so any
   * implementation of "distinct values, sorted" agrees with `DistinctSorted`.
   */
  lemma {:induction false} AscendingUnique(a: seq<string>, b: seq<string>)
    requires StrictlyAscending(a) && StrictlyAscending(b)
    requires forall y :: y in a <==> y in b
    ensures a == b
    decreases |a|
  {
    if |a| > 0 {
      assert a[0] in b;
    }
    if |b| > 0 {
      assert b[0] in a;
    }
    if |a| > 0 {
      if a[0] != b[0] {
        var i :| 0 <= i < |a| && a[i] == b[0];
        var j :| 0 <= j < |b| && b[j] == a[0];
        assert Less(a[0], a[i]);
        assert Less(b[0], b[j]);
        LessAsymmetric(a[0], b[0]);
      }
      forall y
        ensures y in a[1..] <==> y in b[1..]
      {
        if y in a[1..] {
          var i :| 1 <= i < |a| && a[i] == y;
          AscendingIsDistinct(a, 0, i);
          assert y in b;
          var j :| 0 <= j < |b| && b[j] == y;
          assert b[1..][j - 1] == y;
        }
        if y in b[1..] {
          var j :| 1 <= j < |b| && b[j] == y;
          AscendingIsDistinct(b, 0, j);
          assert y in a;
          var i :| 0 <= i < |a| && a[i] == y;
          assert a[1..][i - 1] == y;
        }
      }
      AscendingUnique(a[1..], b[1..]);
      assert a == [a[0]] + a[1..] && b == [b[0]] + b[1..];
    }
  }
}

=== FILE: http.dfy ===
/** The two request outcomes the middlewares and guards can produce. */
module Http {
  import opened Wrappers

  /** An Express JSON error response `res.status(status).json({ error })`. */
  datatype Response = Response(status: int, error: string)

  /**
   * What an Express middleware does with one request: it either writes a
   * response and stops (`next` is never called), or it calls `next()` exactly
   * once and writes nothing, handing `context` to the next stage.
   */
  datatype Step<T> = Respond(response: Response) | Next(context: T)

  /** A FastAPI `HTTPException` (status, detail and optional `WWW-Authenticate` header). */
  datatype HttpError = HttpError(status: int, detail: string, wwwAuthenticate: Option<string>)

  const Unauthorized: Response := Response(401, "Unauthorized")
  const Forbidden: Response := Response(403, "Forbidden")
}

=== FILE: numbers.dfy ===
/**
 * Integer formatting (template-literal interpolation, Python `str`) and the
 * JavaScript `parseInt` used on route parameters.
 */
module Numbers {
  import opened Strings
  import opened Collections

  predicate IsDigit(c: char) {
    '0' <= c <= '9'
  }

  /** Value of a character as a digit in bases up to 36; 36 when it is no digit at all. */
  function DigitValue(c: char): (d: nat)
    ensures d <= 36
    ensures d < 10 <==> IsDigit(c)
  {
    if '0' <= c <= '9' then c as int - '0' as int
    else if 'a' <= c <= 'z' then c as int - 'a' as int + 10
    else if 'A' <= c <= 'Z' then c as int - 'A' as int + 10
    else 36
  }

  function DigitChar(d: nat): (c: char)
    requires d < 10
    ensures IsDigit(c) && DigitValue(c) == d
  {
    ('0' as int + d) as char
  }

  /** Decimal rendering of a natural number, without leading zeros. */
  function NatToString(n: nat): (r: string)
    ensures |r| >= 1
    ensures forall i :: 0 <= i < |r| ==> IsDigit(r[i])
    ensures r[0] == '0' ==> n == 0
    decreases n
  {
    if n < 10 then [DigitChar(n)] else NatToString(n / 10) + [DigitChar(n % 10)]
  }

  /**
   * `str(n)` in Python, and `${n}` in a template literal for an integer
   * below 10^21 in magnitude (JavaScript writes larger ones with an
   * exponent, which is not modelled).
   */
  function IntToString(n: int): string {
    if n < 0 then "-" + NatToString(-n) else NatToString(n)
  }

  predicate AllDigitsIn(s: string, radix: nat) {
    forall i :: 0 <= i < |s| ==> DigitValue(s[i]) < radix
  }

  /** Value of a digit string in `radix`, most significant digit first. */
  function ValueIn(s: string, radix: nat): nat
    requires AllDigitsIn(s, radix)
  {
    if |s| == 0 then 0 else ValueIn(s[..|s| - 1], radix) * radix + DigitValue(s[|s| - 1])
  }

  /** Reading the decimal rendering back gives the number. */
  lemma {:induction false} NatToStringValue(n: nat)
    ensures ValueIn(NatToString(n), 10) == n
    decreases n
  {
    if n >= 10 {
      var s := NatToString(n);
      assert s[..|s| - 1] == NatToString(n / 10);
      NatToStringValue(n / 10);
    }
  }

  /** A JavaScript number as `parseInt` can produce it. */
  datatype Number = NaN | Num(n: int)

  /** The longest prefix of `s` made of digits valid in `radix`. */
  function DigitPrefix(s: string, radix: nat): (r: string)
    ensures |r| <= |s| && r == s[..|r|]
    ensures AllDigitsIn(r, radix)
    ensures |r| < |s| ==> DigitValue(s[|r|]) >= radix
  {
    if |s| > 0 && DigitValue(s[0]) < radix then [s[0]] + DigitPrefix(s[1..], radix) else ""
  }

  lemma {:induction false} DigitPrefixOfDigits(s: string, radix: nat)
    requires AllDigitsIn(s, radix)
    ensures DigitPrefix(s, radix) == s
  {
    if |s| > 0 {
      DigitPrefixOfDigits(s[1..], radix);
    }
  }

  /**
   * The unsigned part of `parseInt`: base 16 after a `0x`/`0X` prefix, base
   * 10 otherwise, reading the longest run of digits; no digits gives `NaN`.
   */
  function ParseUnsigned(u: string): (r: Number)
    ensures r.Num? ==> r.n >= 0
  {
    var hex := |u| >= 2 && u[0] == '0' && (u[1] == 'x' || u[1] == 'X');
    var radix := if hex then 16 else 10;
    var digits := DigitPrefix(if hex then u[2..] else u, radix);
    if |digits| == 0 then NaN else Num(ValueIn(digits, radix))
  }

  function Negate(r: Number): Number {
    match r
    case NaN => NaN
    case Num(v) => Num(-v)
  }

  /**
   * `parseInt(s)` without a radix: skip leading whitespace, read an optional
   * sign, then the unsigned part. The digit run is read exactly; JavaScript
   * rounds a run outside the safe range to the nearest double.
   */
  function ParseInt(s: string): Number {
    var t := TrimStart(JS, s);
    if |t| > 0 && t[0] == '-' then Negate(ParseUnsigned(t[1..]))
    else if |t| > 0 && t[0] == '+' then ParseUnsigned(t[1..])
    else ParseUnsigned(t)
  }

  lemma ParseUnsignedOfNat(m: nat)
    ensures ParseUnsigned(NatToString(m)) == Num(m)
  {
    var u := NatToString(m);
    DigitPrefixOfDigits(u, 10);
    NatToStringValue(m);
  }

  /** 2^53: every integer of smaller magnitude is exact in a JavaScript number. */
  const MaxSafe: int := 0x20_0000_0000_0000

  /** The integers JavaScript holds exactly (`Number.isSafeInteger`). */
  predicate Safe(n: int) {
    -MaxSafe < n < MaxSafe
  }

  /** The exact reading of a decimal rendering gives the number back. */
  lemma ReadBack(n: int)
    ensures ParseInt(IntToString(n)) == Num(n)
  {
    var t := IntToString(n);
    TrimStartOfClean(JS, t);
    if n < 0 {
      assert t[1..] == NatToString(-n);
      ParseUnsignedOfNat(-n);
    } else {
      ParseUnsignedOfNat(n);
    }
  }

  /** The digit run stops at the first character that is no digit. */
  lemma {:induction false} DigitPrefixStops(d: string, t: string)
    requires AllDigitsIn(d, 10)
    requires |t| == 0 || !IsDigit(t[0])
    ensures DigitPrefix(d + t, 10) == d
  {
    if |d| > 0 {
      assert (d + t)[1..] == d[1..] + t;
      DigitPrefixStops(d[1..], t);
    } else {
      assert d + t == t;
    }
  }

  lemma ParseUnsignedWithSuffix(m: nat, t: string)
    requires |t| == 0 || (!IsDigit(t[0]) && t[0] != 'x' && t[0] != 'X')
    ensures ParseUnsigned(NatToString(m) + t) == Num(m)
  {
    var d := NatToString(m);
    var u := d + t;
    assert AllDigitsIn(d, 10) by {
      forall i | 0 <= i < |d| ensures DigitValue(d[i]) < 10 { assert IsDigit(d[i]); }
    }
    assert !(|u| >= 2 && u[0] == '0' && (u[1] == 'x' || u[1] == 'X')) by {
      if |d| >= 2 { assert u[1] == d[1] && IsDigit(d[1]); }
      else if |u| >= 2 { assert u[1] == t[0]; }
    }
    DigitPrefixStops(d, t);
    NatToStringValue(m);
  }

  /** A text starting with a digit is read unsigned. */
  lemma ParseIntOfDigitLed(u: string)
    requires |u| > 0 && IsDigit(u[0])
    ensures ParseInt(u) == ParseUnsigned(u)
  {
    TrimStartOfClean(JS, u);
  }

  /** A minus sign before a digit negates the unsigned reading. */
  lemma ParseIntOfMinusDigitLed(u: string)
    requires |u| > 0 && IsDigit(u[0])
    ensures ParseInt("-" + u) == Negate(ParseUnsigned(u))
  {
    var v := "-" + u;
    TrimStartOfClean(JS, v);
    assert v[1..] == u;
  }

  lemma ParseIntNatSuffix(m: nat, t: string)
    requires |t| == 0 || (!IsDigit(t[0]) && t[0] != 'x' && t[0] != 'X')
    ensures ParseInt(NatToString(m) + t) == Num(m)
  {
    var d := NatToString(m);
    assert (d + t)[0] == d[0];
    ParseUnsignedWithSuffix(m, t);
    ParseIntOfDigitLed(d + t);
  }

  lemma ParseIntNegSuffix(m: nat, t: string)
    requires |t| == 0 || (!IsDigit(t[0]) && t[0] != 'x' && t[0] != 'X')
    ensures ParseInt("-" + NatToString(m) + t) == Num(-(m as int))
  {
    var d := NatToString(m);
    var u := d + t;
    assert u[0] == d[0];
    ParseUnsignedWithSuffix(m, t);
    ParseIntOfMinusDigitLed(u);
    ConcatAssoc("-", d, t);
  }

  /** `parseInt` reads back what template interpolation wrote, for every safe integer. */
  lemma ParseIntRoundTrip(n: int)
    requires Safe(n)
    ensures ParseInt(IntToString(n)) == Num(n)
  {
    ReadBack(n);
  }

  /**
   * `parseInt` of a safe integer's rendering followed by text that starts
   * with neither a digit nor an `x` gives back the integer.
   */
  lemma ParseIntWithSuffix(n: int, t: string)
    requires Safe(n)
    requires |t| == 0 || (!IsDigit(t[0]) && t[0] != 'x' && t[0] != 'X')
    ensures ParseInt(IntToString(n) + t) == Num(n)
  {
    ReadBackWithSuffix(n, t);
  }

  /** The exact reading of a rendering followed by text that starts with neither a digit nor an `x`. */
  lemma ReadBackWithSuffix(n: int, t: string)
    requires |t| == 0 || (!IsDigit(t[0]) && t[0] != 'x' && t[0] != 'X')
    ensures ParseInt(IntToString(n) + t) == Num(n)
  {
    if n < 0 {
      ParseIntNegSuffix(-n, t);
    } else {
      ParseIntNatSuffix(n, t);
    }
  }
}

=== FILE: preferences.dfy ===
/**
 * Per-user preferences kept by the FastAPI back end: a theme and an ordered
 * list of favourite application ids, created with defaults on first access.
 */
module Preferences {
  import opened Wrappers
  import opened Http
  import opened PyDependencies
  import opened Collections

  /** A stored row; `id` is a UUID generated when the row is created. */
  datatype Pref = Pref(id: string, email: string, theme: string, favorites: seq<int>)

  /** The table, keyed by the unique e-mail column. */
  type Store = map<string, Pref>

  /** Each row sits under its own e-mail. */
  ghost predicate WellKeyed(store: Store) {
    forall e :: e in store ==> store[e].email == e
  }

  const DefaultTheme := "dark"

  /** The theme validator: "light" or "dark". */
  predicate ValidTheme(theme: string) {
    theme == "light" || theme == "dark"
  }

  /** The elements of a list, as Python's `set(v)`. */
  function Elements(xs: seq<int>): (s: set<int>)
    ensures forall x :: x in s <==> x in xs
  {
    set x | x in xs
  }

  /** The favourites validator: `len(v) == len(set(v))`. */
  predicate Unique(xs: seq<int>) {
    |Elements(xs)| == |xs|
  }

  lemma {:induction false} ElementsBound(xs: seq<int>)
    ensures |Elements(xs)| <= |xs|
  {
    if |xs| > 0 {
      ElementsBound(xs[1..]);
      assert Elements(xs) == {xs[0]} + Elements(xs[1..]);
    }
  }

  /** The cardinality test of the validator is exactly "no element occurs twice". */
  lemma {:induction false} UniqueIffDistinct(xs: seq<int>)
    ensures Unique(xs) <==> Distinct(xs)
  {
    if |xs| > 0 {
      var rest := xs[1..];
      UniqueIffDistinct(rest);
      ElementsBound(rest);
      assert Elements(xs) == {xs[0]} + Elements(rest);
      if xs[0] in rest {
        assert Elements(xs) == Elements(rest);
        var k :| 0 <= k < |rest| && rest[k] == xs[0];
        assert xs[k + 1] == xs[0];
      } else {
        assert |Elements(xs)| == 1 + |Elements(rest)|;
        if Distinct(rest) {
          forall i, j | 0 <= i < j < |xs|
            ensures xs[i] != xs[j]
          {
            if i == 0 { assert xs[j] == rest[j - 1]; } else { assert xs[i] == rest[i - 1] && xs[j] == rest[j - 1]; }
          }
        }
        if Distinct(xs) {
          forall i, j | 0 <= i < j < |rest|
            ensures rest[i] != rest[j]
          {
            assert rest[i] == xs[i + 1] && rest[j] == xs[j + 1];
          }
        }
      }
    }
  }

  /** Stored rows carry a valid theme and a list without repetitions. */
  ghost predicate Valid(store: Store) {
    WellKeyed(store) && forall e :: e in store ==> ValidTheme(store[e].theme) && Distinct(store[e].favorites)
  }

  /** The row of an e-mail, created with the defaults (under `freshId`) when missing. */
  function GetOrCreate(store: Store, email: string, freshId: string): (r: (Store, Pref))
    ensures email in store ==> r == (store, store[email])
    ensures email !in store ==> r.1 == Pref(freshId, email, DefaultTheme, []) && r.0 == store[email := r.1]
    ensures email in r.0 && r.0[email] == r.1
  {
    if email in store then (store, store[email])
    else
      var p := Pref(freshId, email, DefaultTheme, []);
      (store[email := p], p)
  }

  /** A second lookup creates nothing: the row made by the first is returned, whatever id is offered. */
  lemma GetOrCreateIdempotent(store: Store, email: string, freshId: string, otherId: string)
    ensures var (s, p) := GetOrCreate(store, email, freshId);
      GetOrCreate(s, email, otherId) == (s, p)
  {
  }

  /** Setting the theme creates the row if needed and touches nothing else. */
  function UpdateTheme(store: Store, email: string, theme: string, freshId: string): (r: (Store, Pref))
    ensures r.1.theme == theme
    ensures email in store ==> r.1.id == store[email].id && r.1.email == store[email].email
    ensures r.1.favorites == (if email in store then store[email].favorites else [])
    ensures email in r.0 && r.0[email] == r.1
    ensures r.0.Keys == store.Keys + {email}
    ensures forall e :: e in store && e != email ==> r.0[e] == store[e]
  {
    var (s, p) := GetOrCreate(store, email, freshId);
    var q := p.(theme := theme);
    (s[email := q], q)
  }

  /** Setting the favourites creates the row if needed and touches nothing else. */
  function UpdateFavorites(store: Store, email: string, favorites: seq<int>, freshId: string): (r: (Store, Pref))
    ensures r.1.favorites == favorites
    ensures email in store ==> r.1.id == store[email].id && r.1.email == store[email].email
    ensures r.1.theme == (if email in store then store[email].theme else DefaultTheme)
    ensures email in r.0 && r.0[email] == r.1
    ensures r.0.Keys == store.Keys + {email}
    ensures forall e :: e in store && e != email ==> r.0[e] == store[e]
  {
    var (s, p) := GetOrCreate(store, email, freshId);
    var q := p.(favorites := favorites);
    (s[email := q], q)
  }

  /** Writing the same theme twice leaves the store as the first write did. */
  lemma UpdateThemeIdempotent(store: Store, email: string, theme: string, freshId: string, otherId: string)
    ensures var once := UpdateTheme(store, email, theme, freshId).0;
      UpdateTheme(once, email, theme, otherId).0 == once
  {
  }

  /** A request to the preference routes. */
  datatype Request = Get | PutTheme(theme: string) | PutFavorites(favorites: seq<int>)

  const ValidationFailed := HttpError(422, "Unprocessable Entity", None)

  /**
   * One request by an authenticated caller: authentication first, then the
   * body validators (failures are 422 before the handler runs), then the
   * service on the caller's own row.
   */
  function Serve(user: Result<User, HttpError>, store: Store, req: Request, freshId: string): (r: (Store, Result<Pref, HttpError>))
    ensures user.Err? ==> r == (store, Err(user.error))
    ensures r.1.Err? ==> r.0 == store
    ensures r.1.Ok? ==> user.Ok? && user.value.email in r.0 && r.0[user.value.email] == r.1.value
    ensures user.Ok? ==> forall e :: e in store && e != user.value.email ==> e in r.0 && r.0[e] == store[e]
    ensures user.Ok? && req.PutTheme? ==> (r.1.Ok? <==> ValidTheme(req.theme))
    ensures user.Ok? && req.PutFavorites? ==> (r.1.Ok? <==> Distinct(req.favorites))
  {
    match user
    case Err(e) => (store, Err(e))
    case Ok(u) =>
      match req
      case Get =>
        var (s, p) := GetOrCreate(store, u.email, freshId);
        (s, Ok(p))
      case PutTheme(theme) =>
        if !ValidTheme(theme) then (store, Err(ValidationFailed))
        else
          var (s, p) := UpdateTheme(store, u.email, theme, freshId);
          (s, Ok(p))
      case PutFavorites(favs) =>
        UniqueIffDistinct(favs);
        if !Unique(favs) then (store, Err(ValidationFailed))
        else
          var (s, p) := UpdateFavorites(store, u.email, favs, freshId);
          (s, Ok(p))
  }

  /** Every request keeps each stored theme valid and each favourite list free of repetitions. */
  lemma ServePreservesValid(user: Result<User, HttpError>, store: Store, req: Request, freshId: string)
    requires Valid(store)
    ensures Valid(Serve(user, store, req, freshId).0)
  {
  }
}

=== FILE: py_auth.dfy ===
/**
 * The FastAPI authentication handler: token decoding in "sso" or secret
 * mode, the Python admin allow-list, and the dependencies built on them.
 */
module PyAuth {
  import opened Wrappers
  import opened Strings
  import opened Http
  import opened AuthTypes
  import opened AdminResolver

  /** The FastAPI user record; `email` is a required string. */
  datatype PyUser = PyUser(email: string, name: Option<string>, roles: seq<string>, isAdmin: bool)

  /**
   * The settings the handler reads; the optional fields are `None` when
   * unset. `backend/config.py` exports `config`, with neither `AUTH_MODE`
   * nor `JWT_SECRET`, so the `settings` object `jwt.py` imports is not part
   * of this model: its fields are taken as given.
   */
  datatype Settings = Settings(
    authMode: string,
    jwtSecret: string,
    publicKeyPath: Option<string>,
    algorithm: string,
    issuer: Option<string>,
    audience: Option<string>)

  /** python-jose's `jwt.decode`: the claims object, or a `JWTError` message. */
  type PyVerifier = (string, Key, VerifyOptions) -> Result<Claims, string>

  /**
   * Constructing the handler: only "sso" mode needs a key, and there a
   * missing or empty path is an error and a failed read is re-raised.
   * `Ok(None)` is secret mode.
   */
  function NewHandler(settings: Settings, keyFile: Result<string, string>): (r: Result<Option<string>, string>)
    ensures settings.authMode != "sso" ==> r == Ok(None)
    ensures settings.authMode == "sso" && !Truthy(settings.publicKeyPath) ==>
      r == Err("JWT_PUBLIC_KEY_PATH is required when AUTH_MODE is set to sso")
    ensures settings.authMode == "sso" && Truthy(settings.publicKeyPath) ==>
      (r.Ok? <==> keyFile.Ok?) && (r.Ok? ==> r.value == Some(keyFile.value)) && (r.Err? ==> r.error == keyFile.error)
  {
    if settings.authMode != "sso" then Ok(None)
    else if !Truthy(settings.publicKeyPath) then Err("JWT_PUBLIC_KEY_PATH is required when AUTH_MODE is set to sso")
    else match keyFile
      case Err(e) => Err(e)
      case Ok(pem) => Ok(Some(pem))
  }

  /** The key and options `decode_token` passes to the library in each mode. */
  function DecodeArgs(settings: Settings, publicKey: Option<string>): (a: (Key, VerifyOptions))
    ensures settings.authMode == "sso" ==>
      a.1.algorithms == Some([settings.algorithm])
      && (a.1.issuer.Some? <==> Truthy(settings.issuer)) && (a.1.issuer.Some? ==> a.1.issuer == settings.issuer)
      && (a.1.audience.Some? <==> Truthy(settings.audience)) && (a.1.audience.Some? ==> a.1.audience == settings.audience)
    ensures settings.authMode != "sso" ==> a == (Secret(settings.jwtSecret), VerifyOptions(Some(["HS256"]), None, None))
  {
    if settings.authMode == "sso" then
      (PublicKey(publicKey.GetOr("")),
       VerifyOptions(
         Some([settings.algorithm]),
         if Truthy(settings.issuer) then settings.issuer else None,
         if Truthy(settings.audience) then settings.audience else None))
    else
      (Secret(settings.jwtSecret), VerifyOptions(Some(["HS256"]), None, None))
  }

  const InvalidToken := HttpError(401, "Invalid token", None)
  const MissingEmail := HttpError(401, "Token missing email claim", None)

  /**
   * `decode_token`: a library failure is 401 "Invalid token"; a payload
   * without a truthy e-mail is 401 "Token missing email claim" (that
   * exception is not a `JWTError`, so it is not rewritten); otherwise a
   * plain user with the token's name as given.
   */
  function DecodeToken(verify: PyVerifier, settings: Settings, publicKey: Option<string>, token: string): (r: Result<PyUser, HttpError>)
    ensures var args := DecodeArgs(settings, publicKey); var v := verify(token, args.0, args.1);
      (v.Err? ==> r == Err(InvalidToken))
      && (v.Ok? && !Truthy(v.value.email) ==> r == Err(MissingEmail))
      && (v.Ok? && Truthy(v.value.email) ==> r == Ok(PyUser(v.value.email.value, v.value.name, ["user"], false)))
    ensures r.Err? ==> r.error.status == 401
  {
    var args := DecodeArgs(settings, publicKey);
    match verify(token, args.0, args.1)
    case Err(_) => Err(InvalidToken)
    case Ok(c) =>
      if !Truthy(c.email) then Err(MissingEmail)
      else Ok(PyUser(c.email.value, c.name, ["user"], false))
  }

  /** `user.email and user.email.lower().strip() in admin_emails`. */
  predicate Listed(admins: set<string>, email: string) {
    email != "" && Normalize(Python, email) in admins
  }

  /**
   * A listed user gets the flag and, when missing, the role "admin"; an
   * unlisted user is returned untouched (its flag is not lowered).
   */
  function PyResolve(admins: set<string>, user: PyUser): (r: PyUser)
    ensures r.email == user.email && r.name == user.name
    ensures !Listed(admins, user.email) ==> r == user
    ensures Listed(admins, user.email) ==> r.isAdmin && "admin" in r.roles && user.roles <= r.roles
    ensures Listed(admins, user.email) && "admin" !in user.roles ==> r.roles == user.roles + ["admin"]
    ensures Listed(admins, user.email) && "admin" in user.roles ==> r.roles == user.roles
  {
    if Listed(admins, user.email) then
      user.(isAdmin := true, roles := if "admin" in user.roles then user.roles else user.roles + ["admin"])
    else user
  }

  /** Resolution only ever raises the flag, and resolving twice changes nothing more. */
  lemma PyResolveMonotoneIdempotent(admins: set<string>, user: PyUser)
    ensures user.isAdmin ==> PyResolve(admins, user).isAdmin
    ensures PyResolve(admins, PyResolve(admins, user)) == PyResolve(admins, user)
  {
  }

  /** `get_current_user`: decode, then resolve against the allow-list. */
  function CurrentUser(verify: PyVerifier, settings: Settings, publicKey: Option<string>, admins: set<string>, token: string): (r: Result<PyUser, HttpError>)
    ensures r.Err? <==> DecodeToken(verify, settings, publicKey, token).Err?
    ensures r.Err? ==> r.error.status == 401
    ensures r.Ok? ==> (r.value.isAdmin <==> Listed(admins, r.value.email))
    ensures r.Ok? ==> r.value.roles == (if r.value.isAdmin then ["user", "admin"] else ["user"])
  {
    match DecodeToken(verify, settings, publicKey, token)
    case Err(e) => Err(e)
    case Ok(u) => Ok(PyResolve(admins, u))
  }

  /** `admin_guard`: an authenticated user without the flag gets 403 "Forbidden". */
  function PyAdminGuard(user: Result<PyUser, HttpError>): (r: Result<PyUser, HttpError>)
    ensures user.Err? ==> r == user
    ensures user.Ok? && !user.value.isAdmin ==> r == Err(HttpError(403, "Forbidden", None))
    ensures user.Ok? && user.value.isAdmin ==> r == user
  {
    match user
    case Err(e) => Err(e)
    case Ok(u) => if u.isAdmin then Ok(u) else Err(HttpError(403, "Forbidden", None))
  }

  /**
   * Through the guard, a bad token is always a 401 and a good token of an
   * unlisted user always a 403: the two failures never mix.
   */
  lemma AdminRouteOutcome(verify: PyVerifier, settings: Settings, publicKey: Option<string>, admins: set<string>, token: string)
    ensures var u := CurrentUser(verify, settings, publicKey, admins, token);
      var r := PyAdminGuard(u);
      (r.Err? && r.error.status == 401 <==> DecodeToken(verify, settings, publicKey, token).Err?)
      && (r.Err? && r.error.status == 403 <==> u.Ok? && !Listed(admins, u.value.email))
      && (r.Ok? <==> u.Ok? && Listed(admins, u.value.email))
  {
  }
}

=== FILE: py_dependencies.dfy ===
/**
 * The alternative FastAPI dependencies: public-key verification with the
 * configured issuer and audience always passed, and admin status taken
 * from an exact match against the allow-list file read on every request.
 */
module PyDependencies {
  import opened Wrappers
  import opened Http
  import opened AuthTypes

  /** The environment-backed configuration; issuer and audience are `None` when unset. */
  datatype DepConfig = DepConfig(publicKeyPath: string, algorithm: string, issuer: Option<string>, audience: Option<string>)

  /** `os.environ.get(name, fallback)`: an empty value is kept, unlike `||` in TypeScript. */
  function LoadDepConfig(env: map<string, string>): (c: DepConfig)
    ensures "JWT_PUBLIC_KEY_PATH" in env ==> c.publicKeyPath == env["JWT_PUBLIC_KEY_PATH"]
    ensures "JWT_PUBLIC_KEY_PATH" !in env ==> c.publicKeyPath == "./public_key.pem"
    ensures "JWT_ALGORITHM" in env ==> c.algorithm == env["JWT_ALGORITHM"]
    ensures "JWT_ALGORITHM" !in env ==> c.algorithm == "RS256"
    ensures c.issuer.Some? <==> "JWT_ISSUER" in env
    ensures "JWT_ISSUER" in env ==> c.issuer == Some(env["JWT_ISSUER"])
    ensures c.audience.Some? <==> "JWT_AUDIENCE" in env
    ensures "JWT_AUDIENCE" in env ==> c.audience == Some(env["JWT_AUDIENCE"])
  {
    DepConfig(
      if "JWT_PUBLIC_KEY_PATH" in env then env["JWT_PUBLIC_KEY_PATH"] else "./public_key.pem",
      if "JWT_ALGORITHM" in env then env["JWT_ALGORITHM"] else "RS256",
      if "JWT_ISSUER" in env then Some(env["JWT_ISSUER"]) else None,
      if "JWT_AUDIENCE" in env then Some(env["JWT_AUDIENCE"]) else None)
  }

  /** Reading the key file at import time: its text, a missing file, or another I/O error. */
  datatype KeyRead = Read(pem: string) | NotFound | IoError(message: string)

  /**
   * `get_public_key`: a missing file is turned into a 500 "Public key file
   * not found."; any other read error propagates unchanged. Either way the
   * module fails to import.
   */
  function LoadPublicKey(read: KeyRead): (r: Result<string, Result<HttpError, string>>)
    ensures r.Ok? <==> read.Read?
    ensures r.Ok? ==> r.value == read.pem
    ensures read.NotFound? ==> r == Err(Ok(HttpError(500, "Public key file not found.", None)))
    ensures read.IoError? ==> r == Err(Err(read.message))
  {
    match read
    case Read(pem) => Ok(pem)
    case NotFound => Err(Ok(HttpError(500, "Public key file not found.", None)))
    case IoError(m) => Err(Err(m))
  }

  /** The user record of this module; `name` defaults to the empty string. */
  datatype User = User(email: string, name: string, roles: seq<string>)

  /** The options passed to the library: the configured values, `None` included, unfiltered. */
  function DepOptions(cfg: DepConfig): (o: VerifyOptions)
    ensures o.algorithms == Some([cfg.algorithm])
    ensures o.issuer == cfg.issuer && o.audience == cfg.audience
  {
    VerifyOptions(Some([cfg.algorithm]), cfg.issuer, cfg.audience)
  }

  const CredentialsError := HttpError(401, "Could not validate credentials", Some("Bearer"))
  const ServerError := HttpError(500, "Internal Server Error", None)

  /** The roles granted: "user", plus "admin" for an e-mail listed verbatim. */
  function RolesFor(email: string, adminUsers: seq<string>): (roles: seq<string>)
    ensures |roles| >= 1 && roles[0] == "user"
    ensures "admin" in roles <==> email in adminUsers
  {
    if email in adminUsers then ["user", "admin"] else ["user"]
  }

  /**
   * `get_current_user`: a verification failure or an absent e-mail claim is
   * 401 with a `WWW-Authenticate: Bearer` header; an unreadable allow-list
   * file is an unhandled error (500). An empty e-mail is accepted.
   */
  function GetCurrentUser(verify: (string, Key, VerifyOptions) -> Result<Claims, string>, cfg: DepConfig, publicKey: string,
                          adminFile: Result<seq<string>, string>, token: string): (r: Result<User, HttpError>)
    ensures var v := verify(token, PublicKey(publicKey), DepOptions(cfg));
      (v.Err? || v.value.email.None? ==> r == Err(CredentialsError))
      && (v.Ok? && v.value.email.Some? && adminFile.Err? ==> r == Err(ServerError))
      && (r.Ok? <==> v.Ok? && v.value.email.Some? && adminFile.Ok?)
      && (r.Ok? ==> r.value.email == v.value.email.value && r.value.name == v.value.name.GetOr(""))
    ensures r.Ok? ==> r.value.roles == RolesFor(r.value.email, adminFile.value)
  {
    match verify(token, PublicKey(publicKey), DepOptions(cfg))
    case Err(_) => Err(CredentialsError)
    case Ok(c) =>
      match c.email
      case None => Err(CredentialsError)
      case Some(email) =>
        match adminFile
        case Err(_) => Err(ServerError)
        case Ok(adminUsers) => Ok(User(email, c.name.GetOr(""), RolesFor(email, adminUsers)))
  }

  const NoPermission := HttpError(403, "You do not have permission to access this resource.", None)

  /** `admin_guard`: the role list decides. */
  function DepAdminGuard(user: Result<User, HttpError>): (r: Result<User, HttpError>)
    ensures user.Err? ==> r == user
    ensures user.Ok? ==> (r.Ok? <==> "admin" in user.value.roles)
    ensures r.Ok? ==> r == user
    ensures user.Ok? && r.Err? ==> r.error == NoPermission
  {
    match user
    case Err(e) => Err(e)
    case Ok(u) => if "admin" in u.roles then Ok(u) else Err(NoPermission)
  }

  /** Admin access is granted exactly to tokens whose e-mail is listed verbatim (case and spaces matter). */
  lemma DepAdminExact(verify: (string, Key, VerifyOptions) -> Result<Claims, string>, cfg: DepConfig, publicKey: string,
                      adminUsers: seq<string>, token: string)
    ensures var u := GetCurrentUser(verify, cfg, publicKey, Ok(adminUsers), token);
      DepAdminGuard(u).Ok? <==> u.Ok? && u.value.email in adminUsers
  {
  }
}

=== FILE: relative_time.dfy ===
/** The admin dashboard's "time ago" label. */
module RelativeTime {
  import opened Numbers

  /** The unit a label is expressed in. */
  datatype Unit = Seconds | Minutes | Hours | Days

  function Suffix(u: Unit): (s: string)
    ensures |s| > 0 && !IsDigit(s[0]) && s[0] != 'x' && s[0] != 'X'
  {
    match u
    case Seconds => "s ago"
    case Minutes => "m ago"
    case Hours => "h ago"
    case Days => "d ago"
  }

  /**
   * The count and unit for an elapsed number of whole seconds: the largest
   * unit that fits below the next one, truncated down (so the count never
   * overstates the age). Negative ages stay in seconds.
   */
  function Bucket(secs: int): (b: (int, Unit))
    ensures b.1 == Seconds <==> secs < 60
    ensures b.1 == Minutes <==> 60 <= secs < 3600
    ensures b.1 == Hours <==> 3600 <= secs < 86400
    ensures b.1 == Days <==> 86400 <= secs
    ensures b.1 == Seconds ==> b.0 == secs
    ensures b.1 == Minutes ==> 60 * b.0 <= secs < 60 * b.0 + 60 && 1 <= b.0 < 60
    ensures b.1 == Hours ==> 3600 * b.0 <= secs < 3600 * b.0 + 3600 && 1 <= b.0 < 24
    ensures b.1 == Days ==> 86400 * b.0 <= secs < 86400 * b.0 + 86400 && 1 <= b.0
  {
    if secs < 60 then (secs, Seconds)
    else
      var minutes := secs / 60;
      if minutes < 60 then (minutes, Minutes)
      else
        var hours := minutes / 60;
        if hours < 24 then (hours, Hours)
        else (hours / 24, Days)
  }

  /** The length of a unit in seconds. */
  function UnitSeconds(u: Unit): nat {
    match u
    case Seconds => 1
    case Minutes => 60
    case Hours => 3600
    case Days => 86400
  }

  /**
   * The repeated floor divisions equal one floor division by the unit's
   * length, so for a non-negative age the count is `secs / 60`,
   * `secs / 3600` or `secs / 86400`.
   */
  lemma BucketIsSingleFloor(secs: int)
    ensures Bucket(secs).0 == secs / UnitSeconds(Bucket(secs).1)
  {
    var b := Bucket(secs);
    var d := UnitSeconds(b.1);
    assert d * b.0 <= secs < d * b.0 + d;
  }

  /**
   * `getRelativeTime`: the elapsed milliseconds (`NaN` for an unparsable
   * date) floored to seconds and rendered with the bucket's suffix. An
   * invalid date fails every comparison and reads "NaNd ago".
   */
  function Label(elapsedMs: Number): (r: string)
    ensures elapsedMs.NaN? ==> r == "NaNd ago"
    ensures elapsedMs.Num? ==> var b := Bucket(elapsedMs.n / 1000);
      ParseInt(r) == Num(b.0) && r == IntToString(b.0) + Suffix(b.1)
  {
    match elapsedMs
    case NaN => "NaNd ago"
    case Num(ms) =>
      var b := Bucket(ms / 1000);
      ReadBackWithSuffix(b.0, Suffix(b.1));
      IntToString(b.0) + Suffix(b.1)
  }

  /** A date in the future shows a negative number of seconds. */
  lemma FutureIsNegativeSeconds(ms: int)
    requires ms < 0
    ensures Bucket(ms / 1000).1 == Seconds && Bucket(ms / 1000).0 < 0
  {
  }
}

=== FILE: server.dfy ===
/**
 * The Express server's own routes: the login stub, the catalogue with
 * favourites keyed by parsed numbers, the per-application metric, and which
 * middleware guards each route.
 */
module Server {
  import opened Wrappers
  import opened Strings
  import opened Numbers
  import opened Collections
  import opened AuthTypes
  import opened AdminResolver
  import opened Strategies
  import opened AuthMiddleware

  /** `favorites`: a JavaScript `Set` of numbers, where `NaN` is a legal member. */
  const InitialFavorites: set<Number> := {Num(1), Num(2), Num(3), Num(12)}

  /** An `id` of an entry in `config.json`: a number, a string, or anything else. */
  datatype JsonId = JsonNumber(n: int) | JsonText(text: string) | JsonOther

  /** `favorites.has(app.id)`: only a numeric id can be found, a string "1" never. */
  function IsFavorite(favorites: set<Number>, id: JsonId): (r: bool)
    ensures r <==> id.JsonNumber? && Num(id.n) in favorites
  {
    match id
    case JsonNumber(n) => Num(n) in favorites
    case _ => false
  }

  /** An entry of `config.json`: its id and its other fields, passed through as they are. */
  datatype ConfigApp = ConfigApp(id: JsonId, fields: map<string, string>)

  /** An entry as `GET /api/apps` sends it: the spread entry plus the favourite flag. */
  datatype ListedApp = ListedApp(app: ConfigApp, isFavorite: bool)

  /**
   * `config.json` as `loadConfig` sees it. A missing or unparsable file
   * reads as no applications; a file that parses to a value without an
   * `apps` array (`{}`, `null`, `{"apps": 3}`) reaches the handler as it is.
   */
  datatype ConfigFile = NoConfig | BrokenConfig | ParsedConfig(apps: seq<ConfigApp>) | ParsedWithoutApps

  /** The status Express's default error handler gives a handler that throws. */
  const HandlerThrew: int := 500

  /**
   * `GET /api/apps`: every configured entry, in order, flagged by membership
   * of its id; `config.apps.map` throws when there is no array to map.
   */
  function ListApps(file: ConfigFile, favorites: set<Number>): (r: Result<seq<ListedApp>, int>)
    ensures r.Err? <==> file.ParsedWithoutApps?
    ensures r.Err? ==> r.error == HandlerThrew
    ensures file.NoConfig? || file.BrokenConfig? ==> r == Ok([])
    ensures file.ParsedConfig? ==> r.Ok? && |r.value| == |file.apps|
    ensures file.ParsedConfig? ==> forall k :: 0 <= k < |r.value| ==>
      r.value[k].app == file.apps[k] && (r.value[k].isFavorite <==> file.apps[k].id.JsonNumber? && Num(file.apps[k].id.n) in favorites)
  {
    match file
    case ParsedConfig(apps) =>
      Ok(seq(|apps|, k requires 0 <= k < |apps| => ListedApp(apps[k], IsFavorite(favorites, apps[k].id))))
    case ParsedWithoutApps => Err(HandlerThrew)
    case _ => Ok([])
  }

  /**
   * After toggling the rendering of a number, the listing differs exactly
   * in the flags of the entries with that numeric id.
   */
  lemma ToggleChangesListing(apps: seq<ConfigApp>, favorites: set<Number>, n: int, k: nat)
    requires k < |apps| && Safe(n)
    ensures var before := ListApps(ParsedConfig(apps), favorites).value;
      var after := ListApps(ParsedConfig(apps), ToggleFavorite(favorites, IntToString(n)).0).value;
      after[k].app == before[k].app && (after[k].isFavorite != before[k].isFavorite <==> apps[k].id == JsonNumber(n))
  {
    ToggleRenderedId(favorites, n, apps[k].id);
  }

  /** The reply of the favourite toggle. */
  datatype ToggleReply = ToggleReply(action: string, isFavorite: bool)

  /** `POST /api/apps/:id/favorite`: the parameter goes through `parseInt` before the set is toggled. */
  function ToggleFavorite(favorites: set<Number>, param: string): (r: (set<Number>, ToggleReply))
    ensures r.0 == ToggleSet(favorites, ParseInt(param))
    ensures r.1.action == (if ParseInt(param) in favorites then "removed" else "added")
    ensures r.1.isFavorite <==> ParseInt(param) in r.0
    ensures r.1.isFavorite <==> r.1.action == "added"
  {
    var key := ParseInt(param);
    var next := ToggleSet(favorites, key);
    (next, ToggleReply(if key in favorites then "removed" else "added", key in next))
  }

  /** Two spellings of the same number ("7" and "07", "7px") toggle the same entry. */
  lemma ToggleBySpelling(favorites: set<Number>, p: string, q: string)
    requires ParseInt(p) == ParseInt(q)
    ensures ToggleFavorite(ToggleFavorite(favorites, p).0, q).0 == favorites
  {
    ToggleSetTwice(favorites, ParseInt(p));
  }

  /** The rendering of an application's numeric id toggles exactly that application. */
  lemma ToggleRenderedId(favorites: set<Number>, n: int, id: JsonId)
    requires Safe(n)
    ensures IsFavorite(ToggleFavorite(favorites, IntToString(n)).0, id) != IsFavorite(favorites, id)
        <==> id == JsonNumber(n)
  {
    ParseIntRoundTrip(n);
  }

  /** A parameter that is no number toggles `NaN`, which changes no application's flag. */
  lemma NaNToggleIsInvisible(favorites: set<Number>, param: string, id: JsonId)
    requires ParseInt(param) == NaN
    ensures IsFavorite(ToggleFavorite(favorites, param).0, id) == IsFavorite(favorites, id)
  {
  }

  /** A metric value: text, or a bare number. */
  datatype MetricValue = Label(text: string) | Figure(n: int)

  datatype Metric = Metric(name: string, value: MetricValue, trend: string)

  /**
   * `GET /api/metrics/:id`: applications 1, 2 and 12 get a random figure,
   * every other parameter (including `NaN`) the uptime fallback. The
   * `Math.floor(Math.random() * k)` draws are parameters.
   */
  function MetricFor(param: string, hours: nat, docs: nat, assets: nat): (m: Metric)
    requires hours < 12 && docs < 4000 && assets < 60
    ensures ParseInt(param) !in {Num(1), Num(2), Num(12)} <==> m == Metric("Uptime", Label("100%"), "neutral")
    ensures ParseInt(param) == Num(1) ==> m == Metric("Meetings Saved", Label(NatToString(hours + 12) + " hrs"), "up")
    ensures ParseInt(param) == Num(2) ==> m == Metric("Docs Indexed", Label(NatToString(docs + 1000)), "up")
    ensures ParseInt(param) == Num(12) ==> m.name == "Assets Gen" && m.value.Figure? && 40 <= m.value.n < 100
  {
    match ParseInt(param)
    case Num(1) => Metric("Meetings Saved", Label(NatToString(hours + 12) + " hrs"), "up")
    case Num(2) => Metric("Docs Indexed", Label(NatToString(docs + 1000)), "up")
    case Num(12) => Metric("Assets Gen", Figure(assets + 40), "up")
    case _ => Metric("Uptime", Label("100%"), "neutral")
  }

  /** `POST /api/auth/login`: every caller receives the same token. */
  const LoginToken := "mock-token"
  const LoginTokenType := "bearer"

  /** The issued token is the one the mock strategy accepts. */
  lemma LoginTokenAccepted(cfg: Config, admins: set<string>, verify: Verifier)
    ensures Handle(Mock, cfg, admins, verify, Some("Bearer " + LoginToken)).Next?
  {
    var h := "Bearer " + LoginToken;
    assert HasPrefix(h, BearerPrefix);
    var k := NextIndexOf(h, ' ', 7);
    assert forall i :: 7 <= i < |h| ==> h[i] != ' ';
    assert k == |h|;
    assert h[7..] == MockToken;
    MockRequest(cfg, admins, verify, h);
  }

  /** The routes of the server and the middleware placed in front of each. */
  datatype Route = Health | Login | AppsList | Favorite | Metrics | AdminConfig

  datatype Guard = Authenticated | AdminOnly

  function GuardsOf(route: Route): (g: seq<Guard>)
    ensures route in {Health, Login} <==> g == []
    ensures AdminOnly !in g
  {
    match route
    case Health => []
    case Login => []
    case _ => [Authenticated]
  }

  /**
   * The admin router is mounted behind authentication only: in mock mode
   * with an empty allow-list the mock user, who is not an admin, reaches
   * it.
   */
  lemma AdminRoutesOpenToNonAdmins(cfg: Config, verify: Verifier)
    ensures GuardsOf(AdminConfig) == [Authenticated]
    ensures var r := Handle(Mock, cfg, {}, verify, Some("Bearer " + LoginToken)); r.Next? && !r.context.isAdmin
  {
    LoginTokenAccepted(cfg, {}, verify);
  }
}

=== FILE: strategies.dfy ===
/**
 * The three authentication strategies of the Express back end. Each turns a
 * bearer token into an `AuthUser` or fails with a message.
 */
module Strategies {
  import opened Wrappers
  import opened Strings
  import opened AuthTypes
  import opened AdminResolver

  // ---------------------------------------------------------------- mock

  const MockToken := "mock-token"
  const MockEmail := "test_user@company.com"

  /** The fixed development user, before the allow-list is consulted. */
  const MockBase := AuthUser(Some(MockEmail), Some("Test User"), ["user", "admin"], true)

  /**
   * Only the literal token "mock-token" is accepted; it always yields the
   * same user, passed through the admin resolver.
   */
  function MockAuthenticate(admins: set<string>, token: string): (r: Result<AuthUser, string>)
    ensures r.Ok? <==> token == MockToken
    ensures r.Err? ==> r.error == "Invalid mock token"
    ensures r.Ok? ==> r.value.email == Some(MockEmail) && r.value.name == Some("Test User")
    ensures r.Ok? ==> r.value.roles == ["user", "admin"]
    ensures r.Ok? ==> r.value.isAdmin == ResolveAdmin(admins, Some(MockEmail))
  {
    if token != MockToken then Err("Invalid mock token") else Ok(Resolve(admins, MockBase))
  }

  /** With the mock e-mail off the list the mock user carries the role "admin" but not the flag. */
  lemma MockUserRoleWithoutFlag(admins: set<string>)
    requires !ResolveAdmin(admins, Some(MockEmail))
    ensures var r := MockAuthenticate(admins, MockToken); "admin" in r.value.roles && !r.value.isAdmin
  {
  }

  // --------------------------------------------------------------- login

  /** `jwt.verify(token, secret)` passes no options: the library defaults apply. */
  const NoOptions := VerifyOptions(None, None, None)

  /** The user a login token describes: missing claims take their defaults, roles are trusted as given. */
  function LoginUser(d: Decoded): (u: AuthUser)
    ensures !u.isAdmin
    ensures d.Text? ==> u == AuthUser(None, None, ["user"], false)
    ensures d.Payload? ==> u.email == d.claims.email && u.name == OrNone(d.claims.name)
    ensures d.Payload? && d.claims.roles.None? ==> u.roles == ["user"]
    ensures d.Payload? && d.claims.roles.Some? ==> u.roles == d.claims.roles.value
  {
    match d
    case Text(_) => AuthUser(None, None, ["user"], false)
    case Payload(c) => AuthUser(c.email, OrNone(c.name), c.roles.GetOr(["user"]), false)
  }

  /** Verification with the shared secret; every failure becomes "Invalid token". */
  function LoginAuthenticate(verify: Verifier, cfg: Config, token: string): (r: Result<AuthUser, string>)
    ensures r.Ok? <==> verify(token, Secret(cfg.jwtSecret), NoOptions).Ok?
    ensures r.Err? ==> r.error == "Invalid token"
    ensures r.Ok? ==> r == Ok(LoginUser(verify(token, Secret(cfg.jwtSecret), NoOptions).value))
  {
    match verify(token, Secret(cfg.jwtSecret), NoOptions)
    case Err(_) => Err("Invalid token")
    case Ok(d) => Ok(LoginUser(d))
  }

  // ----------------------------------------------------------------- jwt

  /** A strategy after construction; the JWT one holds the public key it read. */
  datatype Strategy = Mock | Jwt(publicKey: string)

  /**
   * Constructing the JWT strategy: an empty key path is refused, and a
   * failure to read the key file is passed on unchanged.
   */
  function NewJwt(cfg: Config, keyFile: Result<string, string>): (r: Result<Strategy, string>)
    ensures cfg.publicKeyPath == "" ==> r == Err("JWT_PUBLIC_KEY_PATH is not defined")
    ensures cfg.publicKeyPath != "" && keyFile.Err? ==> r == Err(keyFile.error)
    ensures r.Ok? <==> cfg.publicKeyPath != "" && keyFile.Ok?
    ensures r.Ok? ==> r.value == Jwt(keyFile.value)
  {
    if cfg.publicKeyPath == "" then Err("JWT_PUBLIC_KEY_PATH is not defined")
    else match keyFile
      case Err(e) => Err(e)
      case Ok(pem) => Ok(Jwt(pem))
  }

  /** The key path has a non-empty default, so the "not defined" error cannot occur. */
  lemma NewJwtFailsOnlyOnRead(env: map<string, string>, keyFile: Result<string, string>)
    ensures NewJwt(LoadConfig(env), keyFile).Err? <==> keyFile.Err?
  {
  }

  /** The configured algorithm, plus issuer and audience checks only when they are non-empty. */
  function JwtOptions(cfg: Config): (o: VerifyOptions)
    ensures o.algorithms == Some([cfg.algorithm])
    ensures o.issuer.Some? <==> cfg.issuer != ""
    ensures o.audience.Some? <==> cfg.audience != ""
    ensures o.issuer.Some? ==> o.issuer.value == cfg.issuer
    ensures o.audience.Some? ==> o.audience.value == cfg.audience
  {
    VerifyOptions(
      Some([cfg.algorithm]),
      if cfg.issuer != "" then Some(cfg.issuer) else None,
      if cfg.audience != "" then Some(cfg.audience) else None)
  }

  const JwtFailure := "JWT verification failed: "

  /** The payload checks after a successful signature check; the error is the bare reason. */
  function JwtUser(d: Decoded): (r: Result<AuthUser, string>)
    ensures r.Ok? <==> d.Payload? && d.claims.email.Some? && d.claims.email.value != ""
    ensures d.Text? ==> r == Err("Invalid token payload")
    ensures d.Payload? && !r.Ok? ==> r == Err("Token missing email claim")
    ensures r.Ok? ==> r.value == AuthUser(d.claims.email, OrNone(d.claims.name), ["user"], false)
  {
    match d
    case Text(_) => Err("Invalid token payload")
    case Payload(c) =>
      if c.email.None? || c.email.value == "" then Err("Token missing email claim")
      else Ok(AuthUser(c.email, OrNone(c.name), ["user"], false))
  }

  /**
   * Verification with the public key; every failure is rethrown with the
   * "JWT verification failed: " prefix in front of its reason.
   */
  function JwtAuthenticate(verify: Verifier, publicKey: string, cfg: Config, token: string): (r: Result<AuthUser, string>)
    ensures var v := verify(token, PublicKey(publicKey), JwtOptions(cfg));
      (r.Ok? <==> v.Ok? && JwtUser(v.value).Ok?)
      && (v.Err? ==> r == Err(JwtFailure + v.error))
      && (v.Ok? && JwtUser(v.value).Err? ==> r == Err(JwtFailure + JwtUser(v.value).error))
    ensures r.Err? ==> HasPrefix(r.error, JwtFailure)
    ensures r.Ok? ==> r.value.email.Some? && r.value.roles == ["user"] && !r.value.isAdmin
  {
    match verify(token, PublicKey(publicKey), JwtOptions(cfg))
    case Err(e) => Err(JwtFailure + e)
    case Ok(d) =>
      match JwtUser(d)
      case Err(e) => Err(JwtFailure + e)
      case Ok(u) => Ok(u)
  }
}

=== FILE: strings.dfy ===
/**
 * String primitives the dashboard relies on: case folding, trimming,
 * substring search, splitting and the code-unit ordering JavaScript uses
 * for `<` on strings and for the default `Array.prototype.sort`.
 */
module Strings {

  /** Which runtime's notion of whitespace applies. */
  datatype Lang = JS | Python

  /** ASCII upper-case letters fold to lower case; every other character is kept. */
  function LowerChar(c: char): char {
    if 'A' <= c <= 'Z' then (c as int + 32) as char else c
  }

  /** `toLowerCase()` / `lower()` restricted to ASCII letters. */
  function Lower(s: string): (r: string)
    ensures |r| == |s|
    ensures forall i :: 0 <= i < |s| ==> r[i] == LowerChar(s[i])
  {
    seq(|s|, i requires 0 <= i < |s| => LowerChar(s[i]))
  }

  predicate IsLowered(s: string) {
    forall i :: 0 <= i < |s| ==> LowerChar(s[i]) == s[i]
  }

  lemma LowerIsLowered(s: string)
    ensures IsLowered(Lower(s))
  {
  }

  lemma LowerFixesLowered(s: string)
    requires IsLowered(s)
    ensures Lower(s) == s
  {
  }

  /**
   * Whitespace: for JS the WhiteSpace and LineTerminator characters that
   * `trim()` removes and the regex class `\s` matches; for Python the
   * characters `str.strip()` removes.
   */
  predicate IsSpace(lang: Lang, c: char) {
    match lang
    case JS =>
      ('\t' <= c <= '\r') || c == ' ' || c == '\U{A0}' || c == '\U{1680}'
      || ('\U{2000}' <= c <= '\U{200A}') || c == '\U{2028}' || c == '\U{2029}'
      || c == '\U{202F}' || c == '\U{205F}' || c == '\U{3000}' || c == '\U{FEFF}'
    case Python =>
      ('\t' <= c <= '\r') || ('\U{1C}' <= c <= '\U{1F}') || c == ' ' || c == '\U{85}'
      || c == '\U{A0}' || c == '\U{1680}' || ('\U{2000}' <= c <= '\U{200A}')
      || c == '\U{2028}' || c == '\U{2029}' || c == '\U{202F}' || c == '\U{205F}'
      || c == '\U{3000}'
  }

  /** Folding never touches whitespace, in either runtime. */
  lemma LowerKeepsSpace(lang: Lang, c: char)
    ensures IsSpace(lang, LowerChar(c)) == IsSpace(lang, c)
    ensures IsSpace(lang, c) ==> LowerChar(c) == c
  {
  }

  /** Drop leading whitespace. */
  function TrimStart(lang: Lang, s: string): (r: string)
    ensures |r| <= |s| && r == s[|s| - |r|..]
    ensures |r| > 0 ==> !IsSpace(lang, r[0])
    ensures forall i :: 0 <= i < |s| - |r| ==> IsSpace(lang, s[i])
  {
    if |s| > 0 && IsSpace(lang, s[0]) then TrimStart(lang, s[1..]) else s
  }

  /** Drop trailing whitespace. */
  function TrimEnd(lang: Lang, s: string): (r: string)
    ensures |r| <= |s| && r == s[..|r|]
    ensures |r| > 0 ==> !IsSpace(lang, r[|r| - 1])
    ensures forall i :: |r| <= i < |s| ==> IsSpace(lang, s[i])
  {
    if |s| > 0 && IsSpace(lang, s[|s| - 1]) then TrimEnd(lang, s[..|s| - 1]) else s
  }

  /** `trim()` in JS, `strip()` in Python. */
  function Trim(lang: Lang, s: string): (r: string)
    ensures |r| > 0 ==> !IsSpace(lang, r[0]) && !IsSpace(lang, r[|r| - 1])
  {
    TrimEnd(lang, TrimStart(lang, s))
  }

  lemma TrimStartOfClean(lang: Lang, s: string)
    requires |s| == 0 || !IsSpace(lang, s[0])
    ensures TrimStart(lang, s) == s
  {
  }

  lemma TrimEndOfClean(lang: Lang, s: string)
    requires |s| == 0 || !IsSpace(lang, s[|s| - 1])
    ensures TrimEnd(lang, s) == s
  {
  }

  /** Trimming twice is trimming once. */
  lemma TrimIdempotent(lang: Lang, s: string)
    ensures Trim(lang, Trim(lang, s)) == Trim(lang, s)
  {
    var t := Trim(lang, s);
    TrimStartOfClean(lang, t);
    TrimEndOfClean(lang, t);
  }

  /** The trimmed text is a contiguous slice of the input. */
  lemma TrimIsSlice(lang: Lang, s: string)
    ensures exists i, j :: 0 <= i <= j <= |s| && Trim(lang, s) == s[i..j]
  {
    var a := TrimStart(lang, s);
    var b := TrimEnd(lang, a);
    var i := |s| - |a|;
    assert a == s[i..];
    assert b == a[..|b|] == s[i..i + |b|];
  }

  /** Lower-casing then trimming: how allow-list entries and queried emails are normalised. */
  function Normalize(lang: Lang, s: string): string {
    Trim(lang, Lower(s))
  }

  lemma {:induction false} TrimStartKeepsLowered(lang: Lang, s: string)
    requires IsLowered(s)
    ensures IsLowered(TrimStart(lang, s))
  {
  }

  lemma {:induction false} TrimEndKeepsLowered(lang: Lang, s: string)
    requires IsLowered(s)
    ensures IsLowered(TrimEnd(lang, s))
  {
  }

  /** Normalising an already normalised string changes nothing. */
  lemma {:induction false} NormalizeIdempotent(lang: Lang, s: string)
    ensures Normalize(lang, Normalize(lang, s)) == Normalize(lang, s)
  {
    var n := Normalize(lang, s);
    LowerIsLowered(s);
    TrimStartKeepsLowered(lang, Lower(s));
    TrimEndKeepsLowered(lang, TrimStart(lang, Lower(s)));
    LowerFixesLowered(n);
    TrimIdempotent(lang, Lower(s));
  }

  predicate HasPrefix(s: string, p: string) {
    |p| <= |s| && s[..|p|] == p
  }

  /** `s.includes(sub)`: `sub` occurs at some offset of `s`. */
  predicate Contains(s: string, sub: string)
    decreases |s|
  {
    HasPrefix(s, sub) || (|s| > 0 && Contains(s[1..], sub))
  }

  /** `Contains` agrees with the offset-based definition of a substring. */
  lemma {:induction false} ContainsAt(s: string, sub: string, k: nat)
    requires k + |sub| <= |s| && s[k..k + |sub|] == sub
    ensures Contains(s, sub)
    decreases k
  {
    if k > 0 {
      assert s[1..][k - 1..k - 1 + |sub|] == s[k..k + |sub|];
      ContainsAt(s[1..], sub, k - 1);
    }
  }

  lemma EverythingContainsEmpty(s: string)
    ensures Contains(s, "")
  {
    assert HasPrefix(s, "");
  }

  /** JavaScript `a < b` on strings: lexicographic over code units, a proper prefix first. */
  predicate Less(a: string, b: string)
    decreases |a|
  {
    if |a| == 0 then |b| > 0
    else if |b| == 0 then false
    else if a[0] != b[0] then a[0] < b[0]
    else Less(a[1..], b[1..])
  }

  lemma {:induction false} LessIrreflexive(a: string)
    ensures !Less(a, a)
    decreases |a|
  {
    if |a| > 0 {
      LessIrreflexive(a[1..]);
    }
  }

  lemma {:induction false} LessTransitive(a: string, b: string, c: string)
    requires Less(a, b) && Less(b, c)
    ensures Less(a, c)
    decreases |a|
  {
    if |a| > 0 && |b| > 0 && |c| > 0 && a[0] == b[0] == c[0] {
      LessTransitive(a[1..], b[1..], c[1..]);
    }
  }

  lemma {:induction false} LessTotal(a: string, b: string)
    ensures a == b || Less(a, b) || Less(b, a)
    decreases |a|
  {
    if |a| > 0 && |b| > 0 && a[0] == b[0] {
      LessTotal(a[1..], b[1..]);
      if a[1..] == b[1..] {
        assert a == [a[0]] + a[1..] && b == [b[0]] + b[1..];
      }
    }
  }

  lemma LessAsymmetric(a: string, b: string)
    requires Less(a, b)
    ensures !Less(b, a)
  {
    if Less(b, a) {
      LessTransitive(a, b, a);
      LessIrreflexive(a);
    }
  }

  /** Join parts with a separator character: the inverse of `SplitOn`. */
  function JoinWith(parts: seq<string>, sep: char): string
    requires |parts| >= 1
  {
    if |parts| == 1 then parts[0] else parts[0] + [sep] + JoinWith(parts[1..], sep)
  }

  /**
   * `s.split(sep)` for a one-character separator: the maximal separator-free
   * fields, so that joining them back gives `s` again.
   */
  function SplitOn(s: string, sep: char): (parts: seq<string>)
    ensures |parts| >= 1
    ensures forall k :: 0 <= k < |parts| ==> sep !in parts[k]
    ensures JoinWith(parts, sep) == s
    decreases |s|
  {
    if |s| == 0 then [""]
    else if s[0] == sep then
      var rest := SplitOn(s[1..], sep);
      assert ([""] + rest)[1..] == rest;
      [""] + rest
    else
      var rest := SplitOn(s[1..], sep);
      var parts := [[s[0]] + rest[0]] + rest[1..];
      assert parts[1..] == rest[1..];
      assert s == [s[0]] + s[1..];
      parts
  }

  /** Position of the first `sep` at or after `from`, or `|s|` when there is none. */
  function NextIndexOf(s: string, sep: char, from: nat): (k: nat)
    requires from <= |s|
    ensures from <= k <= |s|
    ensures sep !in s[from..k]
    ensures k < |s| ==> s[k] == sep
    decreases |s| - from
  {
    if from == |s| || s[from] == sep then from else NextIndexOf(s, sep, from + 1)
  }

  /** Searching from one position further equals searching the tail, shifted by one. */
  lemma {:induction false} NextIndexShift(s: string, sep: char, from: nat)
    requires from + 1 <= |s|
    ensures NextIndexOf(s, sep, from + 1) == NextIndexOf(s[1..], sep, from) + 1
    decreases |s| - from
  {
    if from + 1 < |s| && s[from + 1] != sep {
      NextIndexShift(s, sep, from + 1);
    }
  }

  /** Searching `s[d..]` is searching `s` from `d` on, shifted by `d`. */
  lemma {:induction false} NextIndexDrop(s: string, sep: char, d: nat, from: nat)
    requires d + from <= |s|
    ensures NextIndexOf(s[d..], sep, from) + d == NextIndexOf(s, sep, from + d)
    decreases d
  {
    if d > 0 {
      NextIndexDrop(s, sep, d - 1, from + 1);
      NextIndexShift(s[d - 1..], sep, from);
      assert s[d - 1..][1..] == s[d..];
    }
  }

  /** The first field of a split is the text before the first separator. */
  lemma {:induction false} SplitFirstField(s: string, sep: char)
    ensures SplitOn(s, sep)[0] == s[..NextIndexOf(s, sep, 0)]
    decreases |s|
  {
    if |s| > 0 && s[0] != sep {
      SplitFirstField(s[1..], sep);
      NextIndexShift(s, sep, 0);
    }
  }

  /** The fields after the first are the split of the text after the first separator. */
  lemma {:induction false} SplitRestFields(s: string, sep: char)
    requires NextIndexOf(s, sep, 0) < |s|
    ensures SplitOn(s, sep)[1..] == SplitOn(s[NextIndexOf(s, sep, 0) + 1..], sep)
    decreases |s|
  {
    if s[0] != sep {
      NextIndexShift(s, sep, 0);
      SplitRestFields(s[1..], sep);
      assert s[1..][NextIndexOf(s[1..], sep, 0) + 1..] == s[NextIndexOf(s, sep, 0) + 1..];
    }
  }

  /**
   * `s.replace(/\s+/g, '.')`: every maximal run of JS whitespace becomes a
   * single dot.
   */
  function CollapseSpaces(s: string): (r: string)
    ensures forall i :: 0 <= i < |r| ==> !IsSpace(JS, r[i])
    ensures |r| <= |s|
    decreases |s|
  {
    if |s| == 0 then ""
    else if IsSpace(JS, s[0]) then "." + CollapseSpaces(TrimStart(JS, s[1..]))
    else [s[0]] + CollapseSpaces(s[1..])
  }

  /** Text without whitespace is left as it is. */
  lemma {:induction false} CollapseSpacesOfClean(s: string)
    requires forall i :: 0 <= i < |s| ==> !IsSpace(JS, s[i])
    ensures CollapseSpaces(s) == s
    decreases |s|
  {
    if |s| > 0 {
      CollapseSpacesOfClean(s[1..]);
    }
  }
}

=== FILE: user_preference.dfy ===
/**
 * The front end's preference context: the theme chosen at start-up, the
 * favourites list toggle, and which changes are sent to the server.
 */
module UserPreference {
  import opened Wrappers
  import opened Collections

  /**
   * The theme before anything is fetched: "dark" when the saved value is
   * "dark", or when nothing (or an empty string) is saved and the system
   * prefers dark; "light" otherwise and whenever there is no window.
   */
  function InitialTheme(hasWindow: bool, saved: Option<string>, prefersDark: bool): (t: string)
    ensures t == "dark" || t == "light"
    ensures t == "dark" <==> hasWindow && (saved == Some("dark") || ((saved.None? || saved == Some("")) && prefersDark))
  {
    if !hasWindow then "light"
    else if saved == Some("dark") || ((saved.None? || saved == Some("")) && prefersDark) then "dark"
    else "light"
  }

  /** What the theme effect writes to local storage: "dark" for "dark", "light" for anything else. */
  function StoredTheme(theme: string): (s: string)
    ensures s == "dark" <==> theme == "dark"
    ensures s == "dark" || s == "light"
  {
    if theme == "dark" then "dark" else "light"
  }

  /** A saved theme wins over the system preference on the next start. */
  lemma SavedThemeRestored(theme: string, prefersDark: bool)
    requires theme == "dark" || theme == "light"
    ensures InitialTheme(true, Some(StoredTheme(theme)), prefersDark) == theme
  {
  }

  /** A call to the preferences API. */
  datatype Effect = SaveTheme(theme: string) | SaveFavorites(favorites: seq<int>)

  datatype State = State(theme: string, favorites: seq<int>)

  /** `setTheme`: the local state always changes; the server hears of it only when signed in. */
  function SetTheme(st: State, authenticated: bool, theme: string): (r: (State, seq<Effect>))
    ensures r.0.theme == theme && r.0.favorites == st.favorites
    ensures authenticated <==> r.1 == [SaveTheme(theme)]
    ensures !authenticated <==> r.1 == []
  {
    (st.(theme := theme), if authenticated then [SaveTheme(theme)] else [])
  }

  /** `setFavorites`: as `setTheme`, for the list. */
  function SetFavorites(st: State, authenticated: bool, favorites: seq<int>): (r: (State, seq<Effect>))
    ensures r.0.favorites == favorites && r.0.theme == st.theme
    ensures authenticated <==> r.1 == [SaveFavorites(favorites)]
    ensures !authenticated <==> r.1 == []
  {
    (st.(favorites := favorites), if authenticated then [SaveFavorites(favorites)] else [])
  }

  /**
   * The list toggle: remove every occurrence when present, keeping the
   * other ids in order, and append at the end otherwise.
   */
  function ToggleList(favorites: seq<int>, id: int): (r: seq<int>)
    ensures id in r <==> id !in favorites
    ensures forall x :: x != id ==> (x in r <==> x in favorites)
    ensures id !in favorites ==> r == favorites + [id]
    ensures id in favorites ==> Subsequence(r, favorites) && |r| == |favorites| - multiset(favorites)[id]
  {
    if id in favorites then
      var r := Filter(favorites, DiffersFrom(id));
      assert id !in r;
      FilterDropsCount(favorites, id);
      r
    else favorites + [id]
  }

  /** Toggling an absent id twice restores the list. */
  lemma ToggleListTwice(favorites: seq<int>, id: int)
    requires id !in favorites
    ensures ToggleList(ToggleList(favorites, id), id) == favorites
  {
    var added := favorites + [id];
    var p := DiffersFrom(id);
    FilterAll(favorites, p);
    FilterAppend(favorites, [id], p);
    assert Filter([id], p) == [];
  }

  /** The toggle keeps a list free of repetitions, so the server's uniqueness check accepts it. */
  lemma ToggleListKeepsDistinct(favorites: seq<int>, id: int)
    requires Distinct(favorites)
    ensures Distinct(ToggleList(favorites, id))
  {
    if id in favorites {
      FilterKeepsDistinct(favorites, DiffersFrom(id));
    }
  }

  /** `toggleFavorite`: the toggled list, saved when signed in. */
  function ToggleFavorite(st: State, authenticated: bool, id: int): (r: (State, seq<Effect>))
    ensures r.0.theme == st.theme
    ensures id in r.0.favorites <==> id !in st.favorites
    ensures forall x :: x != id ==> (x in r.0.favorites <==> x in st.favorites)
    ensures id !in st.favorites ==> r.0.favorites == st.favorites + [id]
    ensures id in st.favorites ==>
      Subsequence(r.0.favorites, st.favorites) && |r.0.favorites| == |st.favorites| - multiset(st.favorites)[id]
    ensures authenticated ==> r.1 == [SaveFavorites(r.0.favorites)]
    ensures !authenticated ==> r.1 == []
  {
    SetFavorites(st, authenticated, ToggleList(st.favorites, id))
  }

  /** When signed in, the fetched preferences replace the local ones, unchecked. */
  function Hydrate(st: State, authenticated: bool, fetched: Option<State>): (r: State)
    ensures authenticated && fetched.Some? ==> r == fetched.value
    ensures !authenticated || fetched.None? ==> r == st
  {
    if authenticated && fetched.Some? then fetched.value else st
  }
}

=== FILE: workspace.dfy ===
/**
 * The workspace page's derived state: the category list, the search and
 * filter pipeline, the selected application, the optimistic favourite
 * toggle and the toast queue.
 */
module Workspace {
  import opened Wrappers
  import opened Strings
  import opened Collections

  /** An application card as the page holds it (display-only fields omitted). */
  datatype AppData = AppData(id: int, name: string, desc: string, category: string, isFavorite: bool)

  datatype ToastKind = Info | Success | Error

  datatype Toast = Toast(id: string, message: string, kind: ToastKind)

  /** `removeToast`: drop every toast with the id, keep the others in order. */
  function RemoveToast(toasts: seq<Toast>, id: string): (r: seq<Toast>)
    ensures forall k :: 0 <= k < |r| ==> r[k].id != id && r[k] in toasts
    ensures forall k :: 0 <= k < |toasts| && toasts[k].id != id ==> toasts[k] in r
    ensures Subsequence(r, toasts)
    ensures forall t :: multiset(r)[t] == if t.id != id then multiset(toasts)[t] else 0
  {
    var keep := (t: Toast) => t.id != id;
    FilterCounts(toasts, keep);
    Filter(toasts, keep)
  }

  /** `categories`: the distinct categories of the applications, ascending. */
  function Categories(apps: seq<AppData>): seq<string> {
    SortedKeys(apps, (a: AppData) => a.category)
  }

  /** The sidebar's two views. */
  datatype View = Dashboard | Favorites

  /** The search applies only when the query has non-whitespace text; the lower-cased query is not trimmed. */
  predicate MatchesSearch(app: AppData, query: string) {
    Trim(JS, query) == "" || Contains(Lower(app.name), Lower(query)) || Contains(Lower(app.desc), Lower(query))
  }

  /** The view filter: favourites only, or the chosen category when one is set (non-empty). */
  predicate MatchesView(app: AppData, view: View, category: Option<string>) {
    match view
    case Favorites => app.isFavorite
    case Dashboard => category.None? || category.value == "" || app.category == category.value
  }

  /** The search as a filter condition. */
  function SearchFor(query: string): AppData -> bool {
    a => MatchesSearch(a, query)
  }

  /** The view as a filter condition. */
  function InView(view: View, category: Option<string>): AppData -> bool {
    a => MatchesView(a, view, category)
  }

  /** `filteredApps`: the search, then the view filter, keeping the original order. */
  function FilteredApps(apps: seq<AppData>, query: string, view: View, category: Option<string>): (r: seq<AppData>)
    ensures forall k :: 0 <= k < |r| ==> r[k] in apps && MatchesSearch(r[k], query) && MatchesView(r[k], view, category)
    ensures forall k :: 0 <= k < |apps| && MatchesSearch(apps[k], query) && MatchesView(apps[k], view, category) ==> apps[k] in r
    ensures Subsequence(r, apps)
    ensures forall a ::
      multiset(r)[a] == if MatchesSearch(a, query) && MatchesView(a, view, category) then multiset(apps)[a] else 0
  {
    ShownKeeps(apps, query, view, category);
    ShownCounts(apps, query, view, category);
    Filter(Filter(apps, SearchFor(query)), InView(view, category))
  }

  lemma ShownKeeps(apps: seq<AppData>, query: string, view: View, category: Option<string>)
    ensures var r := Filter(Filter(apps, SearchFor(query)), InView(view, category));
      (forall k :: 0 <= k < |r| ==> r[k] in apps && MatchesSearch(r[k], query) && MatchesView(r[k], view, category))
      && (forall k :: 0 <= k < |apps| && MatchesSearch(apps[k], query) && MatchesView(apps[k], view, category) ==> apps[k] in r)
      && Subsequence(r, apps)
  {
    FilterTwiceKeeps(apps, SearchFor(query), InView(view, category));
  }

  lemma ShownCounts(apps: seq<AppData>, query: string, view: View, category: Option<string>)
    ensures var r := Filter(Filter(apps, SearchFor(query)), InView(view, category));
      forall a ::
        multiset(r)[a] == if MatchesSearch(a, query) && MatchesView(a, view, category) then multiset(apps)[a] else 0
  {
    FilterTwiceCounts(apps, SearchFor(query), InView(view, category));
  }

  /** A blank query, in the dashboard with no category, shows every application. */
  lemma BlankQueryShowsAll(apps: seq<AppData>, query: string)
    requires Trim(JS, query) == ""
    ensures FilteredApps(apps, query, Dashboard, None) == apps
  {
    FilterAll(apps, SearchFor(query));
    FilterAll(apps, InView(Dashboard, None));
  }

  /** The position of the first application with the id. */
  function FirstWithId(apps: seq<AppData>, id: int): (r: Option<nat>)
    ensures r.None? <==> forall i :: 0 <= i < |apps| ==> apps[i].id != id
    ensures r.Some? ==> r.value < |apps| && apps[r.value].id == id
    ensures r.Some? ==> forall j :: 0 <= j < r.value ==> apps[j].id != id
  {
    if |apps| == 0 then None
    else if apps[0].id == id then Some(0)
    else
      match FirstWithId(apps[1..], id)
      case None => None
      case Some(k) => Some(k + 1)
  }

  /** `selectedApp`: the first application with the selected id, or none. */
  function SelectedApp(apps: seq<AppData>, selected: Option<int>): (r: Option<AppData>)
    ensures r.Some? <==> selected.Some? && exists i :: 0 <= i < |apps| && apps[i].id == selected.value
    ensures r.Some? ==> r.value.id == selected.value && r.value in apps
  {
    if selected.None? then None
    else
      match FirstWithId(apps, selected.value)
      case None => None
      case Some(k) => Some(apps[k])
  }

  /** What a favourite toggle asks of the outside: a toast text and whether to call the server. */
  datatype ToggleOutcome = ToggleOutcome(apps: seq<AppData>, toast: Option<string>, sync: bool)

  /**
   * `handleToggleFav`: nothing happens for an unknown id. Otherwise the new
   * flag is the negation of the first match's, every application with the
   * id gets it, a toast announces it, and the server is told only when it
   * is reachable.
   */
  function HandleToggleFav(apps: seq<AppData>, id: int, isLive: bool): (r: ToggleOutcome)
    ensures FirstWithId(apps, id).None? ==> r == ToggleOutcome(apps, None, false)
    ensures FirstWithId(apps, id).Some? ==>
      var first := apps[FirstWithId(apps, id).value];
      |r.apps| == |apps|
      && (forall i :: 0 <= i < |apps| ==> r.apps[i] == if apps[i].id == id then apps[i].(isFavorite := !first.isFavorite) else apps[i])
      && r.toast == Some((if first.isFavorite then "Removed from" else "Added to") + " favorites: " + first.name)
      && r.sync == isLive
  {
    match FirstWithId(apps, id)
    case None => ToggleOutcome(apps, None, false)
    case Some(k) =>
      var newStatus := !apps[k].isFavorite;
      var next := seq(|apps|, i requires 0 <= i < |apps| => if apps[i].id == id then apps[i].(isFavorite := newStatus) else apps[i]);
      ToggleOutcome(next, Some((if newStatus then "Added to" else "Removed from") + " favorites: " + apps[k].name), isLive)
  }

  /** Toggling twice restores the list when all applications sharing the id agreed on the flag. */
  lemma ToggleFavTwice(apps: seq<AppData>, id: int, isLive: bool)
    requires forall i, j :: 0 <= i < |apps| && 0 <= j < |apps| && apps[i].id == id && apps[j].id == id ==> apps[i].isFavorite == apps[j].isFavorite
    ensures HandleToggleFav(HandleToggleFav(apps, id, isLive).apps, id, isLive).apps == apps
  {
    var once := HandleToggleFav(apps, id, isLive).apps;
    if k :| 0 <= k < |apps| && apps[k].id == id {
      var f := FirstWithId(apps, id).value;
      assert FirstWithId(once, id) == FirstWithId(apps, id) by {
        assert forall i :: 0 <= i < |apps| ==> once[i].id == apps[i].id;
        FirstWithIdSameIds(apps, once, id);
      }
      var twice := HandleToggleFav(once, id, isLive).apps;
      assert |twice| == |apps|;
      forall i | 0 <= i < |apps| ensures twice[i] == apps[i] {
        if apps[i].id == id { assert apps[i].isFavorite == apps[f].isFavorite; }
      }
    }
  }

  /** The first position of an id depends only on the ids. */
  lemma {:induction false} FirstWithIdSameIds(a: seq<AppData>, b: seq<AppData>, id: int)
    requires |a| == |b| && forall i :: 0 <= i < |a| ==> a[i].id == b[i].id
    ensures FirstWithId(a, id) == FirstWithId(b, id)
  {
    if |a| > 0 {
      FirstWithIdSameIds(a[1..], b[1..], id);
    }
  }
}

=== FILE: workspace_nav.dfy ===
/**
 * The workspace chrome: the header's greeting, admin switch, avatar and
 * e-mail line, and the two category bars (the page's navigation with five
 * visible entries and the sidebar tabs with four and per-category icons).
 */
module WorkspaceNav {
  import opened Wrappers
  import opened Strings
  import opened ClientSession

  // ---------------------------------------------------------------------
  // Header

  /** `getGreeting` for the local hour of the day. */
  function Greeting(hour: int): (g: string)
    ensures g == "Good morning" <==> hour < 12
    ensures g == "Good afternoon" <==> 12 <= hour < 18
    ensures g == "Good evening" <==> hour >= 18
  {
    if hour < 12 then "Good morning"
    else if hour < 18 then "Good afternoon"
    else "Good evening"
  }

  function GreetingRank(g: string): nat {
    if g == "Good morning" then 0 else if g == "Good afternoon" then 1 else 2
  }

  /** The greeting only moves forward through the day. */
  lemma GreetingMonotone(h1: int, h2: int)
    requires h1 <= h2
    ensures GreetingRank(Greeting(h1)) <= GreetingRank(Greeting(h2))
  {
  }

  /** What the admin entry of the profile menu does. */
  datatype SwitchOutcome = SwitchOutcome(navigateTo: Option<string>, errorToast: Option<string>, menuOpen: bool)

  const NoAdminAccess := "You do not have admin access"

  /** `handleAdminSwitch`: go to `/admin` when the roles list `"admin"`, otherwise an error toast; the menu closes either way. */
  function AdminSwitch(user: Option<ClientUser>): (r: SwitchOutcome)
    ensures !r.menuOpen
    ensures r.navigateTo.Some? <==> ListsAdmin(user)
    ensures r.navigateTo.Some? ==> r.navigateTo.value == "/admin"
    ensures r.errorToast.Some? <==> !ListsAdmin(user)
    ensures r.errorToast.Some? ==> r.errorToast.value == NoAdminAccess
  {
    if ListsAdmin(user) then SwitchOutcome(Some("/admin"), None, false)
    else SwitchOutcome(None, Some(NoAdminAccess), false)
  }

  /** The header admits exactly the users whose roles list `"admin"`, whatever their `role` field says. */
  lemma AdminSwitchIgnoresRole(user: ClientUser, role: Option<string>)
    ensures AdminSwitch(Some(user.(role := role))) == AdminSwitch(Some(user))
    ensures AdminSwitch(None).navigateTo.None?
  {
  }

  /** The avatar letter: `userName.charAt(0)`, empty for an empty name. */
  function Avatar(userName: string): (a: string)
    ensures |a| <= 1
    ensures |userName| > 0 ==> a == [userName[0]]
  {
    if |userName| == 0 then "" else [userName[0]]
  }

  const MailDomain := "@samsung.com"

  /** The e-mail line: the user's address, else the lower-cased name with each whitespace run made a dot, at the company domain. */
  function EmailLine(user: Option<ClientUser>, userName: string): (e: string)
    ensures user.Some? && Truthy(user.value.email) ==> e == user.value.email.value
    ensures !(user.Some? && Truthy(user.value.email)) ==> e == CollapseSpaces(Lower(userName)) + MailDomain
  {
    if user.Some? && Truthy(user.value.email) then user.value.email.value
    else CollapseSpaces(Lower(userName)) + MailDomain
  }

  /**
   * The fallback address has no whitespace before the domain, ends with
   * the domain, and is the name itself when that is already a lower-case
   * word.
   */
  lemma FallbackEmailShape(userName: string)
    ensures var e := EmailLine(None, userName);
      |e| >= |MailDomain| && e[|e| - |MailDomain|..] == MailDomain
      && forall i :: 0 <= i < |e| - |MailDomain| ==> !IsSpace(JS, e[i])
    ensures IsLowered(userName) && (forall i :: 0 <= i < |userName| ==> !IsSpace(JS, userName[i]))
      ==> EmailLine(None, userName) == userName + MailDomain
  {
    var local := CollapseSpaces(Lower(userName));
    var e := local + MailDomain;
    assert e[|local|..] == MailDomain;
    assert forall i :: 0 <= i < |local| ==> e[i] == local[i];
    if IsLowered(userName) && (forall i :: 0 <= i < |userName| ==> !IsSpace(JS, userName[i])) {
      LowerFixesLowered(userName);
      CollapseSpacesOfClean(userName);
    }
  }

  // ---------------------------------------------------------------------
  // Category bars

  /** The page's category navigation shows five entries before "More". */
  const NavMaxVisible := 5

  /** The sidebar's category tabs show four. */
  const TabsMaxVisible := 4

  /** `categories.slice(0, max)` */
  function Visible(categories: seq<string>, max: nat): (v: seq<string>)
    ensures |v| == if |categories| < max then |categories| else max
    ensures v == categories[..|v|]
  {
    if |categories| < max then categories else categories[..max]
  }

  /** `categories.slice(max)` */
  function Overflow(categories: seq<string>, max: nat): (o: seq<string>)
    ensures |o| == if |categories| < max then 0 else |categories| - max
    ensures o == categories[|categories| - |o|..]
  {
    if |categories| < max then [] else categories[max..]
  }

  /** The two slices split the categories, and "More" exists exactly when there are more than `max`. */
  lemma SlicesPartition(categories: seq<string>, max: nat)
    ensures Visible(categories, max) + Overflow(categories, max) == categories
    ensures |Overflow(categories, max)| > 0 <==> |categories| > max
  {
    var v := Visible(categories, max);
    assert categories == categories[..|v|] + categories[|v|..];
  }

  /** `overflowCategories.includes(activeCategory || '')`: an unset or empty selection looks for the empty name. */
  predicate MoreHighlighted(categories: seq<string>, max: nat, active: Option<string>) {
    (if Truthy(active) then active.value else "") in Overflow(categories, max)
  }

  /**
   * "More" is highlighted exactly when the selection is in the overflow;
   * with nothing selected it is lit only by a category with an empty name.
   */
  lemma MoreHighlightedMeans(categories: seq<string>, max: nat, active: Option<string>)
    ensures active.Some? ==> (MoreHighlighted(categories, max, active) <==> active.value in Overflow(categories, max))
    ensures active.None? ==> (MoreHighlighted(categories, max, active) <==> "" in Overflow(categories, max))
  {
  }

  /** With distinct names, a highlighted "More" means no visible entry is highlighted. */
  lemma HighlightInOnePlace(categories: seq<string>, max: nat, c: string)
    requires forall i, j :: 0 <= i < j < |categories| ==> categories[i] != categories[j]
    requires MoreHighlighted(categories, max, Some(c))
    ensures c !in Visible(categories, max)
  {
    SlicesPartition(categories, max);
  }

  /** The navigation bar's selection and whether its dropdown is open. */
  datatype NavState = NavState(active: Option<string>, dropdownOpen: bool)

  /** "All Tools" is the current entry exactly when nothing is selected (`null`, not `''`). */
  predicate AllToolsActive(s: NavState) {
    s.active.None?
  }

  /** Choosing an overflow entry selects it and closes the dropdown. */
  function ChooseOverflow(s: NavState, category: string): (r: NavState)
    ensures r.active == Some(category) && !r.dropdownOpen
  {
    NavState(Some(category), false)
  }

  /** After choosing an overflow entry, "More" is highlighted and "All Tools" is not. */
  lemma ChosenOverflowHighlightsMore(categories: seq<string>, s: NavState, k: int)
    requires 0 <= k < |Overflow(categories, NavMaxVisible)|
    ensures MoreHighlighted(categories, NavMaxVisible, ChooseOverflow(s, Overflow(categories, NavMaxVisible)[k]).active)
    ensures !AllToolsActive(ChooseOverflow(s, Overflow(categories, NavMaxVisible)[k]))
  {
  }

  datatype Icon = Briefcase | BookOpen | Layout | Database | Settings | Folder

  /** `getCategoryIcon`: the first keyword the lower-cased name contains decides; the size depends on the sidebar's state. */
  function CategoryIcon(category: string, collapsed: bool): (r: (Icon, nat))
    ensures r.1 == if collapsed then 18 else 16
    ensures var l := Lower(category);
      (r.0 == Briefcase <==> Contains(l, "product"))
      && (r.0 == BookOpen <==> !Contains(l, "product") && Contains(l, "know"))
      && (r.0 == Layout <==> !Contains(l, "product") && !Contains(l, "know") && Contains(l, "plat"))
      && (r.0 == Database <==> !Contains(l, "product") && !Contains(l, "know") && !Contains(l, "plat") && Contains(l, "data"))
      && (r.0 == Settings <==> !Contains(l, "product") && !Contains(l, "know") && !Contains(l, "plat")
                               && !Contains(l, "data") && Contains(l, "set"))
  {
    var size := if collapsed then 18 else 16;
    var l := Lower(category);
    var icon :=
      if Contains(l, "product") then Briefcase
      else if Contains(l, "know") then BookOpen
      else if Contains(l, "plat") then Layout
      else if Contains(l, "data") then Database
      else if Contains(l, "set") then Settings
      else Folder;
    (icon, size)
  }

  /** The icon ignores letter case. */
  lemma CategoryIconCaseBlind(category: string, collapsed: bool)
    ensures CategoryIcon(Lower(category), collapsed) == CategoryIcon(category, collapsed)
  {
    LowerIsLowered(category);
    LowerFixesLowered(Lower(category));
  }

  /** A name with "product" anywhere gets the product icon, whatever other keywords it has. */
  lemma ProductWins(category: string, k: nat, collapsed: bool)
    requires k + 7 <= |category| && Lower(category)[k..k + 7] == "product"
    ensures CategoryIcon(category, collapsed).0 == Briefcase
  {
    ContainsAt(Lower(category), "product", k);
  }
}

=== FILE: wrappers.dfy ===
/** Failure-carrying wrappers shared by every module of the model. */
module Wrappers {

  /** A value that may be absent: JavaScript `null`/`undefined`, Python `None`. */
  datatype Option<+T> = None | Some(value: T) {
    function GetOr(default: T): T {
      match this
      case Some(v) => v
      case None => default
    }
  }

  /** Either a value or an error; models a thrown exception or raised error. */
  datatype Result<+T, +E> = Ok(value: T) | Err(error: E)

  /** An optional string that is truthy in JavaScript and Python alike: present and not `""`. */
  predicate Truthy(x: Option<string>) {
    x.Some? && x.value != ""
  }

  /** `x || null` in JavaScript, `x if x else None` in Python: a falsy string becomes absent. */
  function OrNone(x: Option<string>): (r: Option<string>)
    ensures r.Some? <==> Truthy(x)
    ensures r.Some? ==> r == x
  {
    if Truthy(x) then x else None
  }
}
